=== FILE: README.md ===
# Steam peer-to-peer input channel, chat binds, vote options and translation tools

This project is a Dafny model of the core of a game client's Steam peer-to-peer
side channel, together with three smaller client components and two
translation scripts. The operations listed under "Model" carry contracts
and lemmas that state what the source promises of them. The step functions
of the scanning loops (the report reader, the content split, the obsolete
and missing blocks) are plain definitions that those lemmas are about.

The main part is the Steam peer-to-peer input channel:

- **Protocol** is the wire format of `network_p2p.h`. It covers the 4-byte packed
  header (version, kind, size), the three message kinds (PEER_INFO,
  KEEP_ALIVE, INPUT) and the server-address checksum `NetAddrCRC32`. It also
  covers the narrowing of a player input into the compact record and its
  widening back.
- **Crc** is that checksum: the reflected CRC-32 of IEEE 802.3. It is written
  once as a reference function over the bytes and once as the source's
  nested loop.
- **Peers** is `CPeerConnection`: the record kept per lobby member and its
  two strict liveness tests (15 s timeout, 3 s keep-alive interval).
- **InputBuffer** is the `[MAX_CLIENTS][200]` ring of received inputs. A cell
  is indexed by client and by tick modulo 200, and is read back only for the
  exact tick it holds.
- **Manager** is `CSteamP2PManager`. It covers:
  - the peer table;
  - packet intake: header checks, peer creation, per-kind handling;
  - the input broadcast, filtered by server checksum;
  - the keep-alive and timeout sweep;
  - lobby host, join, leave and member sync;
  - the Steam callbacks and the periodic `Update`.

  Each operation is a pure transition. It returns the next state and the
  calls it makes into the Steam client (sends, session closes, lobby
  requests), in order.
- **SteamId** is `CSteamID` (the 64-bit packed id, its validity rules, the
  lobby flag, the static account key) and the `SteamNetworkingIdentity`
  setters, getters and equality.

The smaller components are:

- **BindChat** is the chat-bind list: add, both removals, clear, first-match
  dispatch of a chat line, and the saved configuration lines.
- **Voting** is the vote option list and the vote state. The source's doubly
  linked list and its recycle list are sequences of node numbers.
- **CheckTranslations** is `check_translations.py`. It covers the union of
  extracted strings, the originals of a translation file, the set
  comparison, and the text of the comparison report.
- **UpdateTranslations**, **ReportReading** and **TranslationUpdate** are
  `update_translations.py`:
  - reading the comparison report back;
  - splitting a translation file into header and entries;
  - rewriting the file with obsolete entries moved below the obsolete
    marker and empty entries added for new missing strings.
- **Common**, **Seqs** and **Text** are shared helpers:
  - integer widths and their wrap-around;
  - `Option`;
  - little-endian byte codecs;
  - sequence removal;
  - Python's `strip`, case-insensitive comparison, and the C string escaping
    used by the console.

The hash map iteration order of the peer table is not fixed by the program.
Every operation that walks the table takes that order as a parameter, which
may be any enumeration of the keys. Effects whose order therefore depends on
it are stated as multisets.

Where a piece of code evidently does not do what its authors meant, the
model keeps the code as written and adds a corrected twin; see "Findings".

## Model

| member | source | states |
|---|---|---|
| Common.ConversionsFix | src/engine/client/steamp2p/network_p2p.h:119-125 | The narrowing casts to `uint8_t` and `int8_t` leave a value unchanged exactly when it is in the target range |
| Common.ByteViewsRoundTrip | src/engine/client/steamp2p/network_p2p.h:134-140 | Widening a `uint8_t`/`int8_t` field and narrowing it again gives the field back |
| Common.WordViewsRoundTrip | src/engine/client/steamp2p/steam_p2p.cpp:461-463 | A 32-bit tick stored in a signed `int` compares equal to the unsigned tick it came from |
| Common.Clamp | src/engine/client/steamp2p/steam_p2p.cpp:259-260 | `std::clamp` lands in the bounds, and returns the value itself when it already lies within them |
| Common.LittleEndianRoundTrip | src/engine/client/steamp2p/network_p2p.h:20-25 | Reading back the little-endian bytes of a field gives the field's value |
| Crc.StepIsConditionalXor | src/engine/client/steamp2p/network_p2p.h:108 | The branch-free mask `0xEDB88320 & -(crc & 1)` xors the polynomial in exactly when the bit shifted out is 1 |
| Crc.Crc32OfEmpty | src/engine/client/steamp2p/network_p2p.h:101-111 | The checksum of no bytes is 0: the all-ones preset is complemented straight back |
| Crc.FeedByteLoop | src/engine/client/steamp2p/network_p2p.h:105-109 | The inner loop of eight shifts computes the reference one-byte update |
| Crc.NetAddrCrc32 | src/engine/client/steamp2p/network_p2p.h:99-112 | The loop over every byte of the address computes the reference checksum of those bytes |
| Crc.Crc32CheckValue | src/engine/client/steamp2p/network_p2p.h:99-112 | The checksum of the ASCII text "123456789" is 0xCBF43926, the standard check value of this CRC |
| SteamId.FromFields | src/steam/steam_api_flat.h:292-303 | Packing the four bit-fields gives an id whose fields read back as given |
| SteamId.FieldsDetermineId | src/steam/steam_api_flat.h:292-303 | An id is determined by its four fields |
| SteamId.Clear | src/steam/steam_api_flat.h:257-263 | `Clear` gives the same id as the default constructor, raw value 0 |
| SteamId.Uint64RoundTrip | src/steam/steam_api_flat.h:253-256 | `SetFromUint64` and `ConvertToUint64` are inverse both ways |
| SteamId.SetAccountId | src/steam/steam_api_flat.h:276 | Sets the account field and leaves the other three fields unchanged |
| SteamId.SetAccountInstance | src/steam/steam_api_flat.h:277 | Sets the instance truncated to its 20 bits and leaves the other fields unchanged |
| SteamId.SetUniverse | src/steam/steam_api_flat.h:281 | Sets the universe truncated to its 8 bits and leaves the other fields unchanged |
| SteamId.ZeroIsInvalid | src/steam/steam_api_flat.h:242-263 | A default-constructed or cleared id is not valid |
| SteamId.ValidIsNonZero | src/steam/steam_api_flat.h:306-328 | No valid id has raw value 0 |
| SteamId.IndividualValidity | src/steam/steam_api_flat.h:311-315 | An individual id is valid iff its account is non-zero, its instance is the default user instance and its universe is a real one |
| SteamId.ClanAndServerValidity | src/steam/steam_api_flat.h:316-325 | A clan id is valid iff it has an account, instance 0 and a real universe; a game-server id iff it has an account and a real universe |
| SteamId.LobbyValidity | src/steam/steam_api_flat.h:306-328 | A lobby id is valid exactly when its universe is a real one |
| SteamId.MintedLobbyIsLobby | src/steam/steam_api_flat.h:272-275 | A chat id whose instance carries the lobby flag is a lobby |
| SteamId.StaticAccountKey | src/steam/steam_api_flat.h:268-271 | The key is the id with its instance zeroed: universe at bit 56, type at bit 52, account in the low 32 bits |
| SteamId.StaticKeyIgnoresInstance | src/steam/steam_api_flat.h:268-277 | Changing the instance does not change the static account key |
| SteamId.ComparisonsAreTotalOrder | src/steam/steam_api_flat.h:284-287 | `==` is equality of ids; `>` is the converse of `<`; `<` is a strict total order |
| SteamId.EmptyIdentity | src/steam/steam_api_flat.h:438 | A cleared identity is well formed and of the invalid kind |
| SteamId.SetSteamId64 | src/steam/steam_api_flat.h:442-447 | The identity becomes a Steam-id identity of the Steam-id size |
| SteamId.GetSteamId64 | src/steam/steam_api_flat.h:448 | An identity of any other kind answers 0 |
| SteamId.SteamId64RoundTrip | src/steam/steam_api_flat.h:442-448 | `GetSteamID64` after `SetSteamID64(x)` returns `x` |
| SteamId.SetSteamId | src/steam/steam_api_flat.h:440-441 | `GetSteamID` after `SetSteamID(id)` returns `id` |
| SteamId.GetSteamId | src/steam/steam_api_flat.h:441 | An identity of any other kind yields an invalid id |
| SteamId.IdentityEqualIsEquivalence | src/steam/steam_api_flat.h:492 | Identity `==` is reflexive, symmetric and transitive on well-formed identities |
| SteamId.SteamIdentityEqualIff | src/steam/steam_api_flat.h:442-447 | Two Steam-id identities are equal iff their 64-bit ids are |
| SteamId.SetGenericString | src/steam/steam_api_flat.h:465-474 | Fails and changes nothing when the string does not fit the 32-byte buffer with its terminator; otherwise sets the kind and size = length + 1 |
| SteamId.GetGenericString | src/steam/steam_api_flat.h:475 | Answers a string exactly for generic-string identities |
| SteamId.GenericStringRoundTrip | src/steam/steam_api_flat.h:465-475 | A string that fits reads back unchanged |
| SteamId.SetGenericBytes | src/steam/steam_api_flat.h:476-484 | Fails and changes nothing iff the data is longer than 32 bytes; otherwise sets the kind and size = length |
| SteamId.GetGenericBytes | src/steam/steam_api_flat.h:485-491 | Answers data of the recorded size exactly for generic-bytes identities |
| SteamId.GenericBytesRoundTrip | src/steam/steam_api_flat.h:476-491 | Data that fits reads back unchanged |
| Protocol.DecodeHeader | src/engine/client/steamp2p/network_p2p.h:20-25 | A header is read exactly when at least its 4 bytes are present |
| Protocol.HeaderRoundTrip | src/engine/client/steamp2p/network_p2p.h:20-25 | Version, kind and 16-bit little-endian size read back from the packed header, whatever follows it |
| Protocol.GetPacketType | src/engine/client/steamp2p/network_p2p.h:86-96 | Answers MAX for a buffer shorter than the header or a type byte of at least MAX, and the type byte otherwise |
| Protocol.ConvertToP2PInput | src/engine/client/steamp2p/network_p2p.h:114-127 | Copies the aim, and narrows every other field to its compact width modulo 256 |
| Protocol.ConvertFromP2PInput | src/engine/client/steamp2p/network_p2p.h:129-142 | Widens every compact field to its value |
| Protocol.NetInputRoundTrip | src/engine/client/steamp2p/network_p2p.h:114-142 | Narrowing then widening gives the input back iff buttons and weapons fit in 0..255 and the direction fits in -128..127 |
| Protocol.P2PInputRoundTrip | src/engine/client/steamp2p/network_p2p.h:114-142 | Widening then narrowing gives every compact input back |
| Protocol.HeaderOf | src/engine/client/steamp2p/network_p2p.h:50-82 | Each message constructor stamps version 1, its own kind and its own struct size |
| Protocol.Decode | src/engine/client/steamp2p/steam_p2p.cpp:228-237 | A message is read iff the header passes the length, version and size checks and the kind is known with its struct size |
| Protocol.DecodeBody | src/engine/client/steamp2p/steam_p2p.cpp:245-289 | The per-kind size check: a body is read exactly for a known kind of exactly its struct size, and of that kind |
| Protocol.EncodedHeaderAccepted | src/engine/client/steamp2p/network_p2p.h:50-96 | A freshly built message passes the header checks and reports its own kind |
| Protocol.DecodeEncode | src/engine/client/steamp2p/network_p2p.h:42-83 | Every message reads back as itself from its bytes |
| Protocol.NewMessagesAccepted | src/engine/client/steamp2p/network_p2p.h:58-83 | Default-constructed messages of all three kinds are accepted as themselves |
| Protocol.P2PInputBytesRoundTrip | src/engine/client/steamp2p/network_p2p.h:29-40 | The 16-byte layout of the compact input reads back as the input |
| Peers.NewPeer | src/engine/client/steamp2p/steam_p2p.h:32-40 | A new peer has checksum 0, RTT -1, and both clocks at the creation time |
| Peers.NewPeerIsLive | src/engine/client/steamp2p/steam_p2p.h:32-53 | A new peer is neither timed out nor due a keep-alive until the full interval has elapsed |
| Peers.LivenessBoundaries | src/engine/client/steamp2p/steam_p2p.h:12-13 | Both tests are strict: live at exactly 15000 / 3000 ms, not one millisecond later |
| Peers.LivenessMonotone | src/engine/client/steamp2p/steam_p2p.h:42-53 | Once timed out or due, a peer stays so as time passes |
| Peers.Touch | src/engine/client/steamp2p/steam_p2p.cpp:243 | A peer just heard from has its receive clock set to now, so it is not timed out; its id, send clock, round-trip time, client id and server checksum are unchanged |
| Peers.NoOwnerWhenOwnerCleared | src/engine/client/steamp2p/steam_p2p.h:54-59 | Owner id 0 is invalid, so nobody is lobby owner then, and an owner never has id 0 |
| InputBuffer.Initial | src/engine/client/steamp2p/steam_p2p.h:15-19 | Every cell starts with tick 0 and a zero input |
| InputBuffer.SlotOf | src/engine/client/steamp2p/steam_p2p.cpp:259 | The slot is in 0..199, so the clamp around `% 200` never changes it |
| InputBuffer.RowOf | src/engine/client/steamp2p/steam_p2p.cpp:260 | The row is a valid client index and equals the client id when that id is in range |
| InputBuffer.Lookup | src/engine/client/steamp2p/steam_p2p.cpp:461-466 | A read succeeds exactly when the cell's stored tick, read back as unsigned, is the tick asked for |
| InputBuffer.ReadAfterWrite | src/engine/client/steamp2p/steam_p2p.cpp:259-263 | An input written for a tick reads back for that tick |
| InputBuffer.WriteIsolated | src/engine/client/steamp2p/steam_p2p.cpp:262-263 | A write changes no read of another client or another slot |
| InputBuffer.WriteEvictsOlderLap | src/engine/client/steamp2p/steam_p2p.cpp:259-263 | Writing tick t + 200 after tick t makes t unreadable and t + 200 readable |
| InputBuffer.InitialLookup | src/engine/client/steamp2p/steam_p2p.h:15-19 | The fresh buffer answers only tick 0, with the zero input |
| Manager.Initial | src/engine/client/steamp2p/steam_p2p.h:94-127 | Before `Init`: not initialised, no peers, no valid lobby or owner |
| Manager.Init | src/engine/client/steamp2p/steam_p2p.cpp:18-25 | Initialised iff all three Steam interfaces were obtained |
| Manager.UpdateLocalServer | src/engine/client/steamp2p/steam_p2p.cpp:431-435 | Records the address and its checksum; nothing else changes |
| Manager.ChannelFor | src/engine/client/steamp2p/steam_p2p.cpp:7-10 | Reliable sends go on channel 1, all others on channel 0 |
| Manager.SendMessageToPeer | src/engine/client/steamp2p/steam_p2p.cpp:203-216 | One send on the matching channel, or nothing before `Init` |
| Manager.SendMessageToAll | src/engine/client/steamp2p/steam_p2p.cpp:218-224 | Every peer gets the message exactly once, and nobody else |
| Manager.GetOrCreatePeer | src/engine/client/steamp2p/steam_p2p.cpp:333-350 | A known id changes nothing and sends nothing; a new id adds one fresh peer and sends it one greeting when initialised |
| Manager.GetOrCreatePeerIdempotent | src/engine/client/steamp2p/steam_p2p.cpp:333-350 | A second call for the same id, at any time, changes nothing and sends nothing |
| Manager.GreetingIsReliablePeerInfo | src/engine/client/steamp2p/steam_p2p.cpp:341-347 | The greeting is a reliable send on channel 1 of a well-formed PEER_INFO |
| Manager.RemovePeer | src/engine/client/steamp2p/steam_p2p.cpp:352-363 | The id leaves the table; its session is closed once if it was a peer; unknown ids are ignored |
| Manager.RemoveUndoesCreate | src/engine/client/steamp2p/steam_p2p.cpp:333-363 | Removing a peer just created restores the state and closes the session that was opened |
| Manager.CheckTimeouts | src/engine/client/steamp2p/steam_p2p.cpp:165-182 | Exactly the timed-out peers are dropped, each session closed once; the other peers are untouched |
| Manager.CheckTimeoutsIdempotent | src/engine/client/steamp2p/steam_p2p.cpp:165-182 | A second sweep at the same instant does nothing |
| Manager.KeepAliveSendsAddress | src/engine/client/steamp2p/steam_p2p.cpp:191-198 | The keep-alive loop only sends KEEP_ALIVE messages carrying our server address |
| Manager.KeepAliveOnce | src/engine/client/steamp2p/steam_p2p.cpp:186-201 | Each peer due a keep-alive gets exactly one, and nobody else |
| Manager.SendKeepAlives | src/engine/client/steamp2p/steam_p2p.cpp:186-201 | The due peers get one keep-alive each and their send clock reset; afterwards no peer is due |
| Manager.SendInputs | src/engine/client/steamp2p/steam_p2p.cpp:74-99 | Nothing before `Init` or without a valid lobby; otherwise one INPUT to exactly the peers whose checksum is 0 or our server's. It returns no new state, so no send clock is reset |
| Manager.HandleBodyPeers | src/engine/client/steamp2p/steam_p2p.cpp:243-286 | The sender is marked heard from now and takes the server checksum a KEEP_ALIVE reports |
| Manager.HandleBodyBuffer | src/engine/client/steamp2p/steam_p2p.cpp:247-265 | The buffer changes only for a well-formed INPUT about our server, which it stores |
| Manager.ProcessPacket | src/engine/client/steamp2p/steam_p2p.cpp:226-290 | A packet failing the header checks changes nothing. Otherwise the sender becomes a peer heard from now, even when the body is then rejected, and only an accepted INPUT touches the buffer |
| Manager.UnknownKindStillCreatesPeer | src/engine/client/steamp2p/steam_p2p.cpp:239-249 | An honest header of an unknown kind still creates and refreshes the sender's peer |
| Manager.GetPeerInput | src/engine/client/steamp2p/steam_p2p.cpp:456-468 | Answers iff initialised, in a valid lobby, and the cell holds exactly this tick, with that cell's input |
| Manager.InputDelivery | src/engine/client/steamp2p/steam_p2p.cpp:74-99 | End to end: an input broadcast by one client and processed by a peer on the same server is what that peer reads for the sender's client and tick |
| Manager.ProcessEachHears | src/engine/client/steamp2p/steam_p2p.cpp:140-163 | After a batch, every sender whose message passed the header checks is a peer heard from now |
| Manager.ProcessEachKeepsHeard | src/engine/client/steamp2p/steam_p2p.cpp:140-163 | A peer heard from now stays so through the rest of the batch |
| Manager.PollIngress | src/engine/client/steamp2p/steam_p2p.cpp:140-163 | Nothing before `Init`; otherwise no peer is lost and only the table and the buffer change |
| Manager.LeaveLobby | src/engine/client/steamp2p/steam_p2p.cpp:58-72 | Every session closed once and the table emptied; a valid lobby is left and cleared exactly when matchmaking is available |
| Manager.LeaveLobbyIdempotent | src/engine/client/steamp2p/steam_p2p.cpp:58-72 | Leaving twice is leaving once |
| Manager.HostLobbyPrivate | src/engine/client/steamp2p/steam_p2p.cpp:32-42 | Fails iff not initialised; otherwise leaves any lobby and requests a private one last |
| Manager.JoinLobbyById | src/engine/client/steamp2p/steam_p2p.cpp:44-56 | Fails iff not initialised; otherwise leaves any lobby and requests the join last |
| Manager.OnLobbyCreated | src/engine/client/steamp2p/steam_p2p.cpp:365-376 | Adopts the lobby on success; the pending request ends either way |
| Manager.OnLobbyKicked | src/engine/client/steamp2p/steam_p2p.cpp:378-381 | Being kicked is leaving the lobby |
| Manager.OnLobbyEnter | src/engine/client/steamp2p/steam_p2p.cpp:383-403 | On success, adopts the lobby and makes a peer of every member but ourselves, greeting each new one once; existing peers are unchanged |
| Manager.UpdateLobbyMembers | src/engine/client/steamp2p/steam_p2p.cpp:292-331 | In a valid lobby, the peers become exactly the valid members (ourselves excepted unless already a peer); kept peers are unchanged, new ones fresh |
| Manager.UpdateLobbyMembersOnlyGreetsAndCloses | src/engine/client/steamp2p/steam_p2p.cpp:292-331 | Member sync only greets and closes sessions |
| Manager.UpdateLobbyMembersCloses | src/engine/client/steamp2p/steam_p2p.cpp:316-330 | Exactly the peers that are no longer valid members have their session closed, once each |
| Manager.UpdateLobbyMembersGreets | src/engine/client/steamp2p/steam_p2p.cpp:303-314 | Exactly the newly created peers are greeted, once each |
| Manager.NewcomersJoin | src/engine/client/steamp2p/steam_p2p.cpp:303-314 | The peers created are exactly the joining members that were not peers before |
| Manager.OnLobbyChatUpdate | src/engine/client/steamp2p/steam_p2p.cpp:405-429 | Any departure flag removes the user; otherwise an entry flag creates the peer; otherwise nothing |
| Manager.ChatUpdateDepartureWins | src/engine/client/steamp2p/steam_p2p.cpp:405-429 | A mask reporting both entry and departure removes the user |
| Manager.UpdateLobbyOwner | src/engine/client/steamp2p/steam_p2p.cpp:101-112 | As written, the owner update never changes the state |
| Manager.UpdateLobbyOwnerFixed | src/engine/client/steamp2p/steam_p2p.cpp:101-112 | Corrected: in a valid lobby the recorded owner becomes Steam's answer, and nothing else changes |
| Manager.OwnerUpdateLost | src/engine/client/steamp2p/steam_p2p.cpp:106-111 | A valid reported owner is not the owner after the as-written update, and is after the corrected one |
| Manager.Update | src/engine/client/steamp2p/steam_p2p.cpp:121-138 | Nothing outside a valid lobby; otherwise afterwards no peer is timed out or due a keep-alive, and lobby and owner are unchanged |
| Manager.ApplyKeepsOwner | src/engine/client/steamp2p/steam_p2p.cpp:101-112 | No event changes the recorded lobby owner |
| Manager.NobodyEverOwnsTheLobby | src/engine/client/steamp2p/steam_p2p.cpp:101-119 | From any state with no recorded owner, after any run of events, neither we nor any peer counts as lobby owner |
| BindChat.AddBind | src/game/client/components/tclient/bindchat.cpp:38-47 | No-op when both strings are empty or the list is full; otherwise appends exactly that bind; the size bound is kept |
| BindChat.RemoveBind | src/game/client/components/tclient/bindchat.cpp:49-57 | Removes only the first equal bind, keeping the others in order; no-op when none matches |
| BindChat.RemoveBindAt | src/game/client/components/tclient/bindchat.cpp:59-65 | No-op for an index out of range; otherwise removes exactly that element, shifting the rest |
| BindChat.RemoveAllBinds | src/game/client/components/tclient/bindchat.cpp:67-70 | Leaves the list empty |
| BindChat.RemoveBindUndoesAdd | src/game/client/components/tclient/bindchat.cpp:38-57 | Removing a bind just added, which was not present before, restores the list |
| BindChat.RemoveBindAtUndoesAdd | src/game/client/components/tclient/bindchat.cpp:38-65 | Removing the last index after a successful add restores the list |
| BindChat.Arguments | src/game/client/components/tclient/bindchat.cpp:98-104 | Arguments exist iff the text has a space, and are everything after the first one |
| BindChat.CompareNoCaseNumIsPrefixEquality | src/game/client/components/tclient/bindchat.cpp:102 | `str_comp_nocase_num(a, b, n)` is 0 iff the first n characters (or fewer, if a string ends) agree ignoring case |
| BindChat.BindMatchesIsNamePrefix | src/game/client/components/tclient/bindchat.cpp:98-102 | As written, a bind matches iff the first word is a case-insensitive prefix of its name |
| BindChat.ShortWordRunsLongerBind | src/game/client/components/tclient/bindchat.cpp:98-102 | As written, "!h" runs the bind "!help", and so does a line starting with a space |
| BindChat.BindMatchesExactlyIsWholeWord | src/game/client/components/tclient/bindchat.cpp:95-113 | Corrected: a bind matches iff the first word equals its name ignoring case, which rejects both examples above |
| BindChat.ExecuteLine | src/game/client/components/tclient/bindchat.cpp:83-93 | The line run is the command, followed by a space and the arguments when there are any, without the buffer's length cut (see Left out) |
| BindChat.ChatDoBinds | src/game/client/components/tclient/bindchat.cpp:95-114 | Dispatches iff some bind matches, and runs the first matching bind in list order with the line's arguments |
| BindChat.ChatDoBindsExact | src/game/client/components/tclient/bindchat.cpp:95-114 | The same dispatch with the corrected whole-word match |
| BindChat.ConfigLines | src/game/client/components/tclient/bindchat.cpp:171-190 | One saved line per bind, in list order |
| BindChat.ConfigLineReadsBack | src/game/client/components/tclient/bindchat.cpp:180-188 | Each saved `add_bindchat "name" "command"` line reads back as its bind, for lines that fit the save buffer (see Left out) |
| BindChat.SaveThenLoadRestoresBinds | src/game/client/components/tclient/bindchat.cpp:14-21 | Running the saved lines after an existing list rebuilds that list followed by the saved binds, in order, for lines that fit the save buffer (see Left out) |
| Text.EscapeReadsBack | src/game/client/components/tclient/bindchat.cpp:183-188 | An escaped string followed by a closing quote reads back as the string, leaving what follows |
| Text.StripSpec | scripts/update_translations.py:69 | `strip` removes exactly the leading and trailing white space |
| Text.StripIdempotent | scripts/update_translations.py:69 | Stripping twice is stripping once |
| Text.EqualsNoCaseIsEquivalence | src/game/client/components/voting.cpp:21-23 | Case-insensitive equality is an equivalence |
| Voting.ClearOptions | src/game/client/components/voting.cpp:176-186 | No options, count 0, a reset heap, and a recycle list reachable from its head |
| Voting.AddOption | src/game/client/components/voting.cpp:149-174 | Appends the description and increments the count; takes a heap node iff the recycle head is unset |
| Voting.AddOptions | src/game/client/components/voting.cpp:240-260 | The descriptions are appended in order and the count grows by their number |
| Voting.ListAdd | src/game/client/components/voting.cpp:236-261 | The list-add message appends the first min(NumOptions, 15) descriptions, none for a negative number |
| Voting.Unlink | src/game/client/components/voting.cpp:276-284 | Unlinking drops exactly that option and its node, and decrements the count |
| Voting.RemoveOption | src/game/client/components/voting.cpp:267-298 | As written: removes only the first equal description, keeping the order, and decrements the count; no-op when none matches; the recycle head and the heap are unchanged |
| Voting.RemoveOptionFixed | src/game/client/components/voting.cpp:267-298 | Corrected: the same removal, leaving the recycle list reachable from its head |
| Voting.RecycledNodeNeverReused | src/game/client/components/voting.cpp:286-293 | As written, a removed node is never reused: the next add takes a new heap node and the recycle list only grows |
| Voting.RecycledNodeReused | src/game/client/components/voting.cpp:152-160 | Corrected: the next add reuses a recycled node and takes nothing from the heap |
| Voting.RemovalsAgreeOnOptions | src/game/client/components/voting.cpp:267-298 | Both removals leave the same options and count |
| Voting.RemoveUndoesAdd | src/game/client/components/voting.cpp:149-174 | Removing a description just added, which was not present, restores the option list |
| Voting.NthOption | src/game/client/components/voting.cpp:70-94 | The walk finds an option iff 0 <= id < count, and it is the id-th one |
| Voting.CallvoteOption | src/game/client/components/voting.cpp:68-95 | Acts iff 0 <= id < count, on the id-th option: a forced `force_vote option` line, or a call-vote message |
| Voting.RemovevoteOption | src/game/client/components/voting.cpp:97-116 | Acts iff 0 <= id < count, sending `remove_vote` for the id-th option |
| Voting.RemoveVoteLineReadsBack | src/game/client/components/voting.cpp:104-109 | The quoted description in the `remove_vote` line reads back as the description |
| Voting.ForceOptionLineReadsBack | src/game/client/components/voting.cpp:77-85 | The `force_vote option` line reads back as the description and the reason |
| Voting.OnReset | src/game/client/components/voting.cpp:188-195 | Zeroes the tallies, the own vote and the close time, and empties description and reason |
| Voting.VoteSet | src/game/client/components/voting.cpp:205-223 | Always resets; with a timeout, adopts description and reason and closes `timeout` seconds later |
| Voting.Vote | src/game/client/components/voting.cpp:131-136 | Records the vote and sends it |
| Voting.ConVote | src/game/client/components/voting.cpp:18-25 | "yes" votes +1 and "no" votes -1, ignoring case; any other word does nothing |
| Voting.ConVoteIgnoresCase | src/game/client/components/voting.cpp:21-23 | Words equal up to case have the same effect |
| Voting.Initial | src/game/client/components/voting.cpp:138-147 | The constructor's state: no options, no vote cast |
| Voting.OnMessage | src/game/client/components/voting.cpp:203-299 | The count equals the list length after every message; option messages leave the vote alone, and vote messages leave the options alone |
| Voting.RecycleHeadNeverSet | src/game/client/components/voting.cpp:292-293 | In any run of messages the recycle head stays unset |
| Voting.AddOptionsKeepsHeadUnset | src/game/client/components/voting.cpp:149-174 | Adding options never sets the recycle head |
| CheckTranslations.UnescapeKeepsEscapedQuotes | scripts/check_translations.py:164 | As written, the unescaping leaves every `\"` of an extracted string in place |
| CheckTranslations.UnescapeFixedRecovers | scripts/check_translations.py:164 | Corrected: unescaping recovers the string whose quotes were escaped |
| CheckTranslations.QuotedWordCounterexample | scripts/check_translations.py:164 | As written, `say \"hi\"` keeps its backslashes; the corrected unescaping gives `say "hi"` |
| CheckTranslations.ExtractStringsFromMemory | scripts/check_translations.py:150-166 | The result is exactly the unescaped strings of all files |
| CheckTranslations.ScanRecords | scripts/check_translations.py:182-189 | A line is recorded iff it is an original (non-empty, no `//` or `#`, next line starts with `==`) and the line before it was not recorded |
| CheckTranslations.TranslationLineNotRecorded | scripts/check_translations.py:187-188 | The line after a recorded original is never itself recorded |
| CheckTranslations.ExtractTranslatedOriginals | scripts/check_translations.py:168-194 | The loop returns the stripped text of exactly the recorded lines |
| CheckTranslations.CompareTranslations | scripts/check_translations.py:208-211 | Missing and obsolete are the two set differences: disjoint, each partitioning its side with the common strings; missing is empty iff every source string is translated |
| CheckTranslations.CompareTranslationsSymmetry | scripts/check_translations.py:208-209 | Swapping the sides swaps missing and obsolete; a side compared with itself gives nothing |
| CheckTranslations.Width3 | scripts/check_translations.py:252 | `{n:3d}` is the decimal digits of n after at most two spaces of padding |
| CheckTranslations.ItemLines | scripts/check_translations.py:251-252 | One numbered line per string, numbered from the first number on |
| UpdateTranslations.CaptureSpec | scripts/update_translations.py:81-83 | The greedy group is the longest non-empty text before a quote on the first line |
| UpdateTranslations.CaptureQuoted | scripts/update_translations.py:81-83 | A key without line breaks, followed by a quote, is captured whole |
| UpdateTranslations.ReadAppend | scripts/update_translations.py:68-87 | Reading a report in two parts continues from where the first part left off |
| UpdateTranslations.ReadPasses | scripts/update_translations.py:77-78 | Rule, total and empty lines, and unmatched lines, leave the parse where it was |
| UpdateTranslations.ReadItems | scripts/update_translations.py:80-87 | Numbered keys in a section join that section's list in order |
| ReportReading.ItemRead | scripts/update_translations.py:80-83 | A report item line, written for a key without line breaks or section marks, reads as that key |
| ReportReading.ReportRoundTrip | scripts/update_translations.py:52-96 | The report check_translations.py writes reads back as exactly its missing and obsolete lists, in order |
| TranslationUpdate.HeaderEndSpec | scripts/update_translations.py:117-129 | The header runs up to and including the first translated-strings marker |
| TranslationUpdate.HeaderEndUnmarked | scripts/update_translations.py:117-129 | A file without the marker is all header |
| TranslationUpdate.ParsedKeys | scripts/update_translations.py:131-133 | A key exists iff some content line is a key line: not `#`, not empty, followed by a line starting with `==` |
| TranslationUpdate.OriginalsAreKeys | scripts/update_translations.py:131-133 | Every original check_translations.py records below the header is an existing key of the updater |
| TranslationUpdate.NewMissing | scripts/update_translations.py:156 | A key is kept iff it is reported missing and is neither existing nor obsolete; nothing is kept when every missing key is known |
| TranslationUpdate.NewMissingInOrder | scripts/update_translations.py:156 | The comprehension keeps report order: the keys kept from a concatenated report are those of the first part followed by those of the second, and one key is kept iff it is new |
| TranslationUpdate.NewMissingCounts | scripts/update_translations.py:156 | A new key is kept exactly as often as the report lists it, any other key never |
| TranslationUpdate.SplitDropsMarkers | scripts/update_translations.py:170-173 | No obsolete marker line stays in the current content |
| TranslationUpdate.SplitMovesEntry | scripts/update_translations.py:175-191 | Before the marker, an obsolete key followed by a `==` line and a blank line leaves the current lines, and those three lines join the moved entries, in place |
| TranslationUpdate.SplitMovesShortEntry | scripts/update_translations.py:175-191 | Before the marker, an obsolete key followed by a `==` line but no blank line leaves the current lines, and those two lines join the moved entries, in place |
| TranslationUpdate.ObsoleteLinesFollowMarker | scripts/update_translations.py:201-229 | As written: the current lines follow the header, before the obsolete block; the block starts with the marker and a blank line, then the moved entries, and ends with the lines that were already obsolete; with neither there is no block |
| TranslationUpdate.ObsoleteLinesFollowMarkerFixed | scripts/update_translations.py:201-229 | Corrected: the same layout, the block starting after the line break added when the text before it does not end a line |
| TranslationUpdate.SplitConserves | scripts/update_translations.py:165-199 | Current, moved and existing obsolete lines together are exactly the content's non-marker lines |
| TranslationUpdate.SplitUntouched | scripts/update_translations.py:175-195 | Content without marker and without obsolete keys stays current as it was |
| TranslationUpdate.UpdateKeepsHeader | scripts/update_translations.py:204-205 | The rewritten file starts with the header unchanged |
| TranslationUpdate.UpdateKeepsLines | scripts/update_translations.py:202-229 | Every non-marker content line is still in the rewritten file, as often as before |
| TranslationUpdate.UpdateAddsMissing | scripts/update_translations.py:211-216 | Each new missing key gets its key line and `== key` line, starting on a fresh line |
| TranslationUpdate.MissingEntriesAt | scripts/update_translations.py:213-216 | Each key's entry is its key line, `== key` line and blank line, in key order |
| TranslationUpdate.FixedAgreesBeforeBlock | scripts/update_translations.py:202-216 | The corrected rewrite differs from the written one only from the obsolete block on |
| TranslationUpdate.FixedMarkerStartsLine | scripts/update_translations.py:219-221 | Corrected: the obsolete marker always starts a line of its own |
| TranslationUpdate.UpdateUnchanged | scripts/update_translations.py:201-229 | Nothing to add and nothing to move leaves the file unchanged |
| TranslationUpdate.MarkerGlued | scripts/update_translations.py:219-229 | As written, a file ending without a line break, with an entry to move, gets the marker glued to its last line |

## Left out

- The Steam client itself. Matchmaking, messaging, user and connection calls are effects in the returned trace, and their answers are parameters.
- `std::chrono`. Every operation takes one integer millisecond reading `now`.
- `dbg_msg` logging, the `Instance()` singleton, `Shutdown`, and `GetPeerRTT`, which only relays a transport value.
- `CP2PPreInput` stores the tick in a signed `int`. The model keeps the reinterpretation, but a stored input's `m_PlayerFlags` is not carried, because `ConvertFromP2PInput` never sets it.
- The protocol has no ping or pong message (network_p2p.h declares only PEER_INFO, KEEP_ALIVE and INPUT), so a peer's RTT is never measured and stays -1.
- The byte codecs write multi-byte fields little-endian. The source sends its structs in the host's native order, so the model is the little-endian host.
- The padding bytes of `CP2PPlayerInput` and `CP2PInputMsg`, indeterminate in the source, are encoded as 0.
- `MAX_CLIENTS`, `MAX_NAME_LENGTH` and `sizeof(NETADDR)` come from game headers outside the modelled files; they take the game's values 64, 16 and 24.
- An address is an opaque sequence of 24 bytes rather than the `NETADDR` layout.
- The PEER_INFO name is read and dropped, as in the source. Its truncation to the name buffer is not modelled.
- Truncation to fixed buffers is not modelled. This covers `str_copy` into bind names and commands, vote descriptions and reasons, and the 128-byte rcon lines. It also covers the `BINDCHAT_MAX_CMD` buffer that `ExecuteBind` fills with `str_append` (bindchat.cpp:85-90) and the `BINDCHAT_MAX_CMD * 2` buffer that `ConfigSaveCallback` fills with a bounded `str_escape` (bindchat.cpp:177-188). These helpers and the constant are defined outside the modelled files, and they count UTF-8 bytes, while the model's strings are sequences of characters.
- `BINDCHAT_MAX_BINDS` is defined outside the modelled files, so the limit is a parameter.
- BindChat.ExecuteLine: always the whole command, space and arguments. The source cuts the line to `BINDCHAT_MAX_CMD` bytes before the console runs it, so a long argument loses its tail there.
- BindChat.ConfigLineReadsBack: holds for every bind in the model, but in the source only for binds whose escaped save line fits `BINDCHAT_MAX_CMD * 2` bytes. A name and command with many `"` or `\` escape to more than that: the line loses its tail and closing quote and does not read back as the bind.
- BindChat.SaveThenLoadRestoresBinds: stated only for binds whose escaped save line fits `BINDCHAT_MAX_CMD * 2` bytes, for the reason given for ConfigLineReadsBack. Each saved line is one list element, so a bind name or command holding a line break, which the real file would split into two lines, is not covered. The reader also refuses text after the closing quote that the console's argument parser would ignore.
- `ChatDoAutocomplete`, chat history entries, vote rendering and auto-vote, the vote notification sound, and `OnConsoleInit` registration are left out. They work on UI state.
- `CallvoteSpectate`, `CallvoteKick` and `AddvoteOption` are left out. They format an id into a string and send it.
- Python's `sorted` order of report items is taken as given: the report functions receive the lists already sorted.
- The pattern's `\d` is taken as ASCII digits only.
- File reading and writing and `print` are left out. A file is the list of lines `readlines` returns; a report is a list of lines without their line breaks.
- `extract_tc_localize_strings`, its regular expression and directory walk, `_save_extracted_strings` and `extract_strings_from_extracted_file` are left out. Extraction results enter as lists of strings.
- CheckTranslations.UnescapeFixedRecovers: stated only for strings without backslashes of their own, so the escaping is unambiguous.
- ReportReading.ReportRoundTrip: stated only for keys that are non-empty, contain no line break, and contain neither section heading text ("Missing translations", "Potentially obsolete translations"), because the reader would take such a line for a heading or split it. The report's lines are taken as split at '\n' only: Python's universal-newline reading also ends a line at '\r' and '\r\n', so a key holding '\r' reads back split in the real script but not in the model.
- ReportReading.ItemRead: the same restriction on keys as ReportReading.ReportRoundTrip.
- Voting.RemoveOption: node addresses are small numbers and the heap is a count. A node reuse shows as a count that does not grow.

## Findings

| source | as written | input that shows it | evidently intended | confidence | as-written member | corrected member |
|---|---|---|---|---|---|---|
| src/engine/client/steamp2p/steam_p2p.cpp:106-111 | When Steam reports a new owner, the old owner id is assigned back to `m_LobbyOwnerID` | Any valid lobby whose reported owner differs from the recorded one | Record the reported owner, as the log line announces | high, not executed | Manager.UpdateLobbyOwner, Manager.OwnerUpdateLost, Manager.NobodyEverOwnsTheLobby | Manager.UpdateLobbyOwnerFixed |
| src/game/client/components/voting.cpp:292-293 | After appending to the recycle list, `m_pRecycleLast` is assigned again where `m_pRecycleFirst` was meant | Remove any option, then add one: a new heap node is taken | Set the recycle head when the list was empty, so removed nodes get reused | high, not executed | Voting.RemoveOption, Voting.RecycledNodeNeverReused, Voting.RecycleHeadNeverSet | Voting.RemoveOptionFixed, Voting.RecycledNodeReused |
| src/game/client/components/tclient/bindchat.cpp:98-102 | Only the first-word-length characters of the bind name are compared | Text "!h" with a bind "!help", and text " hello" (empty first word) with any bind | Run a bind only when the first word is its whole name | medium, not executed | BindChat.BindMatchesIsNamePrefix, BindChat.ShortWordRunsLongerBind, BindChat.ChatDoBinds | BindChat.BindMatchesExactlyIsWholeWord, BindChat.ChatDoBindsExact |
| scripts/check_translations.py:164 | `replace('\\\\"', '"')` looks for a backslash, a backslash and a quote, which an extracted `\"` never contains | The extracted string `say \"hi\"` | Replace each `\"` by `"` | medium, not executed | CheckTranslations.UnescapeKeepsEscapedQuotes, CheckTranslations.QuotedWordCounterexample | CheckTranslations.UnescapeFixedRecovers |
| scripts/update_translations.py:219-229 | The obsolete marker is appended right after the last line, which may lack a line break | A file whose last line `== B` has no line break, nothing new missing, and the entry of key `a` to move | Start the marker on a line of its own | medium, not executed | TranslationUpdate.MarkerGlued | TranslationUpdate.FixedMarkerStartsLine |

=== FILE: bindchat.dfy ===
/**
  The chat-bind list: named console commands that a chat line starting with
  the bind's name runs instead of being sent. Binds are kept in insertion
  order; strings are the text of the source's C strings, up to their
  terminator.
 */
module BindChat {
  import opened Common
  import opened Seqs
  import opened Text

  datatype Bind = Bind(name: string, command: string)

  /**
    The list as the operations keep it: never longer than the limit, and no
    bind with both an empty name and an empty command. The limit,
    `BINDCHAT_MAX_BINDS`, is a parameter.
   */
  predicate Valid(binds: seq<Bind>, maxBinds: nat)
  {
    |binds| <= maxBinds && Bind([], []) !in binds
  }

  /** `AddBind`: append the bind at the end, unless both strings are empty or the list is full. */
  function AddBind(binds: seq<Bind>, maxBinds: nat, name: string, command: string): (r: seq<Bind>)
    ensures (name == [] && command == []) || |binds| >= maxBinds ==> r == binds
    ensures !(name == [] && command == []) && |binds| < maxBinds ==>
              |r| == |binds| + 1 && r[..|binds|] == binds && r[|binds|] == Bind(name, command)
    ensures Valid(binds, maxBinds) ==> Valid(r, maxBinds)
  {
    if (name == [] && command == []) || |binds| >= maxBinds then binds
    else binds + [Bind(name, command)]
  }

  /** `RemoveBind(name, command)`: drop the first bind equal to the pair, keeping the others in order. */
  function RemoveBind(binds: seq<Bind>, name: string, command: string): (r: seq<Bind>)
    ensures Bind(name, command) !in binds ==> r == binds
    ensures Bind(name, command) in binds ==>
              var i := FirstIndex(binds, Bind(name, command)).value;
              Bind(name, command) !in binds[..i] && r == binds[..i] + binds[i + 1..]
    ensures multiset(r) <= multiset(binds)
    ensures forall n: nat :: Valid(binds, n) ==> Valid(r, n)
  {
    var b := Bind(name, command);
    RemoveFirstShrinks(binds, b);
    var r := RemoveFirst(binds, b);
    if b in binds then RemoveAtSplits(binds, FirstIndex(binds, b).value); r else r
  }

  /** `RemoveBind(index)`: drop the bind at `index`; an index outside the list is ignored. */
  function RemoveBindAt(binds: seq<Bind>, index: int): (r: seq<Bind>)
    ensures index < 0 || index >= |binds| ==> r == binds
    ensures 0 <= index < |binds| ==> |r| == |binds| - 1
    ensures forall j :: 0 <= j < index && j < |r| ==> r[j] == binds[j]
    ensures 0 <= index ==> forall j :: index <= j < |r| ==> r[j] == binds[j + 1]
    ensures forall n: nat :: Valid(binds, n) ==> Valid(r, n)
  {
    if index < 0 || index >= |binds| then binds
    else
      RemoveAtShifts(binds, index);
      RemoveAt(binds, index)
  }

  /** `RemoveAllBinds`. */
  function RemoveAllBinds(binds: seq<Bind>): (r: seq<Bind>)
    ensures |r| == 0
    ensures forall n: nat :: Valid(r, n)
  {
    []
  }

  /** Adding a bind the list does not hold yet, then removing it by value, restores the list. */
  lemma RemoveBindUndoesAdd(binds: seq<Bind>, maxBinds: nat, name: string, command: string)
    requires Bind(name, command) !in binds
    ensures RemoveBind(AddBind(binds, maxBinds, name, command), name, command) == binds
  {
    var added := AddBind(binds, maxBinds, name, command);
    if added != binds {
      assert added == binds + [Bind(name, command)];
      assert FirstIndex(added, Bind(name, command)).value == |binds|;
    }
  }

  /** Removing the last position undoes an `AddBind` that took effect. */
  lemma RemoveBindAtUndoesAdd(binds: seq<Bind>, maxBinds: nat, name: string, command: string)
    requires !(name == [] && command == []) && |binds| < maxBinds
    ensures RemoveBindAt(AddBind(binds, maxBinds, name, command), |binds|) == binds
  {
  }

  // Dispatch

  /** Where the first word of a chat line ends: the first space, or the end of the line. */
  function SpaceIndex(text: string): (k: nat)
    ensures k <= |text| && ' ' !in text[..k]
    ensures k < |text| ==> text[k] == ' '
  {
    if text == [] || text[0] == ' ' then 0
    else
      var k := SpaceIndex(text[1..]);
      assert text[..k + 1] == [text[0]] + text[1..][..k];
      k + 1
  }

  function FirstWord(text: string): (w: string)
  {
    text[..SpaceIndex(text)]
  }

  /** The arguments handed to the bind: the text after the first space, if the line has a space. */
  function Arguments(text: string): (args: Option<string>)
    ensures args.Some? <==> ' ' in text
    ensures args.Some? ==> text == FirstWord(text) + " " + args.value
  {
    var k := SpaceIndex(text);
    if k < |text| then
      assert text == text[..k] + " " + text[k + 1..];
      Some(text[k + 1..])
    else
      assert text[..k] == text;
      None
  }

  /**
    `str_comp_nocase_num(a, b, n) == 0`, as the C library's `strncasecmp`
    computes it: at most `n` characters are compared after case folding, and
    reaching the end of both strings together ends the comparison.
   */
  function CompareNoCaseNum(a: string, b: string, n: nat): (equal: bool)
  {
    if n == 0 then true
    else if a == [] || b == [] then a == [] && b == []
    else LowerChar(a[0]) == LowerChar(b[0]) && CompareNoCaseNum(a[1..], b[1..], n - 1)
  }

  /** The bounded comparison is case-insensitive equality of the two strings cut to `n` characters. */
  lemma {:induction false} CompareNoCaseNumIsPrefixEquality(a: string, b: string, n: nat)
    ensures CompareNoCaseNum(a, b, n) <==> EqualsNoCase(a[..Min(|a|, n)], b[..Min(|b|, n)])
  {
    var x, y := a[..Min(|a|, n)], b[..Min(|b|, n)];
    if n == 0 {
      assert x == [] && y == [];
    } else if a == [] || b == [] {
      assert |Lower(x)| == |x| && |Lower(y)| == |y|;
      assert x == [] <==> a == [];
      assert y == [] <==> b == [];
    } else {
      CompareNoCaseNumIsPrefixEquality(a[1..], b[1..], n - 1);
      PrefixCons(a, n);
      PrefixCons(b, n);
      EqualsNoCaseCons(x, y);
    }
  }

  lemma PrefixCons(a: string, n: nat)
    requires a != [] && n > 0
    ensures a[..Min(|a|, n)] != [] && a[..Min(|a|, n)][0] == a[0]
    ensures a[..Min(|a|, n)][1..] == a[1..][..Min(|a| - 1, n - 1)]
  {
  }

  /** The test `ChatDoBinds` applies to each bind: the line and the name agree on the first word's length. */
  predicate BindMatches(text: string, name: string)
  {
    CompareNoCaseNum(text, name, SpaceIndex(text))
  }

  /**
    As written, a bind fires when the line's first word is a case-insensitive
    prefix of its name, not only when it is the whole name.
   */
  lemma BindMatchesIsNamePrefix(text: string, name: string)
    ensures BindMatches(text, name) <==>
              |FirstWord(text)| <= |name| && EqualsNoCase(FirstWord(text), name[..|FirstWord(text)|])
  {
    var k := SpaceIndex(text);
    CompareNoCaseNumIsPrefixEquality(text, name, k);
    assert text[..Min(|text|, k)] == FirstWord(text);
  }

  /** A chat line whose first word is a strict prefix of a bind's name runs that bind. */
  lemma ShortWordRunsLongerBind()
    ensures BindMatches("!h", "!help")
    ensures BindMatches(" hello", "!help")
  {
    BindMatchesIsNamePrefix("!h", "!help");
    assert FirstWord("!h") == "!h";
    assert "!help"[..2] == "!h";
  }

  /** The evidently intended test: the first word is the bind's whole name, ignoring case. */
  predicate BindMatchesExactly(text: string, name: string)
  {
    BindMatches(text, name) && |name| == SpaceIndex(text)
  }

  /** The corrected test accepts exactly the names equal to the first word, ignoring case. */
  lemma BindMatchesExactlyIsWholeWord(text: string, name: string)
    ensures BindMatchesExactly(text, name) <==> EqualsNoCase(FirstWord(text), name)
    ensures !BindMatchesExactly("!h", "!help") && !BindMatchesExactly(" hello", "!help")
  {
    BindMatchesIsNamePrefix(text, name);
    BindMatchesIsNamePrefix(" hello", "!help");
    assert FirstWord(" hello") == [];
  }

  /** `ExecuteBind`'s line: the bind's command, then a space and the arguments when the line had any. The `BINDCHAT_MAX_CMD` buffer's length cut is not modelled. */
  function ExecuteLine(command: string, args: Option<string>): (line: string)
    ensures args.None? ==> line == command
    ensures args.Some? ==> |line| > |command| && line[..|command|] == command && line[|command|..] == " " + args.value
  {
    match args
    case None => command
    case Some(a) => command + " " + a
  }

  /** What a chat line dispatched: the position of the bind that ran and the console line it executed. */
  datatype Dispatch = Dispatch(index: nat, line: string)

  /** The first bind, in list order, whose name `matches` accepts. */
  method FirstBind(binds: seq<Bind>, matches: string -> bool) returns (found: Option<nat>)
    ensures found.None? <==> forall i :: 0 <= i < |binds| ==> !matches(binds[i].name)
    ensures found.Some? ==> found.value < |binds| && matches(binds[found.value].name)
    ensures found.Some? ==> forall j :: 0 <= j < found.value ==> !matches(binds[j].name)
  {
    var i := 0;
    while i < |binds|
      invariant 0 <= i <= |binds|
      invariant forall j :: 0 <= j < i ==> !matches(binds[j].name)
    {
      if matches(binds[i].name) {
        return Some(i);
      }
      i := i + 1;
    }
    return None;
  }

  /**
    `ChatDoBinds`: run the first bind the line matches, with the text after
    the first space as its arguments. `None` means the line is not a bind and
    goes to chat.
   */
  method ChatDoBinds(binds: seq<Bind>, text: string) returns (r: Option<Dispatch>)
    ensures r.None? <==> forall i :: 0 <= i < |binds| ==> !BindMatches(text, binds[i].name)
    ensures r.Some? ==> r.value.index < |binds| && BindMatches(text, binds[r.value.index].name)
    ensures r.Some? ==> forall j :: 0 <= j < r.value.index ==> !BindMatches(text, binds[j].name)
    ensures r.Some? ==> r.value.line == ExecuteLine(binds[r.value.index].command, Arguments(text))
  {
    var found := FirstBind(binds, name => BindMatches(text, name));
    match found
    case None =>
      r := None;
    case Some(i) =>
      r := Some(Dispatch(i, ExecuteLine(binds[i].command, Arguments(text))));
  }

  /** `ChatDoBinds` with the corrected whole-word test. */
  method ChatDoBindsExact(binds: seq<Bind>, text: string) returns (r: Option<Dispatch>)
    ensures r.None? <==> forall i :: 0 <= i < |binds| ==> !EqualsNoCase(FirstWord(text), binds[i].name)
    ensures r.Some? ==> r.value.index < |binds| && EqualsNoCase(FirstWord(text), binds[r.value.index].name)
    ensures r.Some? ==> forall j :: 0 <= j < r.value.index ==> !EqualsNoCase(FirstWord(text), binds[j].name)
    ensures r.Some? ==> r.value.line == ExecuteLine(binds[r.value.index].command, Arguments(text))
  {
    forall name: string
      ensures BindMatchesExactly(text, name) <==> EqualsNoCase(FirstWord(text), name)
    {
      BindMatchesExactlyIsWholeWord(text, name);
    }
    var found := FirstBind(binds, name => BindMatchesExactly(text, name));
    match found
    case None =>
      r := None;
    case Some(i) =>
      r := Some(Dispatch(i, ExecuteLine(binds[i].command, Arguments(text))));
  }

  // Saving

  const ADD_COMMAND := "add_bindchat"

  /** The line `ConfigSaveCallback` writes for one bind: both strings escaped and quoted, as if the `BINDCHAT_MAX_CMD * 2` buffer never fills. */
  function ConfigLine(b: Bind): (line: string)
    ensures StartsWith(line, ADD_COMMAND + " \"")
  {
    ADD_COMMAND + " \"" + Escape(b.name) + "\" \"" + Escape(b.command) + "\""
  }

  /** The lines `ConfigSaveCallback` writes: one per bind, in list order. */
  function ConfigLines(binds: seq<Bind>): (lines: seq<string>)
    ensures |lines| == |binds|
    ensures forall i :: 0 <= i < |binds| ==> lines[i] == ConfigLine(binds[i])
  {
    if binds == [] then [] else [ConfigLine(binds[0])] + ConfigLines(binds[1..])
  }

  /**
    How the console reads a saved line back into the two arguments of
    `add_bindchat`: the command word, a space, and two quoted arguments
    separated by a space, with nothing after them.
   */
  function ReadConfigLine(line: string): (b: Option<Bind>)
  {
    var head := ADD_COMMAND + " \"";
    if !StartsWith(line, head) then None
    else
      match ReadQuoted(line[|head|..])
      case None => None
      case Some((name, rest)) =>
        if !StartsWith(rest, " \"") then None
        else
          match ReadQuoted(rest[2..])
          case None => None
          case Some((command, tail)) => if tail == [] then Some(Bind(name, command)) else None
  }

  /** Each saved line reads back as the bind it was written for. */
  lemma ConfigLineReadsBack(b: Bind)
    ensures ReadConfigLine(ConfigLine(b)) == Some(b)
  {
    var tail := " \"" + Escape(b.command) + "\"";
    QuotedPairReadsBack(ADD_COMMAND + " \"", b.name, b.command);
    assert StartsWith(tail, " \"");
  }

  /** Executing `add_bindchat` for each saved line, in order, starting from an empty list. */
  function Replay(binds: seq<Bind>, maxBinds: nat, lines: seq<string>): (r: seq<Bind>)
    decreases |lines|
  {
    if lines == [] then binds
    else
      var next := match ReadConfigLine(lines[0])
        case Some(b) => AddBind(binds, maxBinds, b.name, b.command)
        case None => binds;
      Replay(next, maxBinds, lines[1..])
  }

  /** Loading what was saved rebuilds the same list, in the same order. */
  lemma {:induction false} SaveThenLoadRestoresBinds(prefix: seq<Bind>, binds: seq<Bind>, maxBinds: nat)
    requires Valid(prefix + binds, maxBinds)
    ensures Replay(prefix, maxBinds, ConfigLines(binds)) == prefix + binds
    decreases |binds|
  {
    if binds == [] {
      assert prefix + binds == prefix;
    } else {
      var b := binds[0];
      assert (prefix + binds)[|prefix|] == b;
      var grown := prefix + [b];
      assert grown + binds[1..] == prefix + binds;
      ReplayFirstLine(prefix, maxBinds, binds);
      SaveThenLoadRestoresBinds(grown, binds[1..], maxBinds);
    }
  }

  lemma ReplayFirstLine(prefix: seq<Bind>, maxBinds: nat, binds: seq<Bind>)
    requires binds != [] && |prefix| < maxBinds && binds[0] != Bind([], [])
    ensures Replay(prefix, maxBinds, ConfigLines(binds)) == Replay(prefix + [binds[0]], maxBinds, ConfigLines(binds[1..]))
  {
    var lines := ConfigLines(binds);
    ConfigLineReadsBack(binds[0]);
    assert lines[1..] == ConfigLines(binds[1..]);
  }
}

=== FILE: check_translations.dfy ===
/**
  check_translations.py, the translation check: the set of strings the source code asks to be
  localised, the set of originals a translation file already translates,
  and the two differences between them. Files are lists of lines; a line
  holds no line break except, where the file has one, its final one.
 */
module CheckTranslations {
  import opened Common
  import opened Text

  // Strings from the source code

  /**
    Python's `s.replace(pattern, replacement)` for a non-empty pattern:
    occurrences are replaced left to right, without overlapping.
   */
  function Replace(s: string, pattern: string, replacement: string): (r: string)
    requires |pattern| > 0
    ensures !Contains(s, pattern) ==> r == s
    decreases |s|
  {
    if |s| < |pattern| then s
    else if s[..|pattern|] == pattern then
      assert OccursAt(s, pattern, 0);
      replacement + Replace(s[|pattern|..], pattern, replacement)
    else
      assert Contains(s[1..], pattern) ==> Contains(s, pattern) by {
        if Contains(s[1..], pattern) {
          var i :| 0 <= i <= |s| - 1 - |pattern| && OccursAt(s[1..], pattern, i);
          assert s[i + 1..i + 1 + |pattern|] == s[1..][i..i + |pattern|];
          assert OccursAt(s, pattern, i + 1);
        }
      }
      [s[0]] + Replace(s[1..], pattern, replacement)
  }

  /** The text the unescaping looks for, as written: a backslash, a backslash and a quote. */
  const UNESCAPE_PATTERN := "\\\\\""

  /** The escaped quote as it appears between the quotes of a C string literal. */
  const ESCAPED_QUOTE := "\\\""

  /** The unescaping `extract_strings_from_memory` applies to each extracted string, as written. */
  function UnescapeQuotes(s: string): string
  {
    Replace(s, UNESCAPE_PATTERN, "\"")
  }

  /** The evidently intended unescaping: an escaped quote becomes a quote. */
  function UnescapeQuotesFixed(s: string): string
  {
    Replace(s, ESCAPED_QUOTE, "\"")
  }

  /** How a string without backslashes is spelled inside a C string literal: a backslash before each quote. */
  function QuoteEscaped(s: string): (r: string)
    requires '\\' !in s
    ensures forall i :: 0 <= i < |r| && r[i] == '\\' ==> i + 1 < |r| && r[i + 1] == '"'
    ensures forall i :: 0 <= i < |r| && r[i] == '"' ==> 0 < i && r[i - 1] == '\\'
  {
    if s == [] then []
    else
      var head := if s[0] == '"' then ESCAPED_QUOTE else [s[0]];
      var rest := QuoteEscaped(s[1..]);
      assert forall i :: |head| <= i < |head| + |rest| ==> (head + rest)[i] == rest[i - |head|];
      head + rest
  }

  /**
    As written, the unescaping never finds its pattern in a spelled-out
    string, so escaped quotes keep their backslashes.
   */
  lemma UnescapeKeepsEscapedQuotes(s: string)
    requires '\\' !in s
    ensures UnescapeQuotes(QuoteEscaped(s)) == QuoteEscaped(s)
  {
    var q := QuoteEscaped(s);
    forall i | 0 <= i <= |q| - 3
      ensures !OccursAt(q, UNESCAPE_PATTERN, i)
    {
      assert q[i..i + 3][0] == q[i] && q[i..i + 3][1] == q[i + 1];
    }
  }

  /** The corrected unescaping recovers the string from its spelling. */
  lemma {:induction false} UnescapeFixedRecovers(s: string)
    requires '\\' !in s
    ensures UnescapeQuotesFixed(QuoteEscaped(s)) == s
  {
    if s != [] {
      UnescapeFixedRecovers(s[1..]);
      var rest := QuoteEscaped(s[1..]);
      if s[0] == '"' {
        assert QuoteEscaped(s) == ESCAPED_QUOTE + rest;
        assert (ESCAPED_QUOTE + rest)[..2] == ESCAPED_QUOTE;
        assert (ESCAPED_QUOTE + rest)[2..] == rest;
      } else {
        assert QuoteEscaped(s) == [s[0]] + rest;
        assert ([s[0]] + rest)[1..] == rest;
      }
    }
  }

  /** A string with a quote in it: the as-written unescaping leaves it spelled out, the corrected one does not. */
  lemma QuotedWordCounterexample()
    ensures UnescapeQuotes("say \\\"hi\\\"") == "say \\\"hi\\\""
    ensures UnescapeQuotesFixed("say \\\"hi\\\"") == "say \"hi\""
  {
    var s := "say \"hi\"";
    assert QuoteEscaped(s) == "say \\\"hi\\\"";
    UnescapeKeepsEscapedQuotes(s);
    UnescapeFixedRecovers(s);
  }

  /** `x` is, after unescaping, one of the strings extracted from some file. */
  predicate Extracted(files: seq<seq<string>>, x: string)
  {
    exists i, j :: 0 <= i < |files| && 0 <= j < |files[i]| && x == UnescapeQuotes(files[i][j])
  }

  /** `extract_strings_from_memory`: the union, over every file, of its unescaped strings. */
  method ExtractStringsFromMemory(files: seq<seq<string>>) returns (all: set<string>)
    ensures forall x :: x in all <==> Extracted(files, x)
  {
    all := {};
    var i := 0;
    while i < |files|
      invariant 0 <= i <= |files|
      invariant forall x :: x in all <==> exists f, j :: 0 <= f < i && 0 <= j < |files[f]| && x == UnescapeQuotes(files[f][j])
    {
      var j := 0;
      while j < |files[i]|
        invariant 0 <= j <= |files[i]|
        invariant forall x :: x in all <==>
                    (exists f, k :: 0 <= f < i && 0 <= k < |files[f]| && x == UnescapeQuotes(files[f][k]))
                    || (exists k :: 0 <= k < j && x == UnescapeQuotes(files[i][k]))
      {
        all := all + {UnescapeQuotes(files[i][j])};
        j := j + 1;
      }
      i := i + 1;
    }
  }

  // Originals in a translation file

  /** A line `extract_translated_originals` records when it looks at it: text that is not a comment, followed by a translation. */
  predicate IsOriginalAt(lines: seq<string>, k: nat)
  {
    && k + 1 < |lines|
    && Strip(lines[k]) != []
    && !StartsWith(Strip(lines[k]), "//") && !StartsWith(Strip(lines[k]), "#")
    && StartsWith(Strip(lines[k + 1]), "==")
  }

  /** Which lines are candidates, one flag per line. */
  function Candidates(lines: seq<string>): (c: seq<bool>)
    ensures |c| == |lines| && forall k :: 0 <= k < |lines| ==> c[k] == IsOriginalAt(lines, k)
  {
    seq(|lines|, k requires 0 <= k < |lines| => IsOriginalAt(lines, k))
  }

  /** The positions a left-to-right scan from `i` records; after a recorded position it skips the next one. */
  function ScanFlags(c: seq<bool>, i: nat): (r: set<nat>)
    ensures forall k :: k in r ==> i <= k < |c| && c[k]
    decreases |c| - i
  {
    if i >= |c| then {}
    else if c[i] then {i} + ScanFlags(c, i + 2)
    else ScanFlags(c, i + 1)
  }

  /** A recorded position is a candidate that does not directly follow a recorded one. */
  lemma {:induction false} ScanFlagsRecords(c: seq<bool>, i: nat, k: nat)
    requires i <= k < |c|
    ensures k in ScanFlags(c, i) <==> c[k] && (k == i || k - 1 !in ScanFlags(c, i))
    decreases |c| - i
  {
    if i < k {
      if c[i] {
        if k > i + 1 {
          ScanFlagsRecords(c, i + 2, k);
        }
      } else {
        ScanFlagsRecords(c, i + 1, k);
      }
    }
  }

  /** The lines the scan of `extract_translated_originals` records, starting at line `i`. */
  function Scan(lines: seq<string>, i: nat): (r: set<nat>)
    ensures forall k :: k in r ==> i <= k && IsOriginalAt(lines, k)
  {
    ScanFlags(Candidates(lines), i)
  }

  /** One step of the scan. */
  lemma ScanStep(lines: seq<string>, i: nat)
    requires i < |lines|
    ensures IsOriginalAt(lines, i) ==> Scan(lines, i) == {i} + Scan(lines, i + 2)
    ensures !IsOriginalAt(lines, i) ==> Scan(lines, i) == Scan(lines, i + 1)
  {
    assert Candidates(lines)[i] == IsOriginalAt(lines, i);
  }

  /**
    Which lines are recorded: exactly the candidate lines that are not
    themselves the translation of a recorded line.
   */
  lemma ScanRecords(lines: seq<string>, i: nat, k: nat)
    requires i <= k
    ensures k in Scan(lines, i) <==> IsOriginalAt(lines, k) && (k == i || k - 1 !in Scan(lines, i))
  {
    if k < |lines| {
      ScanFlagsRecords(Candidates(lines), i, k);
    }
  }

  /** A line read as the translation of a recorded original is never recorded itself. */
  lemma TranslationLineNotRecorded(lines: seq<string>, k: nat)
    requires k in Scan(lines, 0)
    ensures k + 1 !in Scan(lines, 0)
  {
    ScanRecords(lines, 0, k + 1);
  }

  /** The stripped text of the lines at positions `ks`. */
  function StrippedAt(lines: seq<string>, ks: set<nat>): (r: set<string>)
    requires forall k :: k in ks ==> k < |lines|
    ensures forall x :: x in r <==> exists k :: k in ks && x == Strip(lines[k])
  {
    set k | k in ks :: Strip(lines[k])
  }

  /** The stripped text of the recorded lines. */
  function TranslatedOriginals(lines: seq<string>): set<string>
  {
    StrippedAt(lines, Scan(lines, 0))
  }

  /** `extract_translated_originals` over the lines of a translation file. */
  method ExtractTranslatedOriginals(lines: seq<string>) returns (originals: set<string>)
    ensures originals == TranslatedOriginals(lines)
  {
    originals := {};
    ghost var recorded: set<nat> := {};
    var i := 0;
    while i < |lines|
      invariant 0 <= i <= |lines| + 1
      invariant Scan(lines, 0) == recorded + Scan(lines, i)
      invariant forall k :: k in recorded ==> k < |lines|
      invariant originals == StrippedAt(lines, recorded)
      decreases |lines| - i
    {
      ScanStep(lines, i);
      var line := Strip(lines[i]);
      var isOriginal := line != [] && !StartsWith(line, "//") && !StartsWith(line, "#")
                        && i + 1 < |lines| && StartsWith(Strip(lines[i + 1]), "==");
      assert isOriginal == IsOriginalAt(lines, i);
      if isOriginal {
        originals := originals + {line};
        recorded := recorded + {i};
        i := i + 1;
      }
      i := i + 1;
    }
    assert Scan(lines, i) == {};
  }

  // Comparing

  datatype Comparison = Comparison(missing: set<string>, obsolete: set<string>)

  /**
    `compare_translations`: the source strings without a translation, and the
    translated originals the source no longer uses.
   */
  function CompareTranslations(source: set<string>, translated: set<string>): (r: Comparison)
    ensures r.missing !! r.obsolete && r.missing !! translated && r.obsolete !! source
    ensures r.missing + (source * translated) == source && r.missing !! (source * translated)
    ensures r.obsolete + (source * translated) == translated && r.obsolete !! (source * translated)
    ensures r.missing == {} <==> source <= translated
  {
    Comparison(source - translated, translated - source)
  }

  /** Comparing a set with itself finds nothing, and swapping the sets swaps the two differences. */
  lemma CompareTranslationsSymmetry(source: set<string>, translated: set<string>)
    ensures CompareTranslations(source, source) == Comparison({}, {})
    ensures CompareTranslations(translated, source) ==
              Comparison(CompareTranslations(source, translated).obsolete, CompareTranslations(source, translated).missing)
  {
  }

  // The comparison report

  function Repeat(c: char, n: nat): (r: string)
    ensures |r| == n && forall i :: 0 <= i < n ==> r[i] == c
  {
    if n == 0 then [] else [c] + Repeat(c, n - 1)
  }

  function DigitChar(d: nat): (c: char)
    requires d < 10
    ensures '0' <= c <= '9'
  {
    ('0' as int + d) as char
  }

  /** Python's decimal `str` of a natural number. */
  function Decimal(n: nat): (r: string)
    ensures |r| > 0 && forall i :: 0 <= i < |r| ==> '0' <= r[i] <= '9'
  {
    if n < 10 then [DigitChar(n)] else Decimal(n / 10) + [DigitChar(n % 10)]
  }

  /** Python's `f"{n:3d}"`: the decimal text right-aligned in three columns. */
  function Width3(n: nat): (r: string)
    ensures exists pad :: 0 <= pad <= 2 && r == Repeat(' ', pad) + Decimal(n)
  {
    var d := Decimal(n);
    var pad := if |d| >= 3 then 0 else 3 - |d|;
    Repeat(' ', pad) + d
  }

  // The fixed texts of the report. The three long lines are spelled in pieces; each is the one line the script writes.
  const REPORT_NAME := "Translation Comparison Results"
  const SOURCE_COUNT_TEXT := "Total strings in source code: "
  const TRANSLATED_COUNT_TEXT := "Total original strings" + " in translation file: "
  const TOTAL_TEXT := "Total "
  const MISSING_TOTAL_TAIL := " missing translations."
  const OBSOLETE_TOTAL_TAIL := " potentially obsolete" + " translations."
  const MISSING_HEADING := "Missing translations" + " (exist in source" + " but not in translation file):"
  const OBSOLETE_HEADING := "Potentially obsolete translations" + " (exist in translation file" + " but not in source):"
  const ALL_PRESENT := "\U{2705} All strings from source code" + " have corresponding entries" + " in translation file."

  /** One numbered report line: the number, a dot, and the string in quotes. */
  function ItemLine(n: nat, s: string): string
  {
    Width3(n) + ". \"" + s + "\""
  }

  /** The numbered lines for `items`, counting from `first`. */
  function ItemLines(items: seq<string>, first: nat): (r: seq<string>)
    ensures |r| == |items|
    ensures forall j :: 0 <= j < |items| ==> r[j] == ItemLine(first + j, items[j])
  {
    if items == [] then [] else [ItemLine(first, items[0])] + ItemLines(items[1..], first + 1)
  }

  /** The top of the report: a title, a rule, and the two counts. */
  function ReportTitle(sourceCount: nat, translatedCount: nat): (lines: seq<string>)
  {
    [REPORT_NAME, Repeat('=', 50), "",
     SOURCE_COUNT_TEXT + Decimal(sourceCount),
     TRANSLATED_COUNT_TEXT + Decimal(translatedCount), ""]
  }

  /** A listed section: its heading, a rule, the numbered items, a blank line and the total. */
  function Section(heading: string, items: seq<string>, total: string): (lines: seq<string>)
  {
    [heading, Repeat('-', 50)] + ItemLines(items, 1) + ["", total]
  }

  /** The missing strings numbered from 1, or a line saying that none are missing. */
  function MissingPart(missing: seq<string>): (lines: seq<string>)
  {
    if missing != [] then
      Section(MISSING_HEADING, missing, TOTAL_TEXT + Decimal(|missing|) + MISSING_TOTAL_TAIL) + [""]
    else [ALL_PRESENT, ""]
  }

  /** The obsolete strings numbered from 1; nothing when there are none. */
  function ObsoletePart(obsolete: seq<string>): (lines: seq<string>)
  {
    if obsolete != [] then
      Section(OBSOLETE_HEADING, obsolete, TOTAL_TEXT + Decimal(|obsolete|) + OBSOLETE_TOTAL_TAIL)
    else []
  }

  /**
    The report `_save_comparison_result` writes, as lines: a title, the
    counts, then the missing strings (or a line saying none are missing),
    then the obsolete strings when there are any, each list in the order
    given.
   */
  function ComparisonReport(missing: seq<string>, obsolete: seq<string>, sourceCount: nat, translatedCount: nat): (lines: seq<string>)
  {
    ReportTitle(sourceCount, translatedCount) + MissingPart(missing) + ObsoletePart(obsolete)
  }
}

=== FILE: common.dfy ===
/**
  Fixed-width integers, the optional-value wrapper and the little-endian byte
  codec shared by every other module.

  C++ integer types are modelled as subset types of `int`; the implicit and
  `static_cast` conversions between them are written out as the modular
  reductions the compiler performs.
 */
module Common {

  type u8 = x: int | 0 <= x < 0x100
  type i8 = x: int | -0x80 <= x < 0x80
  type u16 = x: int | 0 <= x < 0x1_0000
  type i32 = x: int | -0x8000_0000 <= x < 0x8000_0000
  type u32 = x: int | 0 <= x < 0x1_0000_0000
  type u64 = x: int | 0 <= x < 0x1_0000_0000_0000_0000

  datatype Option<T> = None | Some(value: T)

  /** Conversion of any integer to `uint8_t`: the unique byte congruent to it. */
  function ToU8(x: int): (r: u8)
    ensures (x - r) % 0x100 == 0
  {
    x % 0x100
  }

  /** Conversion of any integer to `int8_t` (two's complement wrap-around). */
  function ToI8(x: int): (r: i8)
    ensures (x - r) % 0x100 == 0
  {
    var m := x % 0x100;
    if m < 0x80 then m else m - 0x100
  }

  /** Conversion of any integer to `uint32_t`. */
  function ToU32(x: int): (r: u32)
    ensures (x - r) % 0x1_0000_0000 == 0
  {
    x % 0x1_0000_0000
  }

  /** Conversion of any integer to `int32_t` (two's complement wrap-around). */
  function ToI32(x: int): (r: i32)
    ensures (x - r) % 0x1_0000_0000 == 0
  {
    var m := x % 0x1_0000_0000;
    if m < 0x8000_0000 then m else m - 0x1_0000_0000
  }

  /** A value that already fits is left alone by every conversion. */
  lemma ConversionsFix(x: int)
    ensures 0 <= x < 0x100 ==> ToU8(x) == x
    ensures -0x80 <= x < 0x80 ==> ToI8(x) == x
    ensures 0 <= x < 0x1_0000_0000 ==> ToU32(x) == x
    ensures -0x8000_0000 <= x < 0x8000_0000 ==> ToI32(x) == x
  {
  }

  /** Signed and unsigned 8-bit views of a byte are inverse to each other. */
  lemma ByteViewsRoundTrip(b: u8, c: i8)
    ensures ToU8(ToI8(b)) == b
    ensures ToI8(ToU8(c)) == c
  {
  }

  /** Signed and unsigned 32-bit views of a word are inverse to each other. */
  lemma WordViewsRoundTrip(w: u32, v: i32)
    ensures ToU32(ToI32(w)) == w
    ensures ToI32(ToU32(v)) == v
  {
  }

  function Clamp(x: int, lo: int, hi: int): (r: int)
    requires lo <= hi
    ensures lo <= r <= hi
    ensures lo <= x <= hi ==> r == x
    ensures x < lo ==> r == lo
    ensures hi < x ==> r == hi
  {
    if x < lo then lo else if hi < x then hi else x
  }

  function Min(a: int, b: int): int
  {
    if a <= b then a else b
  }

  /** `n` zero bytes, the contents of a value-initialised buffer. */
  function Zeros(n: nat): (r: seq<u8>)
    ensures |r| == n && forall i :: 0 <= i < n ==> r[i] == 0
  {
    if n == 0 then [] else [0] + Zeros(n - 1)
  }

  function Pow256(n: nat): (r: nat)
    ensures r >= 1
  {
    if n == 0 then 1 else 0x100 * Pow256(n - 1)
  }

  /** The `n` bytes of `x` in little-endian order, least significant first. */
  function LittleEndian(x: nat, n: nat): (r: seq<u8>)
    ensures |r| == n
  {
    if n == 0 then [] else [x % 0x100] + LittleEndian(x / 0x100, n - 1)
  }

  /** The unsigned value of a little-endian byte string. */
  function FromLittleEndian(s: seq<u8>): (r: nat)
    ensures r < Pow256(|s|)
  {
    if |s| == 0 then 0
    else
      var rest := FromLittleEndian(s[1..]);
      assert rest <= Pow256(|s| - 1) - 1;
      assert 0x100 * rest <= 0x100 * Pow256(|s| - 1) - 0x100;
      s[0] + 0x100 * rest
  }

  /** Decoding the encoding of a value that fits in `n` bytes gives it back. */
  lemma {:induction false} LittleEndianRoundTrip(x: nat, n: nat)
    requires x < Pow256(n)
    ensures FromLittleEndian(LittleEndian(x, n)) == x
  {
    if n > 0 {
      var e := LittleEndian(x, n);
      assert e[1..] == LittleEndian(x / 0x100, n - 1);
      assert x / 0x100 < Pow256(n - 1);
      LittleEndianRoundTrip(x / 0x100, n - 1);
    }
  }

  /** Encoding the value of a byte string reproduces the string. */
  lemma {:induction false} FromLittleEndianRoundTrip(s: seq<u8>)
    ensures LittleEndian(FromLittleEndian(s), |s|) == s
  {
    if |s| > 0 {
      var v := FromLittleEndian(s);
      var rest := FromLittleEndian(s[1..]);
      assert v % 0x100 == s[0];
      assert v / 0x100 == rest;
      FromLittleEndianRoundTrip(s[1..]);
    }
  }
}

=== FILE: crc.dfy ===
/**
  The server-address fingerprint `NetAddrCRC32`: the reflected CRC-32 of
  IEEE 802.3 (polynomial 0xEDB88320, register preset to all ones, final
  complement), computed bit by bit over every byte of the address.
 */
module Crc {
  import opened Common

  const POLYNOMIAL: bv32 := 0xEDB8_8320
  const PRESET: bv32 := 0xFFFF_FFFF

  /** One shift of the register, exactly as the source writes it. */
  function Step(c: bv32): bv32
  {
    (c >> 1) ^ (POLYNOMIAL & -(c & 1))
  }

  /** The branch-free mask in `Step` selects the polynomial exactly when the bit shifted out is set. */
  lemma StepIsConditionalXor(c: bv32)
    ensures c & 1 == 1 ==> Step(c) == (c >> 1) ^ POLYNOMIAL
    ensures c & 1 == 0 ==> Step(c) == c >> 1
  {
  }

  /** `k` successive shifts of the register. */
  function Steps(c: bv32, k: nat): bv32
  {
    if k == 0 then c else Step(Steps(c, k - 1))
  }

  const BITS_PER_BYTE: nat := 8

  /** Feeding one byte: xor it into the low bits, then shift once per bit. */
  function FeedByte(c: bv32, b: u8): bv32
  {
    Steps(c ^ (b as bv32), BITS_PER_BYTE)
  }

  /** The register after feeding all of `data` into a preset register. */
  function Register(data: seq<u8>): bv32
  {
    if |data| == 0 then PRESET
    else FeedByte(Register(data[..|data| - 1]), data[|data| - 1])
  }

  /** The final complement, read back as an unsigned 32-bit integer. */
  function Finish(c: bv32): u32
  {
    (!c) as int
  }

  /** The checksum of `data`. */
  function Crc32(data: seq<u8>): u32
  {
    Finish(Register(data))
  }

  /** The checksum of no bytes is zero: the preset is all ones and is complemented. */
  lemma Crc32OfEmpty()
    ensures Crc32([]) == 0
  {
  }

  /** The body of the outer loop of `NetAddrCRC32`: xor one byte in, then shift eight times. */
  method FeedByteLoop(c0: bv32, b: u8) returns (c: bv32)
    ensures c == FeedByte(c0, b)
  {
    c := c0 ^ (b as bv32);
    ghost var start := c;
    var j := 0;
    while j < BITS_PER_BYTE
      invariant 0 <= j <= BITS_PER_BYTE
      invariant c == Steps(start, j)
    {
      c := Step(c);
      j := j + 1;
    }
  }

  /** `NetAddrCRC32`: every byte of the address fed in order, then the register complemented. */
  method NetAddrCrc32(data: seq<u8>) returns (crc: u32)
    ensures crc == Crc32(data)
  {
    var c: bv32 := PRESET;
    var i := 0;
    while i < |data|
      invariant 0 <= i <= |data|
      invariant c == Register(data[..i])
    {
      c := FeedByteLoop(c, data[i]);
      assert data[..i + 1][..i] == data[..i];
      i := i + 1;
    }
    assert data[..i] == data;
    crc := Finish(c);
  }

  // The standard check value

  /** Feeding one byte is eight explicit shifts. */
  lemma FeedByteUnrolled(c: bv32, b: u8)
    ensures var x := c ^ (b as bv32);
      FeedByte(c, b) == Step(Step(Step(Step(Step(Step(Step(Step(x))))))))
  {
    var x := c ^ (b as bv32);
    assert Steps(x, 1) == Step(x);
    assert Steps(x, 2) == Step(Steps(x, 1));
    assert Steps(x, 3) == Step(Steps(x, 2));
    assert Steps(x, 4) == Step(Steps(x, 3));
    assert Steps(x, 5) == Step(Steps(x, 4));
    assert Steps(x, 6) == Step(Steps(x, 5));
    assert Steps(x, 7) == Step(Steps(x, 6));
    assert Steps(x, 8) == Step(Steps(x, 7));
  }

  lemma FeedByteIs(c: bv32, b: u8, r: bv32)
    requires var x := c ^ (b as bv32); Step(Step(Step(Step(Step(Step(Step(Step(x)))))))) == r
    ensures FeedByte(c, b) == r
  {
    FeedByteUnrolled(c, b);
  }

  /** Feeding one more byte extends the register of the prefix. */
  lemma RegisterExtends(data: seq<u8>, i: nat, r: bv32, r': bv32)
    requires i < |data| && Register(data[..i]) == r && FeedByte(r, data[i]) == r'
    ensures Register(data[..i + 1]) == r'
  {
    assert data[..i + 1][..i] == data[..i];
  }

  /** The register after each byte of the ASCII text "123456789", one lemma per byte. */
  lemma CheckByte1()
    ensures FeedByte(0xFFFF_FFFF, 0x31) == 0x7C23_1048
  {
    FeedByteIs(0xFFFF_FFFF, 0x31, 0x7C23_1048);
  }

  lemma CheckByte2()
    ensures FeedByte(0x7C23_1048, 0x32) == 0xB0AC_BB32
  {
    FeedByteIs(0x7C23_1048, 0x32, 0xB0AC_BB32);
  }

  lemma CheckByte3()
    ensures FeedByte(0xB0AC_BB32, 0x33) == 0x77B7_9C2D
  {
    FeedByteIs(0xB0AC_BB32, 0x33, 0x77B7_9C2D);
  }

  lemma CheckByte4()
    ensures FeedByte(0x77B7_9C2D, 0x34) == 0x641C_1F5C
  {
    FeedByteIs(0x77B7_9C2D, 0x34, 0x641C_1F5C);
  }

  lemma CheckByte5()
    ensures FeedByte(0x641C_1F5C, 0x35) == 0x340A_C5E3
  {
    FeedByteIs(0x641C_1F5C, 0x35, 0x340A_C5E3);
  }

  lemma CheckByte6()
    ensures FeedByte(0x340A_C5E3, 0x36) == 0xF68D_2C9E
  {
    FeedByteIs(0x340A_C5E3, 0x36, 0xF68D_2C9E);
  }

  lemma CheckByte7()
    ensures FeedByte(0xF68D_2C9E, 0x37) == 0xAFFC_9660
  {
    FeedByteIs(0xF68D_2C9E, 0x37, 0xAFFC_9660);
  }

  lemma CheckByte8()
    ensures FeedByte(0xAFFC_9660, 0x38) == 0x651F_2550
  {
    FeedByteIs(0xAFFC_9660, 0x38, 0x651F_2550);
  }

  lemma CheckByte9()
    ensures FeedByte(0x651F_2550, 0x39) == 0x340B_C6D9
  {
    FeedByteIs(0x651F_2550, 0x39, 0x340B_C6D9);
  }

  /** The CRC-32 of the ASCII text "123456789" is 0xCBF43926, the check value published for this CRC. */
  lemma Crc32CheckValue(data: seq<u8>)
    requires |data| == 9 && forall i :: 0 <= i < 9 ==> data[i] == 0x31 + i as u8
    ensures Crc32(data) == 0xCBF4_3926
  {
    assert Register(data[..0]) == PRESET;
    CheckByte1();
    RegisterExtends(data, 0, 0xFFFF_FFFF, 0x7C23_1048);
    CheckByte2();
    RegisterExtends(data, 1, 0x7C23_1048, 0xB0AC_BB32);
    CheckByte3();
    RegisterExtends(data, 2, 0xB0AC_BB32, 0x77B7_9C2D);
    CheckByte4();
    RegisterExtends(data, 3, 0x77B7_9C2D, 0x641C_1F5C);
    CheckByte5();
    RegisterExtends(data, 4, 0x641C_1F5C, 0x340A_C5E3);
    CheckByte6();
    RegisterExtends(data, 5, 0x340A_C5E3, 0xF68D_2C9E);
    CheckByte7();
    RegisterExtends(data, 6, 0xF68D_2C9E, 0xAFFC_9660);
    CheckByte8();
    RegisterExtends(data, 7, 0xAFFC_9660, 0x651F_2550);
    CheckByte9();
    RegisterExtends(data, 8, 0x651F_2550, 0x340B_C6D9);
    assert data[..9] == data;
  }
}

=== FILE: input_buffer.dfy ===
/**
  The received-input ring buffer `m_InputBuffer[MAX_CLIENTS][200]`: one row
  per client id, one slot per game tick modulo 200, each slot remembering the
  tick it was written for so that reads can insist on an exact tick.
 */
module InputBuffer {
  import opened Common
  import opened Protocol

  const MAX_CLIENTS := 64
  const BUFFER_TICKS := 200

  /** `CP2PPreInput`: the tick is held in a signed `int`. */
  datatype PreInput = PreInput(gameTick: i32, input: NetInput)

  const EMPTY_SLOT := PreInput(0, ZERO_NET_INPUT)

  type Buffer = seq<seq<PreInput>>

  predicate WellFormed(b: Buffer)
  {
    |b| == MAX_CLIENTS && forall c :: 0 <= c < |b| ==> |b[c]| == BUFFER_TICKS
  }

  /** The buffer as the manager is constructed: every slot tick 0 and a zero input. */
  function Initial(): (b: Buffer)
    ensures WellFormed(b)
    ensures forall c, k :: 0 <= c < MAX_CLIENTS && 0 <= k < BUFFER_TICKS ==> b[c][k] == EMPTY_SLOT
  {
    seq(MAX_CLIENTS, _ => seq(BUFFER_TICKS, _ => EMPTY_SLOT))
  }

  /** The slot a tick lands in; the source's clamp of `tick % 200` to [0, 199] never changes it. */
  function SlotOf(tick: u32): (k: nat)
    ensures k < BUFFER_TICKS
    ensures Clamp(k, 0, BUFFER_TICKS - 1) == k
    ensures (tick - k) % BUFFER_TICKS == 0
  {
    tick % BUFFER_TICKS
  }

  /** The row a received client id lands in: clamped into [0, MAX_CLIENTS - 1]. */
  function RowOf(clientId: i8): (c: nat)
    ensures c < MAX_CLIENTS
    ensures 0 <= clientId < MAX_CLIENTS ==> c == clientId
    ensures clientId < 0 ==> c == 0
  {
    Clamp(clientId, 0, MAX_CLIENTS - 1)
  }

  /** Store `input` for `tick` in `client`'s row; the tick is kept as a signed `int`. */
  function Write(b: Buffer, client: nat, tick: u32, input: NetInput): (r: Buffer)
    requires WellFormed(b) && client < MAX_CLIENTS
    ensures WellFormed(r)
    ensures r[client][SlotOf(tick)] == PreInput(ToI32(tick), input)
    ensures forall c, k :: 0 <= c < MAX_CLIENTS && 0 <= k < BUFFER_TICKS && (c != client || k != SlotOf(tick)) ==>
              r[c][k] == b[c][k]
  {
    b[client := b[client][SlotOf(tick) := PreInput(ToI32(tick), input)]]
  }

  /**
    `GetPeerInput`'s lookup: the input stored in the slot of `tick` if that slot
    was last written for `tick`. The stored signed tick is compared with the
    unsigned one, so it is read back as unsigned first.
   */
  function Lookup(b: Buffer, client: nat, tick: u32): (r: Option<NetInput>)
    requires WellFormed(b) && client < MAX_CLIENTS
    ensures r.Some? <==> ToU32(b[client][SlotOf(tick)].gameTick) == tick
    ensures r.Some? ==> r.value == b[client][SlotOf(tick)].input
  {
    var slot := b[client][SlotOf(tick)];
    if ToU32(slot.gameTick) == tick then Some(slot.input) else None
  }

  /** A read for the tick just written returns what was written, even for ticks above `INT_MAX`. */
  lemma ReadAfterWrite(b: Buffer, client: nat, tick: u32, input: NetInput)
    requires WellFormed(b) && client < MAX_CLIENTS
    ensures Lookup(Write(b, client, tick, input), client, tick) == Some(input)
  {
    WordViewsRoundTrip(tick, 0);
  }

  /** A write is invisible to reads of any other row or any other slot. */
  lemma WriteIsolated(b: Buffer, client: nat, tick: u32, input: NetInput, client': nat, tick': u32)
    requires WellFormed(b) && client < MAX_CLIENTS && client' < MAX_CLIENTS
    requires client != client' || SlotOf(tick) != SlotOf(tick')
    ensures Lookup(Write(b, client, tick, input), client', tick') == Lookup(b, client', tick')
  {
  }

  /** Writing `tick + 200` evicts `tick`: the ring keeps the last 200 ticks only. */
  lemma WriteEvictsOlderLap(b: Buffer, client: nat, tick: u32, input: NetInput, input': NetInput)
    requires WellFormed(b) && client < MAX_CLIENTS && tick + BUFFER_TICKS < 0x1_0000_0000
    ensures Lookup(Write(Write(b, client, tick, input), client, tick + BUFFER_TICKS, input'), client, tick) == None
    ensures Lookup(Write(Write(b, client, tick, input), client, tick + BUFFER_TICKS, input'), client, tick + BUFFER_TICKS) == Some(input')
  {
    var t2: u32 := tick + BUFFER_TICKS;
    assert SlotOf(t2) == SlotOf(tick);
    WordViewsRoundTrip(t2, 0);
  }

  /** In the initial buffer only tick 0 is found, and it yields the zero input. */
  lemma InitialLookup(client: nat, tick: u32)
    requires client < MAX_CLIENTS
    ensures Lookup(Initial(), client, tick) == if tick == 0 then Some(ZERO_NET_INPUT) else None
  {
  }
}

=== FILE: manager.dfy ===
/**
  `CSteamP2PManager`: lobby membership, the peer table, packet intake and the
  periodic keep-alive / timeout sweep.

  Every operation is a pure transition from one manager state to the next,
  returning alongside it the calls it makes into the Steam client in the
  order it makes them (sends, session closes, lobby requests). Whatever the
  Steam client answers (lobby members, our own id, received messages, call
  handles) arrives as a parameter, and so does the clock, as one integer
  millisecond reading per operation.

  The peer table is a hash map whose iteration order the program does not
  fix; each operation that walks it takes that order as a parameter `iter`,
  any function listing every key exactly once.
 */
module Manager {
  import opened Common
  import opened Seqs
  import SteamId
  import opened Protocol
  import opened Peers
  import opened InputBuffer

  const SEND_UNRELIABLE_NO_DELAY := 5
  const SEND_RELIABLE := 8
  const INPUT_CHANNEL := 0
  const RELIABLE_CHANNEL := 1
  const INPUT_SEND_FLAGS := SEND_UNRELIABLE_NO_DELAY
  const RELIABLE_SEND_FLAGS := SEND_RELIABLE
  /** Lobby members and owner are refreshed when more than this has passed since the last refresh. */
  const MEMBER_REFRESH_MS := 3000
  /** At most this many messages are taken from each channel per poll. */
  const RECEIVE_BATCH := 32
  const RESULT_OK := 1
  const LOBBY_TYPE_PRIVATE := 0
  const DEFAULT_MAX_MEMBERS := 8

  const MEMBER_ENTERED: bv32 := 0x01
  /** Left, disconnected, kicked or banned. */
  const MEMBER_GONE: bv32 := 0x02 | 0x04 | 0x08 | 0x10

  /** The name every greeting carries: "Player", zero-padded to the name field. */
  const LOCAL_PLAYER_NAME: seq<u8> := [0x50, 0x6C, 0x61, 0x79, 0x65, 0x72]

  datatype Effect =
    | Send(to: u64, flags: int, channel: int, payload: seq<u8>)
    | CloseSession(peer: u64)
    | LeaveLobbyCall(lobby: u64)
    | CreateLobbyCall(lobbyType: int, maxMembers: int)
    | JoinLobbyCall(lobby: u64)

  datatype Manager = Manager(
    initialized: bool,
    /** Whether the matchmaking interface was obtained; `LeaveLobby` checks it on its own. */
    hasMatchmaking: bool,
    localSrvCrc: u32,
    localSrvAddr: NetAddr,
    inputBuffer: Buffer,
    pendingCreate: u64,
    pendingJoin: u64,
    lobbyId: SteamId.SteamId,
    lobbyOwnerId: SteamId.SteamId,
    peers: map<u64, Peer>,
    lastMemberUpdate: int)

  /** A transition: the next state and the calls made into the Steam client, in order. */
  datatype Step = Step(next: Manager, effects: seq<Effect>)

  /** A message handed over by the Steam client: who sent it and its bytes. */
  datatype Received = Received(sender: SteamId.Identity, data: seq<u8>)

  type Iteration = map<u64, Peer> -> seq<u64>

  /** `order` lists every key of `peers` exactly once. */
  predicate Enumerates(order: seq<u64>, peers: map<u64, Peer>)
  {
    && Distinct(order)
    && (forall id :: id in order ==> id in peers)
    && (forall id :: id in peers ==> id in order)
  }

  ghost predicate ValidIteration(iter: Iteration)
  {
    forall peers :: Enumerates(iter(peers), peers)
  }

  /** The buffer has its fixed shape and every peer is filed under its own id. */
  predicate Wf(m: Manager)
  {
    WellFormed(m.inputBuffer) && forall id :: id in m.peers ==> m.peers[id].steamId == id
  }

  /** The manager before `Init`: no lobby, no peers, an all-zero input buffer. */
  function Initial(): (m: Manager)
    ensures Wf(m) && m.peers == map[] && !m.initialized
    ensures !SteamId.IsValid(m.lobbyId) && !SteamId.IsValid(m.lobbyOwnerId)
  {
    var zero := SteamId.DefaultId();
    SteamId.ZeroIsInvalid(zero);
    Manager(false, false, 0, ZERO_ADDR, InputBuffer.Initial(), 0, 0, zero, zero, map[], 0)
  }

  /** `Init`: ready only when all three Steam interfaces were obtained. */
  function Init(m: Manager, matchmaking: bool, messages: bool, user: bool): (r: (bool, Manager))
    ensures r.0 <==> matchmaking && messages && user
    ensures r.1 == m.(initialized := r.0, hasMatchmaking := matchmaking)
  {
    var ok := matchmaking && messages && user;
    (ok, m.(initialized := ok, hasMatchmaking := matchmaking))
  }

  /** `UpdateLocalServer`: remember the game server we play on and its fingerprint. */
  function UpdateLocalServer(m: Manager, addr: NetAddr): (r: Manager)
    ensures r.localSrvCrc == Crc.Crc32(addr) && r.localSrvAddr == addr
    ensures r == m.(localSrvCrc := r.localSrvCrc, localSrvAddr := addr)
  {
    m.(localSrvCrc := AddrCrc(addr), localSrvAddr := addr)
  }

  // Sending

  /** The channel `SendMessageToPeer` picks: the reliable channel for reliable sends, the input channel otherwise. */
  function ChannelFor(flags: int): (channel: int)
    ensures channel == RELIABLE_CHANNEL <==> flags == RELIABLE_SEND_FLAGS
    ensures channel == INPUT_CHANNEL <==> flags != RELIABLE_SEND_FLAGS
  {
    if flags == RELIABLE_SEND_FLAGS then RELIABLE_CHANNEL else INPUT_CHANNEL
  }

  /** `SendMessageToPeer`: one send, or nothing before `Init` succeeded. */
  function SendMessageToPeer(m: Manager, to: u64, flags: int, payload: seq<u8>): (effects: seq<Effect>)
    ensures !m.initialized ==> effects == []
    ensures m.initialized ==> effects == [Send(to, flags, ChannelFor(flags), payload)]
  {
    if !m.initialized then [] else [Send(to, flags, ChannelFor(flags), payload)]
  }

  /** `SendMessageToAll`: the same message to every peer, once each. */
  function SendMessageToAll(m: Manager, flags: int, payload: seq<u8>, iter: Iteration): (effects: seq<Effect>)
    requires Enumerates(iter(m.peers), m.peers)
    ensures forall e :: e in effects ==> e.Send? && e == Send(e.to, flags, ChannelFor(flags), payload)
    ensures forall id :: multiset(effects)[Send(id, flags, ChannelFor(flags), payload)]
                         == if m.initialized && id in m.peers then 1 else 0
  {
    SendEach(m, iter(m.peers), flags, payload)
  }

  function SendEach(m: Manager, ids: seq<u64>, flags: int, payload: seq<u8>): (effects: seq<Effect>)
    requires Distinct(ids)
    ensures forall e :: e in effects ==> e.Send? && e == Send(e.to, flags, ChannelFor(flags), payload)
    ensures forall id :: multiset(effects)[Send(id, flags, ChannelFor(flags), payload)]
                         == if m.initialized && id in ids then 1 else 0
  {
    if ids == [] then []
    else
      DistinctTail(ids);
      SendMessageToPeer(m, ids[0], flags, payload) + SendEach(m, ids[1..], flags, payload)
  }

  /** The greeting sent to every new peer: our name, reliably. */
  function LocalPeerInfo(): Message
  {
    PeerInfo(LOCAL_PLAYER_NAME + Zeros(MAX_NAME_LENGTH - |LOCAL_PLAYER_NAME|))
  }

  function Greeting(id: u64): Effect
  {
    Send(id, RELIABLE_SEND_FLAGS, RELIABLE_CHANNEL, Encode(LocalPeerInfo()))
  }

  // The peer table

  /** `GetOrCreatePeer`: a known peer is left alone; a new one is inserted and greeted. */
  function GetOrCreatePeer(m: Manager, id: u64, now: int): (r: Step)
    requires Wf(m)
    ensures Wf(r.next) && id in r.next.peers
    ensures id in m.peers ==> r == Step(m, [])
    ensures id !in m.peers ==> r.next == m.(peers := m.peers[id := NewPeer(id, now)])
    ensures r.effects == if id !in m.peers && m.initialized then [Greeting(id)] else []
  {
    if id in m.peers then Step(m, [])
    else
      Step(m.(peers := m.peers[id := NewPeer(id, now)]),
           SendMessageToPeer(m, id, RELIABLE_SEND_FLAGS, Encode(LocalPeerInfo())))
  }

  /** A second `GetOrCreatePeer` for the same id, at any time, changes nothing and sends nothing. */
  lemma GetOrCreatePeerIdempotent(m: Manager, id: u64, now: int, later: int)
    requires Wf(m)
    ensures var r := GetOrCreatePeer(m, id, now);
      GetOrCreatePeer(r.next, id, later) == Step(r.next, [])
  {
  }

  /** The greeting reaches the new peer as a well-formed PEER_INFO on the reliable channel. */
  lemma GreetingIsReliablePeerInfo(id: u64)
    ensures Greeting(id).flags == SEND_RELIABLE && Greeting(id).channel == RELIABLE_CHANNEL
    ensures Decode(Greeting(id).payload) == Some(LocalPeerInfo())
    ensures GetPacketType(Greeting(id).payload) == PACKET_PEER_INFO
  {
    DecodeEncode(LocalPeerInfo());
    EncodedHeaderAccepted(LocalPeerInfo());
  }

  /** `RemovePeer`: forget the peer and close its session; unknown ids are ignored. */
  function RemovePeer(m: Manager, id: u64): (r: Step)
    requires Wf(m)
    ensures Wf(r.next) && id !in r.next.peers
    ensures r.next == m.(peers := m.peers - {id})
    ensures r.effects == if id in m.peers then [CloseSession(id)] else []
  {
    if id !in m.peers then Step(m, [])
    else Step(m.(peers := m.peers - {id}), [CloseSession(id)])
  }

  /** Removing a peer just created restores the table, closing the session that was opened. */
  lemma RemoveUndoesCreate(m: Manager, id: u64, now: int)
    requires Wf(m) && id !in m.peers
    ensures var c := GetOrCreatePeer(m, id, now);
      var r := RemovePeer(c.next, id);
      r.next == m && r.effects == [CloseSession(id)]
  {
    var c := GetOrCreatePeer(m, id, now);
    assert c.next.peers - {id} == m.peers;
  }

  /** `RemovePeer` applied to each of `ids` in turn. */
  function RemoveAll(m: Manager, ids: seq<u64>): (r: Step)
    requires Wf(m) && Distinct(ids)
    ensures Wf(r.next)
    ensures r.next == m.(peers := r.next.peers)
    ensures forall id :: id in r.next.peers <==> id in m.peers && id !in ids
    ensures forall id :: id in r.next.peers ==> r.next.peers[id] == m.peers[id]
    decreases |ids|
  {
    if ids == [] then Step(m, [])
    else
      DistinctTail(ids);
      var first := RemovePeer(m, ids[0]);
      var rest := RemoveAll(first.next, ids[1..]);
      Step(rest.next, first.effects + rest.effects)
  }

  /** Dropping a list of ids only closes sessions, of listed peers. */
  lemma {:induction false} RemoveAllOnlyCloses(m: Manager, ids: seq<u64>)
    requires Wf(m) && Distinct(ids)
    ensures forall e :: e in RemoveAll(m, ids).effects ==> e.CloseSession? && e.peer in m.peers && e.peer in ids
    decreases |ids|
  {
    if ids != [] {
      DistinctTail(ids);
      var first := RemovePeer(m, ids[0]);
      RemoveAllOnlyCloses(first.next, ids[1..]);
      assert RemoveAll(m, ids).effects == first.effects + RemoveAll(first.next, ids[1..]).effects;
    }
  }

  /** Dropping a list of ids closes the session of each listed peer exactly once. */
  lemma {:induction false} RemoveAllClosesOnce(m: Manager, ids: seq<u64>)
    requires Wf(m) && Distinct(ids)
    ensures forall id :: multiset(RemoveAll(m, ids).effects)[CloseSession(id)] == if id in m.peers && id in ids then 1 else 0
    decreases |ids|
  {
    if ids != [] {
      DistinctTail(ids);
      var first := RemovePeer(m, ids[0]);
      RemoveAllClosesOnce(first.next, ids[1..]);
      var rest := RemoveAll(first.next, ids[1..]).effects;
      assert RemoveAll(m, ids).effects == first.effects + rest;
      assert multiset(first.effects + rest) == multiset(first.effects) + multiset(rest);
    }
  }

  /** `GetOrCreatePeer` applied to each of `ids` in turn; repeated ids are harmless. */
  function AddPeers(m: Manager, ids: seq<u64>, now: int): (r: Step)
    requires Wf(m)
    ensures Wf(r.next)
    ensures r.next == m.(peers := r.next.peers)
    ensures forall id :: id in r.next.peers <==> id in m.peers || id in ids
    ensures forall id :: id in m.peers ==> r.next.peers[id] == m.peers[id]
    ensures forall id :: id in r.next.peers && id !in m.peers ==> r.next.peers[id] == NewPeer(id, now)
    decreases |ids|
  {
    if ids == [] then Step(m, [])
    else
      var first := GetOrCreatePeer(m, ids[0], now);
      var rest := AddPeers(first.next, ids[1..], now);
      assert forall id :: id in ids <==> id == ids[0] || id in ids[1..];
      Step(rest.next, first.effects + rest.effects)
  }

  /** `AddPeers` sends nothing but greetings. */
  lemma {:induction false} AddPeersOnlyGreets(m: Manager, ids: seq<u64>, now: int)
    requires Wf(m)
    ensures forall e :: e in AddPeers(m, ids, now).effects ==> e.Send? && e == Greeting(e.to)
    decreases |ids|
  {
    if ids != [] {
      var first := GetOrCreatePeer(m, ids[0], now);
      AddPeersOnlyGreets(first.next, ids[1..], now);
      assert AddPeers(m, ids, now).effects == first.effects + AddPeers(first.next, ids[1..], now).effects;
    }
  }

  /** Adding a list of ids greets each newcomer exactly once, and nobody already a peer. */
  lemma {:induction false} AddPeersGreetsNewcomers(m: Manager, ids: seq<u64>, now: int)
    requires Wf(m)
    ensures forall id :: multiset(AddPeers(m, ids, now).effects)[Greeting(id)]
                         == if m.initialized && id in ids && id !in m.peers then 1 else 0
    decreases |ids|
  {
    if ids != [] {
      var first := GetOrCreatePeer(m, ids[0], now);
      AddPeersGreetsNewcomers(first.next, ids[1..], now);
      var rest := AddPeers(first.next, ids[1..], now).effects;
      assert AddPeers(m, ids, now).effects == first.effects + rest;
      assert multiset(first.effects + rest) == multiset(first.effects) + multiset(rest);
      assert forall id :: id in ids <==> id == ids[0] || id in ids[1..];
    }
  }


  /** The ids among `order` whose peers have been silent for longer than the timeout. */
  function TimedOutIds(peers: map<u64, Peer>, order: seq<u64>, now: int): (r: seq<u64>)
    ensures forall id :: id in r <==> id in order && id in peers && IsTimedOut(peers[id], now)
    ensures Distinct(order) ==> Distinct(r)
  {
    Filter(order, id => id in peers && IsTimedOut(peers[id], now))
  }

  /** `CheckTimeouts`: drop exactly the timed-out peers, closing each of their sessions once. */
  function CheckTimeouts(m: Manager, now: int, iter: Iteration): (r: Step)
    requires Wf(m) && Enumerates(iter(m.peers), m.peers)
    ensures Wf(r.next)
    ensures r.next == m.(peers := r.next.peers)
    ensures forall id :: id in r.next.peers <==> id in m.peers && !IsTimedOut(m.peers[id], now)
    ensures forall id :: id in r.next.peers ==> r.next.peers[id] == m.peers[id]
    ensures forall e :: e in r.effects ==> e.CloseSession?
    ensures forall id :: multiset(r.effects)[CloseSession(id)]
                         == if id in m.peers && IsTimedOut(m.peers[id], now) then 1 else 0
  {
    var ids := TimedOutIds(m.peers, iter(m.peers), now);
    RemoveAllOnlyCloses(m, ids);
    RemoveAllClosesOnce(m, ids);
    RemoveAll(m, ids)
  }

  /** A second sweep at the same instant finds nobody to drop. */
  lemma CheckTimeoutsIdempotent(m: Manager, now: int, iter: Iteration)
    requires Wf(m) && ValidIteration(iter)
    ensures var r := CheckTimeouts(m, now, iter);
      CheckTimeouts(r.next, now, iter) == Step(r.next, [])
  {
    var r := CheckTimeouts(m, now, iter);
    var r2 := CheckTimeouts(r.next, now, iter);
    assert r2.next.peers == r.next.peers;
  }

  function KeepAliveTo(m: Manager, id: u64): Effect
  {
    Send(id, INPUT_SEND_FLAGS, ChannelFor(INPUT_SEND_FLAGS), Encode(KeepAlive(m.localSrvAddr)))
  }

  /** The body of the keep-alive loop applied to each of `ids` in turn. */
  function KeepAliveEach(m: Manager, ids: seq<u64>, now: int): (r: Step)
    requires Wf(m) && m.initialized && Distinct(ids)
    ensures Wf(r.next)
    ensures r.next == m.(peers := r.next.peers)
    ensures forall id :: id in r.next.peers <==> id in m.peers
    ensures forall id :: id in m.peers ==>
              r.next.peers[id] == if id in ids && NeedsKeepAlive(m.peers[id], now) then m.peers[id].(lastSent := now) else m.peers[id]
    decreases |ids|
  {
    if ids == [] then Step(m, [])
    else
      DistinctTail(ids);
      var id := ids[0];
      if id in m.peers && NeedsKeepAlive(m.peers[id], now) then
        var sent := SendMessageToPeer(m, id, INPUT_SEND_FLAGS, Encode(KeepAlive(m.localSrvAddr)));
        var m1 := m.(peers := m.peers[id := m.peers[id].(lastSent := now)]);
        var rest := KeepAliveEach(m1, ids[1..], now);
        Step(rest.next, sent + rest.effects)
      else
        KeepAliveEach(m, ids[1..], now)
  }

  /** Everything the keep-alive loop sends is our server address. */
  lemma {:induction false} KeepAliveSendsAddress(m: Manager, ids: seq<u64>, now: int)
    requires Wf(m) && m.initialized && Distinct(ids)
    ensures var r := KeepAliveEach(m, ids, now);
            forall e :: e in r.effects ==> e.Send? && e == KeepAliveTo(m, e.to)
    decreases |ids|
  {
    if ids != [] {
      DistinctTail(ids);
      var id := ids[0];
      if id in m.peers && NeedsKeepAlive(m.peers[id], now) {
        var m1 := m.(peers := m.peers[id := m.peers[id].(lastSent := now)]);
        KeepAliveSendsAddress(m1, ids[1..], now);
        assert KeepAliveEach(m, ids, now).effects == [KeepAliveTo(m, id)] + KeepAliveEach(m1, ids[1..], now).effects;
        assert forall x :: KeepAliveTo(m1, x) == KeepAliveTo(m, x);
      } else {
        KeepAliveSendsAddress(m, ids[1..], now);
      }
    }
  }

  /** The keep-alive loop sends once to each listed peer that needs it, and to no other. */
  lemma {:induction false} KeepAliveOnce(m: Manager, ids: seq<u64>, now: int)
    requires Wf(m) && m.initialized && Distinct(ids)
    ensures var r := KeepAliveEach(m, ids, now);
            forall id :: multiset(r.effects)[KeepAliveTo(m, id)]
                         == if id in ids && id in m.peers && NeedsKeepAlive(m.peers[id], now) then 1 else 0
    decreases |ids|, 1
  {
    if ids != [] {
      DistinctTail(ids);
      if ids[0] in m.peers && NeedsKeepAlive(m.peers[ids[0]], now) {
        KeepAliveOnceSent(m, ids, now);
      } else {
        KeepAliveOnce(m, ids[1..], now);
      }
    }
  }

  /** The step of `KeepAliveOnce` where the first listed peer gets a keep-alive. */
  lemma {:induction false} KeepAliveOnceSent(m: Manager, ids: seq<u64>, now: int)
    requires Wf(m) && m.initialized && Distinct(ids)
    requires ids != [] && ids[0] in m.peers && NeedsKeepAlive(m.peers[ids[0]], now)
    ensures var r := KeepAliveEach(m, ids, now);
            forall id :: multiset(r.effects)[KeepAliveTo(m, id)]
                         == if id in ids && id in m.peers && NeedsKeepAlive(m.peers[id], now) then 1 else 0
    decreases |ids|, 0
  {
    DistinctTail(ids);
    var id := ids[0];
    var m1 := m.(peers := m.peers[id := m.peers[id].(lastSent := now)]);
    KeepAliveOnce(m1, ids[1..], now);
    var rest := KeepAliveEach(m1, ids[1..], now).effects;
    var sent := [KeepAliveTo(m, id)];
    var all := KeepAliveEach(m, ids, now).effects;
    assert all == sent + rest;
    assert multiset(all) == multiset(sent) + multiset(rest);
    forall x
      ensures multiset(all)[KeepAliveTo(m, x)]
              == if x in ids && x in m.peers && NeedsKeepAlive(m.peers[x], now) then 1 else 0
    {
      assert KeepAliveTo(m1, x) == KeepAliveTo(m, x);
      if x == id {
        assert x !in ids[1..];
      } else {
        assert x in ids <==> x in ids[1..];
        assert multiset(sent)[KeepAliveTo(m, x)] == 0;
      }
    }
  }

  /** `SendKeepAlives`: every peer not sent to for too long gets our server address, and its send clock is reset. */
  function SendKeepAlives(m: Manager, now: int, iter: Iteration): (r: Step)
    requires Wf(m) && Enumerates(iter(m.peers), m.peers)
    ensures Wf(r.next)
    ensures r.next == m.(peers := r.next.peers)
    ensures forall id :: id in r.next.peers <==> id in m.peers
    ensures forall id :: id in m.peers ==>
              r.next.peers[id] == if m.initialized && NeedsKeepAlive(m.peers[id], now) then m.peers[id].(lastSent := now) else m.peers[id]
    ensures m.initialized ==> forall id :: id in r.next.peers ==> !NeedsKeepAlive(r.next.peers[id], now)
    ensures forall e :: e in r.effects ==> e.Send? && e == KeepAliveTo(m, e.to)
    ensures forall id :: multiset(r.effects)[KeepAliveTo(m, id)]
                         == if m.initialized && id in m.peers && NeedsKeepAlive(m.peers[id], now) then 1 else 0
  {
    if !m.initialized then Step(m, [])
    else
      KeepAliveSendsAddress(m, iter(m.peers), now);
      KeepAliveOnce(m, iter(m.peers), now);
      KeepAliveEach(m, iter(m.peers), now)
  }

  /** The peers an input broadcast is meant for: no server reported yet, or the same server as ours. */
  predicate SameServer(p: Peer, crc: u32)
  {
    p.serverCrc == 0 || p.serverCrc == crc
  }

  function InputMessage(m: Manager, input: NetInput, tick: u32, clientId: int): Message
  {
    Input(m.localSrvAddr, tick, ConvertToP2PInput(input), ToI8(clientId))
  }

  function InputTo(id: u64, payload: seq<u8>): Effect
  {
    Send(id, INPUT_SEND_FLAGS, INPUT_CHANNEL, payload)
  }

  function InputFanOut(m: Manager, ids: seq<u64>, payload: seq<u8>, crc: u32): (effects: seq<Effect>)
    requires Distinct(ids)
    ensures forall e :: e in effects ==> e.Send? && e == InputTo(e.to, payload)
    ensures forall id :: multiset(effects)[InputTo(id, payload)]
                         == if id in ids && id in m.peers && SameServer(m.peers[id], crc) then 1 else 0
  {
    if ids == [] then []
    else
      DistinctTail(ids);
      var id := ids[0];
      var here := if id in m.peers && SameServer(m.peers[id], crc) then [InputTo(id, payload)] else [];
      here + InputFanOut(m, ids[1..], payload, crc)
  }

  /**
    `SendInputs`: one INPUT message to every peer on our server (or not yet
    on any), nothing without a valid lobby. The manager state is not touched:
    in particular no peer's send clock is reset.
   */
  function SendInputs(m: Manager, input: NetInput, tick: u32, clientId: int, iter: Iteration): (effects: seq<Effect>)
    requires Enumerates(iter(m.peers), m.peers)
    ensures !SteamId.IsValid(m.lobbyId) || !m.initialized ==> effects == []
    ensures forall e :: e in effects ==> e.Send? && e == InputTo(e.to, Encode(InputMessage(m, input, tick, clientId)))
    ensures forall id ::
              multiset(effects)[InputTo(id, Encode(InputMessage(m, input, tick, clientId)))]
              == if SteamId.IsValid(m.lobbyId) && m.initialized && id in m.peers
                    && SameServer(m.peers[id], Crc.Crc32(m.localSrvAddr)) then 1 else 0
  {
    if !SteamId.IsValid(m.lobbyId) || !m.initialized then []
    else InputFanOut(m, iter(m.peers), Encode(InputMessage(m, input, tick, clientId)), AddrCrc(m.localSrvAddr))
  }

  // Receiving

  /** An INPUT message that passed every check, for our own server. */
  predicate IsAcceptedInput(m: Manager, data: seq<u8>)
  {
    var d := Decode(data);
    d.Some? && d.value.Input? && AddrCrc(d.value.serverAddr) == m.localSrvCrc
  }

  /** The buffer after an accepted INPUT: its tick and widened input stored in the clamped row. */
  function StoreInput(m: Manager, data: seq<u8>): (b: Buffer)
    requires Wf(m) && IsAcceptedInput(m, data)
    ensures WellFormed(b)
  {
    var msg := Decode(data).value;
    Write(m.inputBuffer, RowOf(msg.clientId), msg.gameTick, ConvertFromP2PInput(msg.input))
  }

  /** The server fingerprint a packet sets for its sender: a KEEP_ALIVE's, otherwise the one already known. */
  function ReportedCrc(data: seq<u8>, known: u32): (crc: u32)
    ensures Decode(data).Some? && Decode(data).value.KeepAlive? ==> crc == AddrCrc(Decode(data).value.serverAddr)
    ensures !(Decode(data).Some? && Decode(data).value.KeepAlive?) ==> crc == known
  {
    var d := Decode(data);
    if d.Some? && d.value.KeepAlive? then AddrCrc(d.value.serverAddr) else known
  }

  /**
    The kind-specific half of `ProcessPacket`, once the sender is a peer: the
    sender is marked heard from, an INPUT for our server is stored, a
    KEEP_ALIVE records the sender's server, and a PEER_INFO is read and dropped.
   */
  function HandleBody(m: Manager, data: seq<u8>, sender: u64, now: int): (next: Manager)
    requires Wf(m) && sender in m.peers && AcceptsHeader(data)
    ensures Wf(next)
    ensures next == m.(peers := next.peers, inputBuffer := next.inputBuffer)
  {
    var heard := Touch(m.peers[sender], now);
    match DecodeBody(data)
    case Some(Input(addr, tick, input, clientId)) =>
      if AddrCrc(addr) != m.localSrvCrc then m.(peers := m.peers[sender := heard])
      else m.(peers := m.peers[sender := heard],
              inputBuffer := Write(m.inputBuffer, RowOf(clientId), tick, ConvertFromP2PInput(input)))
    case Some(KeepAlive(addr)) =>
      m.(peers := m.peers[sender := heard.(serverCrc := AddrCrc(addr))])
    case Some(PeerInfo(_)) =>
      m.(peers := m.peers[sender := heard])
    case None =>
      m.(peers := m.peers[sender := heard])
  }

  /**
    The sender is marked heard from and takes the server fingerprint the
    packet reports; the buffer changes exactly for an accepted INPUT.
   */
  lemma HandleBodyPeers(m: Manager, data: seq<u8>, sender: u64, now: int)
    requires Wf(m) && sender in m.peers && AcceptsHeader(data)
    ensures HandleBody(m, data, sender, now).peers
            == m.peers[sender := Touch(m.peers[sender], now).(serverCrc := ReportedCrc(data, m.peers[sender].serverCrc))]
  {
    assert Decode(data) == DecodeBody(data);
  }

  /** The buffer changes exactly for an accepted INPUT, which it stores. */
  lemma HandleBodyBuffer(m: Manager, data: seq<u8>, sender: u64, now: int)
    requires Wf(m) && sender in m.peers && AcceptsHeader(data)
    ensures HandleBody(m, data, sender, now).inputBuffer == if IsAcceptedInput(m, data) then StoreInput(m, data) else m.inputBuffer
  {
    assert Decode(data) == DecodeBody(data);
  }

  /**
    `ProcessPacket`. A packet failing the header checks changes nothing.
    Otherwise the sender becomes (or stays) a peer and is marked heard from
    before the kind-specific size check, and the body is handled.
   */
  function ProcessPacket(m: Manager, data: seq<u8>, sender: u64, now: int): (r: Step)
    requires Wf(m)
    ensures Wf(r.next)
    ensures r.next == m.(peers := r.next.peers, inputBuffer := r.next.inputBuffer)
    ensures !AcceptsHeader(data) ==> r == Step(m, [])
    ensures r.effects == if AcceptsHeader(data) && sender !in m.peers && m.initialized then [Greeting(sender)] else []
    ensures AcceptsHeader(data) ==> (forall id :: id in r.next.peers <==> id in m.peers || id == sender)
    ensures AcceptsHeader(data) ==> r.next.peers[sender].lastReceived == now
    ensures AcceptsHeader(data) ==>
              r.next.peers[sender].serverCrc == ReportedCrc(data, if sender in m.peers then m.peers[sender].serverCrc else 0)
    ensures forall id :: id in m.peers && id != sender ==> id in r.next.peers && r.next.peers[id] == m.peers[id]
    ensures r.next.inputBuffer == if IsAcceptedInput(m, data) then StoreInput(m, data) else m.inputBuffer
  {
    if !AcceptsHeader(data) then Step(m, [])
    else
      var created := GetOrCreatePeer(m, sender, now);
      assert IsAcceptedInput(created.next, data) == IsAcceptedInput(m, data);
      HandleBodyPeers(created.next, data, sender, now);
      HandleBodyBuffer(created.next, data, sender, now);
      Step(HandleBody(created.next, data, sender, now), created.effects)
  }

  /**
    A packet with an honest header but an unknown kind still makes its
    sender a peer and refreshes it, although nothing in it is used.
   */
  lemma UnknownKindStillCreatesPeer(m: Manager, sender: u64, now: int)
    requires Wf(m) && sender !in m.peers
    ensures var r := ProcessPacket(m, [1, 7, 4, 0], sender, now);
      sender in r.next.peers && r.next.peers[sender].lastReceived == now
      && r.next.inputBuffer == m.inputBuffer
  {
    var data: seq<u8> := [1, 7, 4, 0];
    assert data[2..4] == [4, 0];
    assert FromLittleEndian([4, 0]) == 4 by {
      assert [4, 0][1..] == [0];
      assert FromLittleEndian([0]) == 0 by { assert [0][1..] == []; }
    }
    assert AcceptsHeader(data);
  }

  /**
    `GetPeerInput`: the input a peer sent for exactly this tick. The client id
    indexes the buffer unchecked, so it must already be in range.
   */
  function GetPeerInput(m: Manager, clientId: int, tick: u32): (r: Option<NetInput>)
    requires Wf(m) && 0 <= clientId < MAX_CLIENTS
    ensures r.Some? <==> m.initialized && SteamId.IsValid(m.lobbyId)
                         && ToU32(m.inputBuffer[clientId][SlotOf(tick)].gameTick) == tick
    ensures r.Some? ==> r.value == m.inputBuffer[clientId][SlotOf(tick)].input
  {
    if !m.initialized || !SteamId.IsValid(m.lobbyId) then None
    else Lookup(m.inputBuffer, clientId, tick)
  }

  /**
    End to end: an input one client broadcasts, once processed by a peer that
    plays on the same server and sits in a valid lobby, is what that peer reads
    back for the sender's client id and tick, provided the input's fields fit
    the compact record and the client id is in range.
   */
  lemma InputDelivery(a: Manager, b: Manager, input: NetInput, tick: u32, clientId: int,
                      iter: Iteration, e: Effect, sender: u64, now: int)
    requires Enumerates(iter(a.peers), a.peers) && Wf(b)
    requires e in SendInputs(a, input, tick, clientId, iter)
    requires b.localSrvCrc == Crc.Crc32(a.localSrvAddr)
    requires b.initialized && SteamId.IsValid(b.lobbyId)
    requires 0 <= clientId < MAX_CLIENTS && FitsCompact(input)
    ensures GetPeerInput(ProcessPacket(b, e.payload, sender, now).next, clientId, tick) == Some(input)
  {
    var msg := InputMessage(a, input, tick, clientId);
    assert e.payload == Encode(msg);
    DecodeEncode(msg);
    EncodedHeaderAccepted(msg);
    assert IsAcceptedInput(b, e.payload);
    ConversionsFix(clientId);
    assert RowOf(ToI8(clientId)) == clientId;
    NetInputRoundTrip(input);
    ReadAfterWrite(b.inputBuffer, clientId, tick, input);
  }

  /** `ProcessPacket` on each message of a batch, skipping those shorter than a header. */
  function ProcessEach(m: Manager, batch: seq<Received>, now: int): (r: Step)
    requires Wf(m) && forall i :: 0 <= i < |batch| ==> SteamId.WellFormed(batch[i].sender)
    ensures Wf(r.next)
    ensures r.next == m.(peers := r.next.peers, inputBuffer := r.next.inputBuffer)
    ensures forall id :: id in m.peers ==> id in r.next.peers
    decreases |batch|
  {
    if batch == [] then Step(m, [])
    else
      var msg := batch[0];
      var first := if |msg.data| >= HEADER_SIZE
        then ProcessPacket(m, msg.data, SteamId.GetSteamId64(msg.sender), now)
        else Step(m, []);
      var rest := ProcessEach(first.next, batch[1..], now);
      assert forall i :: 1 <= i < |batch| ==> batch[i] == batch[1..][i - 1];
      Step(rest.next, first.effects + rest.effects)
  }

  /** A peer already heard from now stays so through a batch. */
  lemma {:induction false} ProcessEachKeepsHeard(m: Manager, batch: seq<Received>, now: int)
    requires Wf(m) && forall i :: 0 <= i < |batch| ==> SteamId.WellFormed(batch[i].sender)
    ensures var r := ProcessEach(m, batch, now);
            forall id :: id in m.peers && m.peers[id].lastReceived == now ==> r.next.peers[id].lastReceived == now
    decreases |batch|
  {
    if batch != [] {
      var msg := batch[0];
      var first := if |msg.data| >= HEADER_SIZE
        then ProcessPacket(m, msg.data, SteamId.GetSteamId64(msg.sender), now)
        else Step(m, []);
      assert !AcceptsHeader(msg.data) ==> first.next == m;
      assert forall i :: 1 <= i < |batch[1..]| ==> batch[1..][i] == batch[i + 1];
      ProcessEachKeepsHeard(first.next, batch[1..], now);
      assert ProcessEach(m, batch, now).next == ProcessEach(first.next, batch[1..], now).next;
    }
  }

  /** After a batch, the sender of every message that passed the header checks is a peer heard from now. */
  lemma {:induction false} ProcessEachHears(m: Manager, batch: seq<Received>, now: int)
    requires Wf(m) && forall i :: 0 <= i < |batch| ==> SteamId.WellFormed(batch[i].sender)
    ensures var r := ProcessEach(m, batch, now);
            forall i :: 0 <= i < |batch| && AcceptsHeader(batch[i].data) ==>
              SteamId.GetSteamId64(batch[i].sender) in r.next.peers
              && r.next.peers[SteamId.GetSteamId64(batch[i].sender)].lastReceived == now
    decreases |batch|
  {
    if batch != [] {
      var msg := batch[0];
      var first := if |msg.data| >= HEADER_SIZE
        then ProcessPacket(m, msg.data, SteamId.GetSteamId64(msg.sender), now)
        else Step(m, []);
      assert forall i :: 1 <= i < |batch| ==> batch[i] == batch[1..][i - 1];
      ProcessEachHears(first.next, batch[1..], now);
      ProcessEachKeepsHeard(first.next, batch[1..], now);
      assert ProcessEach(m, batch, now).next == ProcessEach(first.next, batch[1..], now).next;
    }
  }

  /** `PollIngress`: the batches the Steam client handed over on the input and the reliable channel, in that order. */
  function PollIngress(m: Manager, inputBatch: seq<Received>, reliableBatch: seq<Received>, now: int): (r: Step)
    requires Wf(m)
    requires |inputBatch| <= RECEIVE_BATCH && |reliableBatch| <= RECEIVE_BATCH
    requires forall i :: 0 <= i < |inputBatch| ==> SteamId.WellFormed(inputBatch[i].sender)
    requires forall i :: 0 <= i < |reliableBatch| ==> SteamId.WellFormed(reliableBatch[i].sender)
    ensures Wf(r.next)
    ensures !m.initialized ==> r == Step(m, [])
    ensures r.next == m.(peers := r.next.peers, inputBuffer := r.next.inputBuffer)
    ensures forall id :: id in m.peers ==> id in r.next.peers
  {
    if !m.initialized then Step(m, [])
    else
      var s0 := ProcessEach(m, inputBatch, now);
      var s1 := ProcessEach(s0.next, reliableBatch, now);
      Step(s1.next, s0.effects + s1.effects)
  }

  // Lobby

  /** `LeaveLobby`'s session loop: one close per id. */
  function CloseEach(ids: seq<u64>): (effects: seq<Effect>)
    requires Distinct(ids)
    ensures forall e :: e in effects ==> e.CloseSession? && e.peer in ids
    ensures forall id :: multiset(effects)[CloseSession(id)] == if id in ids then 1 else 0
  {
    if ids == [] then []
    else
      DistinctTail(ids);
      [CloseSession(ids[0])] + CloseEach(ids[1..])
  }

  /**
    `LeaveLobby`: leave and forget a valid lobby (only when the matchmaking
    interface exists), close every peer's session once, and empty the table.
   */
  function LeaveLobby(m: Manager, iter: Iteration): (r: Step)
    requires Wf(m) && Enumerates(iter(m.peers), m.peers)
    ensures Wf(r.next) && r.next.peers == map[]
    ensures r.next == m.(peers := map[], lobbyId := r.next.lobbyId)
    ensures SteamId.IsValid(m.lobbyId) && m.hasMatchmaking ==> !SteamId.IsValid(r.next.lobbyId)
    ensures !(SteamId.IsValid(m.lobbyId) && m.hasMatchmaking) ==> r.next.lobbyId == m.lobbyId
    ensures LeaveLobbyCall(m.lobbyId.bits) in r.effects <==> SteamId.IsValid(m.lobbyId) && m.hasMatchmaking
    ensures forall e :: e in r.effects ==> e.CloseSession? || e == LeaveLobbyCall(m.lobbyId.bits)
    ensures forall id :: multiset(r.effects)[CloseSession(id)] == if id in m.peers then 1 else 0
  {
    var leave := SteamId.IsValid(m.lobbyId) && m.hasMatchmaking;
    var left := if leave then m.(lobbyId := SteamId.Clear(m.lobbyId)) else m;
    assert leave ==> !SteamId.IsValid(left.lobbyId) by {
      if leave { SteamId.ZeroIsInvalid(left.lobbyId); }
    }
    Step(left.(peers := map[]), (if leave then [LeaveLobbyCall(m.lobbyId.bits)] else []) + CloseEach(iter(m.peers)))
  }

  /** Leaving twice is leaving once: the second call finds nothing to do. */
  lemma LeaveLobbyIdempotent(m: Manager, iter: Iteration)
    requires Wf(m) && ValidIteration(iter)
    ensures var r := LeaveLobby(m, iter);
      LeaveLobby(r.next, iter) == Step(r.next, [])
  {
    var r := LeaveLobby(m, iter);
    var o := iter(r.next.peers);
    assert Enumerates(o, r.next.peers);
  }

  /** `HostLobbyPrivate`: leave any current lobby, then ask for a new private one. */
  function HostLobbyPrivate(m: Manager, maxMembers: int, handle: u64, iter: Iteration): (r: (bool, Step))
    requires Wf(m) && Enumerates(iter(m.peers), m.peers)
    ensures Wf(r.1.next)
    ensures !r.0 <==> !m.initialized
    ensures !m.initialized ==> r.1 == Step(m, [])
    ensures m.initialized ==>
              r.1.next.pendingCreate == handle && |r.1.effects| > 0
              && r.1.effects[|r.1.effects| - 1] == CreateLobbyCall(LOBBY_TYPE_PRIVATE, maxMembers)
    ensures m.initialized && SteamId.IsValid(m.lobbyId) ==> r.1.next.peers == map[]
  {
    if !m.initialized then (false, Step(m, []))
    else
      var s := if SteamId.IsValid(m.lobbyId) then LeaveLobby(m, iter) else Step(m, []);
      (true, Step(s.next.(pendingCreate := handle), s.effects + [CreateLobbyCall(LOBBY_TYPE_PRIVATE, maxMembers)]))
  }

  /** `JoinLobbyByID`: leave any current lobby, then ask to join the given one. */
  function JoinLobbyById(m: Manager, lobby: u64, handle: u64, iter: Iteration): (r: (bool, Step))
    requires Wf(m) && Enumerates(iter(m.peers), m.peers)
    ensures Wf(r.1.next)
    ensures !r.0 <==> !m.initialized
    ensures !m.initialized ==> r.1 == Step(m, [])
    ensures m.initialized ==>
              r.1.next.pendingJoin == handle && |r.1.effects| > 0
              && r.1.effects[|r.1.effects| - 1] == JoinLobbyCall(lobby)
    ensures m.initialized && SteamId.IsValid(m.lobbyId) ==> r.1.next.peers == map[]
  {
    if !m.initialized then (false, Step(m, []))
    else
      var s := if SteamId.IsValid(m.lobbyId) then LeaveLobby(m, iter) else Step(m, []);
      (true, Step(s.next.(pendingJoin := handle), s.effects + [JoinLobbyCall(lobby)]))
  }

  /** `OnLobbyCreated`: adopt the new lobby on success; the pending request is over either way. */
  function OnLobbyCreated(m: Manager, result: int, lobby: u64): (r: Manager)
    ensures result == RESULT_OK ==> r == m.(lobbyId := SteamId.SteamId(lobby), pendingCreate := 0)
    ensures result != RESULT_OK ==> r == m.(pendingCreate := 0)
  {
    var m1 := if result == RESULT_OK then m.(lobbyId := SteamId.SteamId(lobby)) else m;
    m1.(pendingCreate := 0)
  }

  /** `OnLobbyKicked`. */
  function OnLobbyKicked(m: Manager, iter: Iteration): (r: Step)
    requires Wf(m) && Enumerates(iter(m.peers), m.peers)
    ensures r == LeaveLobby(m, iter)
  {
    LeaveLobby(m, iter)
  }

  /**
    `OnLobbyEnter`: on success adopt the lobby and make a peer of every member
    but ourselves (member ids are not checked for validity here); the pending
    request is over either way.
   */
  function OnLobbyEnter(m: Manager, response: int, lobby: u64, members: seq<u64>, self: u64, now: int): (r: Step)
    requires Wf(m)
    ensures Wf(r.next) && r.next.pendingJoin == 0
    ensures response != RESULT_OK ==> r == Step(m.(pendingJoin := 0), [])
    ensures response == RESULT_OK ==> r.next.lobbyId == SteamId.SteamId(lobby)
    ensures response == RESULT_OK ==> forall id :: id in r.next.peers <==> id in m.peers || (id in members && id != self)
    ensures forall id :: id in m.peers ==> id in r.next.peers && r.next.peers[id] == m.peers[id]
    ensures forall e :: e in r.effects ==> e.Send? && e == Greeting(e.to)
    ensures forall id :: multiset(r.effects)[Greeting(id)]
                         == if response == RESULT_OK && m.initialized && id in members && id != self && id !in m.peers then 1 else 0
  {
    if response != RESULT_OK then Step(m.(pendingJoin := 0), [])
    else
      var m1 := m.(lobbyId := SteamId.SteamId(lobby));
      var joined := Filter(members, id => id != self);
      var s := AddPeers(m1, joined, now);
      assert (forall e :: e in s.effects ==> e.Send? && e == Greeting(e.to))
             && (forall id :: multiset(s.effects)[Greeting(id)] == if m.initialized && id in joined && id !in m.peers then 1 else 0)
        by { AddPeersOnlyGreets(m1, joined, now); AddPeersGreetsNewcomers(m1, joined, now); }
      Step(s.next.(pendingJoin := 0), s.effects)
  }

  /** Lobby members as `UpdateLobbyMembers` counts them: ids that are valid. */
  predicate IsCurrentMember(id: u64, members: seq<u64>)
  {
    id in members && SteamId.IsValid(SteamId.SteamId(id))
  }

  /** The ids `UpdateLobbyMembers` greets: valid members other than ourselves. */
  function Joining(members: seq<u64>, self: u64): (r: seq<u64>)
    ensures forall id :: id in r <==> IsCurrentMember(id, members) && id != self
  {
    Filter(members, id => SteamId.IsValid(SteamId.SteamId(id)) && id != self)
  }

  /** The peers, in iteration order, that `UpdateLobbyMembers` drops: those that are not current members. */
  function Leaving(peers: map<u64, Peer>, members: seq<u64>, iter: Iteration): (r: seq<u64>)
    requires ValidIteration(iter)
    ensures Distinct(r)
    ensures forall id :: id in r <==> id in peers && !IsCurrentMember(id, members)
  {
    assert Enumerates(iter(peers), peers);
    Filter(iter(peers), id => !IsCurrentMember(id, members))
  }

  /**
    `UpdateLobbyMembers`: make a peer of every valid member but ourselves, then
    drop the peers that are no longer valid members.
   */
  function UpdateLobbyMembers(m: Manager, now: int, members: seq<u64>, self: u64, iter: Iteration): (r: Step)
    requires Wf(m) && ValidIteration(iter)
    ensures Wf(r.next)
    ensures !m.initialized || !SteamId.IsValid(m.lobbyId) ==> r == Step(m, [])
    ensures r.next == m.(peers := r.next.peers)
    ensures m.initialized && SteamId.IsValid(m.lobbyId) ==>
              forall id :: id in r.next.peers <==> IsCurrentMember(id, members) && (id in m.peers || id != self)
    ensures forall id :: id in r.next.peers && id in m.peers ==> r.next.peers[id] == m.peers[id]
    ensures forall id :: id in r.next.peers && id !in m.peers ==> r.next.peers[id] == NewPeer(id, now)
  {
    if !m.initialized || !SteamId.IsValid(m.lobbyId) then Step(m, [])
    else
      var added := AddPeers(m, Joining(members, self), now);
      var removed := RemoveAll(added.next, Leaving(added.next.peers, members, iter));
      Step(removed.next, added.effects + removed.effects)
  }

  /**
    What `UpdateLobbyMembers` tells Steam: one greeting per newly created
    peer and one session close per dropped peer, nothing else.
   */
  lemma UpdateLobbyMembersParts(m: Manager, now: int, members: seq<u64>, self: u64, iter: Iteration)
    requires Wf(m) && ValidIteration(iter) && m.initialized && SteamId.IsValid(m.lobbyId)
    ensures var added := AddPeers(m, Joining(members, self), now);
            var removed := RemoveAll(added.next, Leaving(added.next.peers, members, iter));
            UpdateLobbyMembers(m, now, members, self, iter).effects == added.effects + removed.effects
  {
  }

  /** `UpdateLobbyMembers` sends greetings and closes sessions, nothing else. */
  lemma UpdateLobbyMembersOnlyGreetsAndCloses(m: Manager, now: int, members: seq<u64>, self: u64, iter: Iteration)
    requires Wf(m) && ValidIteration(iter)
    ensures forall e :: e in UpdateLobbyMembers(m, now, members, self, iter).effects ==>
              (e.Send? && e == Greeting(e.to)) || e.CloseSession?
  {
    if m.initialized && SteamId.IsValid(m.lobbyId) {
      var joining := Joining(members, self);
      var added := AddPeers(m, joining, now);
      AddPeersOnlyGreets(m, joining, now);
      RemoveAllOnlyCloses(added.next, Leaving(added.next.peers, members, iter));
      UpdateLobbyMembersParts(m, now, members, self, iter);
    }
  }

  /** `UpdateLobbyMembers` closes the session of each dropped peer once: those that are not valid members. */
  lemma UpdateLobbyMembersCloses(m: Manager, now: int, members: seq<u64>, self: u64, iter: Iteration)
    requires Wf(m) && ValidIteration(iter)
    ensures forall id :: multiset(UpdateLobbyMembers(m, now, members, self, iter).effects)[CloseSession(id)]
                         == if m.initialized && SteamId.IsValid(m.lobbyId) && id in m.peers && !IsCurrentMember(id, members) then 1 else 0
  {
    if m.initialized && SteamId.IsValid(m.lobbyId) {
      var joining := Joining(members, self);
      var added := AddPeers(m, joining, now);
      var leaving := Leaving(added.next.peers, members, iter);
      var removed := RemoveAll(added.next, leaving);
      AddPeersOnlyGreets(m, joining, now);
      RemoveAllClosesOnce(added.next, leaving);
      UpdateLobbyMembersParts(m, now, members, self, iter);
      assert multiset(added.effects + removed.effects) == multiset(added.effects) + multiset(removed.effects);
      assert forall id :: CloseSession(id) !in added.effects;
    }
  }

  /** `UpdateLobbyMembers` greets each peer it creates once, and nobody else. */
  lemma UpdateLobbyMembersGreets(m: Manager, now: int, members: seq<u64>, self: u64, iter: Iteration)
    requires Wf(m) && ValidIteration(iter)
    ensures var r := UpdateLobbyMembers(m, now, members, self, iter);
            forall id :: multiset(r.effects)[Greeting(id)] == if id in r.next.peers && id !in m.peers then 1 else 0
  {
    if m.initialized && SteamId.IsValid(m.lobbyId) {
      var joining := Joining(members, self);
      var added := AddPeers(m, joining, now);
      var leaving := Leaving(added.next.peers, members, iter);
      var removed := RemoveAll(added.next, leaving);
      AddPeersGreetsNewcomers(m, joining, now);
      RemoveAllOnlyCloses(added.next, leaving);
      UpdateLobbyMembersParts(m, now, members, self, iter);
      GreetingsKept(added.effects, removed.effects);
      NewcomersJoin(m, now, members, self, iter);
    }
  }

  /** Effects that hold no greeting leave the greeting count of what they follow alone. */
  lemma GreetingsKept(a: seq<Effect>, b: seq<Effect>)
    requires forall e :: e in b ==> e.CloseSession?
    ensures forall id :: multiset(a + b)[Greeting(id)] == multiset(a)[Greeting(id)]
  {
    assert multiset(a + b) == multiset(a) + multiset(b);
    assert forall id :: Greeting(id) !in b;
  }

  /** The peers `UpdateLobbyMembers` creates are exactly the joining members that were not peers. */
  lemma NewcomersJoin(m: Manager, now: int, members: seq<u64>, self: u64, iter: Iteration)
    requires Wf(m) && ValidIteration(iter) && m.initialized && SteamId.IsValid(m.lobbyId)
    ensures var r := UpdateLobbyMembers(m, now, members, self, iter);
            forall id :: id in r.next.peers && id !in m.peers <==> id in Joining(members, self) && id !in m.peers
  {
  }

  /** `OnLobbyChatUpdate`: a member who left in any way is dropped; one who entered becomes a peer. */
  function OnLobbyChatUpdate(m: Manager, user: u64, mask: u32, now: int): (r: Step)
    requires Wf(m)
    ensures Wf(r.next)
    ensures (mask as bv32) & MEMBER_GONE != 0 ==> r == RemovePeer(m, user)
    ensures (mask as bv32) & MEMBER_GONE == 0 && (mask as bv32) & MEMBER_ENTERED != 0 ==> r == GetOrCreatePeer(m, user, now)
    ensures (mask as bv32) & (MEMBER_GONE | MEMBER_ENTERED) == 0 ==> r == Step(m, [])
  {
    var bits := mask as bv32;
    if bits & MEMBER_GONE != 0 then RemovePeer(m, user)
    else if bits & MEMBER_ENTERED != 0 then GetOrCreatePeer(m, user, now)
    else Step(m, [])
  }

  /** A departure notice wins over an arrival reported in the same mask. */
  lemma ChatUpdateDepartureWins(m: Manager, user: u64, now: int)
    requires Wf(m)
    ensures user !in OnLobbyChatUpdate(m, user, 0x03, now).next.peers
    ensures user in OnLobbyChatUpdate(m, user, 0x01, now).next.peers
  {
  }

  // Lobby ownership

  /**
    `UpdateLobbyOwner` as written: when Steam reports a different owner, the
    recorded owner is assigned its own old value, so it never changes.
   */
  function UpdateLobbyOwner(m: Manager, steamOwner: u64): (r: Manager)
    ensures r == m
  {
    if !m.initialized || !SteamId.IsValid(m.lobbyId) then m
    else if SteamId.SteamId(steamOwner) != m.lobbyOwnerId then
      var oldOwner := m.lobbyOwnerId;
      m.(lobbyOwnerId := oldOwner)
    else m
  }

  /** `UpdateLobbyOwner` as its log message describes it: the recorded owner follows Steam's answer. */
  function UpdateLobbyOwnerFixed(m: Manager, steamOwner: u64): (r: Manager)
    ensures m.initialized && SteamId.IsValid(m.lobbyId) ==> r.lobbyOwnerId.bits == steamOwner
    ensures !(m.initialized && SteamId.IsValid(m.lobbyId)) ==> r == m
    ensures r == m.(lobbyOwnerId := r.lobbyOwnerId)
  {
    if !m.initialized || !SteamId.IsValid(m.lobbyId) then m
    else if SteamId.SteamId(steamOwner) != m.lobbyOwnerId then m.(lobbyOwnerId := SteamId.SteamId(steamOwner))
    else m
  }

  /** `CSteamP2PManager::IsLobbyOwner`: we are in a valid lobby and are its recorded owner. */
  predicate IsLobbyOwner(m: Manager, self: u64)
  {
    m.initialized && SteamId.IsValid(m.lobbyId) && m.lobbyOwnerId.bits == self
  }

  /**
    The discrepancy: in a valid lobby whose owner Steam reports as a valid
    user, the as-written update leaves that user not the owner, while the
    corrected one makes them the owner.
   */
  lemma OwnerUpdateLost(m: Manager, owner: u64)
    requires m.initialized && SteamId.IsValid(m.lobbyId) && m.lobbyOwnerId.bits == 0 && owner != 0
    ensures !IsLobbyOwner(UpdateLobbyOwner(m, owner), owner)
    ensures IsLobbyOwner(UpdateLobbyOwnerFixed(m, owner), owner)
  {
  }

  // The periodic step

  /** The effects of `Update`'s member and owner refresh, when it is due. */
  function Refresh(m: Manager, now: int, members: seq<u64>, self: u64, steamOwner: u64, iter: Iteration): (r: Step)
    requires Wf(m) && ValidIteration(iter)
    ensures Wf(r.next) && r.next.lobbyOwnerId == m.lobbyOwnerId
    ensures r.next.lobbyId == m.lobbyId && r.next.initialized == m.initialized
  {
    if now - m.lastMemberUpdate > MEMBER_REFRESH_MS then
      var s := UpdateLobbyMembers(m, now, members, self, iter);
      Step(UpdateLobbyOwner(s.next, steamOwner).(lastMemberUpdate := now), s.effects)
    else Step(m, [])
  }

  /**
    `Update`: in a valid lobby, refresh members and owner when due, take in
    received messages, send the keep-alives that are due and drop timed-out
    peers. Afterwards no remaining peer is timed out or due a keep-alive.
   */
  function Update(m: Manager, now: int, members: seq<u64>, self: u64, steamOwner: u64,
                  inputBatch: seq<Received>, reliableBatch: seq<Received>, iter: Iteration): (r: Step)
    requires Wf(m) && ValidIteration(iter)
    requires |inputBatch| <= RECEIVE_BATCH && |reliableBatch| <= RECEIVE_BATCH
    requires forall i :: 0 <= i < |inputBatch| ==> SteamId.WellFormed(inputBatch[i].sender)
    requires forall i :: 0 <= i < |reliableBatch| ==> SteamId.WellFormed(reliableBatch[i].sender)
    ensures Wf(r.next)
    ensures !SteamId.IsValid(m.lobbyId) || !m.initialized ==> r == Step(m, [])
    ensures r.next.lobbyOwnerId == m.lobbyOwnerId && r.next.lobbyId == m.lobbyId
    ensures SteamId.IsValid(m.lobbyId) && m.initialized ==> forall id :: id in r.next.peers ==>
      !IsTimedOut(r.next.peers[id], now) && !NeedsKeepAlive(r.next.peers[id], now)
  {
    if !SteamId.IsValid(m.lobbyId) || !m.initialized then Step(m, [])
    else
      var s1 := Refresh(m, now, members, self, steamOwner, iter);
      var s2 := PollIngress(s1.next, inputBatch, reliableBatch, now);
      var s3 := SendKeepAlives(s2.next, now, iter);
      var s4 := CheckTimeouts(s3.next, now, iter);
      Step(s4.next, s1.effects + s2.effects + s3.effects + s4.effects)
  }

  // Whole-run invariant

  /** Everything that can happen to the manager from outside. */
  datatype Event =
    | Initialise(matchmaking: bool, messages: bool, userInterface: bool)
    | SetLocalServer(addr: NetAddr)
    | Host(maxMembers: int, handle: u64)
    | Join(lobby: u64, handle: u64)
    | Leave
    | Tick(now: int, members: seq<u64>, self: u64, steamOwner: u64,
           inputBatch: seq<Received>, reliableBatch: seq<Received>)
    | LobbyCreated(result: int, lobby: u64)
    | LobbyEntered(response: int, lobby: u64, enterMembers: seq<u64>, enterSelf: u64, enterNow: int)
    | ChatUpdate(user: u64, mask: u32, chatNow: int)
    | Kicked

  /** What the Steam client guarantees about the messages it hands over. */
  predicate EventOk(e: Event)
  {
    e.Tick? ==>
      && |e.inputBatch| <= RECEIVE_BATCH && |e.reliableBatch| <= RECEIVE_BATCH
      && (forall i :: 0 <= i < |e.inputBatch| ==> SteamId.WellFormed(e.inputBatch[i].sender))
      && (forall i :: 0 <= i < |e.reliableBatch| ==> SteamId.WellFormed(e.reliableBatch[i].sender))
  }

  function Apply(m: Manager, e: Event, iter: Iteration): (r: Manager)
    requires Wf(m) && ValidIteration(iter) && EventOk(e)
    ensures Wf(r)
  {
    match e
    case Initialise(mm, msgs, user) => Init(m, mm, msgs, user).1
    case SetLocalServer(addr) => UpdateLocalServer(m, addr)
    case Host(maxMembers, handle) => HostLobbyPrivate(m, maxMembers, handle, iter).1.next
    case Join(lobby, handle) => JoinLobbyById(m, lobby, handle, iter).1.next
    case Leave => LeaveLobby(m, iter).next
    case Tick(now, members, self, owner, b0, b1) => Update(m, now, members, self, owner, b0, b1, iter).next
    case LobbyCreated(result, lobby) => OnLobbyCreated(m, result, lobby)
    case LobbyEntered(response, lobby, members, self, now) => OnLobbyEnter(m, response, lobby, members, self, now).next
    case ChatUpdate(user, mask, now) => OnLobbyChatUpdate(m, user, mask, now).next
    case Kicked => OnLobbyKicked(m, iter).next
  }

  function Run(m: Manager, events: seq<Event>, iter: Iteration): (r: Manager)
    requires Wf(m) && ValidIteration(iter)
    requires forall i :: 0 <= i < |events| ==> EventOk(events[i])
    ensures Wf(r)
    decreases |events|
  {
    if events == [] then m
    else Run(Apply(m, events[0], iter), events[1..], iter)
  }

  lemma ApplyKeepsOwner(m: Manager, e: Event, iter: Iteration)
    requires Wf(m) && ValidIteration(iter) && EventOk(e)
    ensures Apply(m, e, iter).lobbyOwnerId == m.lobbyOwnerId
  {
  }

  /**
    Because the owner update never assigns Steam's answer, in any run from the
    initial state the recorded owner stays the cleared id: we never consider
    ourselves the lobby owner (our own id is never 0), and no peer is ever
    considered the owner either.
   */
  lemma {:induction false} NobodyEverOwnsTheLobby(m: Manager, events: seq<Event>, iter: Iteration, self: u64)
    requires Wf(m) && m.lobbyOwnerId.bits == 0 && ValidIteration(iter) && self != 0
    requires forall i :: 0 <= i < |events| ==> EventOk(events[i])
    ensures var r := Run(m, events, iter);
      !IsLobbyOwner(r, self) && forall id :: id in r.peers ==> !Peers.IsLobbyOwner(r.peers[id], r.lobbyOwnerId.bits)
    decreases |events|
  {
    var r := Run(m, events, iter);
    if events == [] {
      forall id | id in r.peers
        ensures !Peers.IsLobbyOwner(r.peers[id], r.lobbyOwnerId.bits)
      {
        NoOwnerWhenOwnerCleared(r.peers[id], r.lobbyOwnerId.bits);
      }
    } else {
      ApplyKeepsOwner(m, events[0], iter);
      NobodyEverOwnsTheLobby(Apply(m, events[0], iter), events[1..], iter, self);
    }
  }
}

=== FILE: peer.dfy ===
/**
  `CPeerConnection`: what the manager remembers about one lobby member, and
  the two liveness tests it applies. Clock readings are integer milliseconds
  supplied by the caller.
 */
module Peers {
  import opened Common
  import SteamId

  const KEEP_ALIVE_INTERVAL_MS := 3000
  const PEER_TIMEOUT_MS := 15000

  datatype Peer = Peer(
    steamId: u64,
    lastReceived: int,
    lastSent: int,
    rtt: int,
    clientId: int,
    /** Fingerprint of the game server the peer last reported; 0 until it reports one. */
    serverCrc: u32)

  /** The constructor: both clocks read `now`, round-trip time unknown (-1), no server known. */
  function NewPeer(id: u64, now: int): (p: Peer)
    ensures p.steamId == id && p.serverCrc == 0 && p.rtt == -1
    ensures p.lastReceived == now && p.lastSent == now
  {
    Peer(id, now, now, -1, 0, 0)
  }

  /** More than the timeout has passed since anything arrived from the peer. */
  predicate IsTimedOut(p: Peer, now: int)
  {
    now - p.lastReceived > PEER_TIMEOUT_MS
  }

  /** More than the keep-alive interval has passed since anything was sent to the peer. */
  predicate NeedsKeepAlive(p: Peer, now: int)
  {
    now - p.lastSent > KEEP_ALIVE_INTERVAL_MS
  }

  /** A new peer is neither timed out nor due a keep-alive until its intervals have fully elapsed. */
  lemma NewPeerIsLive(id: u64, created: int, now: int)
    ensures !IsTimedOut(NewPeer(id, created), now) <==> now <= created + PEER_TIMEOUT_MS
    ensures !NeedsKeepAlive(NewPeer(id, created), now) <==> now <= created + KEEP_ALIVE_INTERVAL_MS
  {
  }

  /** Both tests are strict: at exactly the limit the peer still counts as live. */
  lemma LivenessBoundaries(p: Peer)
    ensures !IsTimedOut(p, p.lastReceived + PEER_TIMEOUT_MS) && IsTimedOut(p, p.lastReceived + PEER_TIMEOUT_MS + 1)
    ensures !NeedsKeepAlive(p, p.lastSent + KEEP_ALIVE_INTERVAL_MS) && NeedsKeepAlive(p, p.lastSent + KEEP_ALIVE_INTERVAL_MS + 1)
  {
  }

  /** Once true, both tests stay true as the clock advances, until the peer's timestamps are refreshed. */
  lemma LivenessMonotone(p: Peer, t: int, t': int)
    requires t <= t'
    ensures IsTimedOut(p, t) ==> IsTimedOut(p, t')
    ensures NeedsKeepAlive(p, t) ==> NeedsKeepAlive(p, t')
  {
  }

  /** Hearing from the peer at `now` stamps its receive clock, which makes it live at `now`; nothing else changes. */
  function Touch(p: Peer, now: int): (r: Peer)
    ensures r.lastReceived == now && !IsTimedOut(r, now)
    ensures r.steamId == p.steamId && r.lastSent == p.lastSent && r.serverCrc == p.serverCrc
    ensures r.rtt == p.rtt && r.clientId == p.clientId
  {
    p.(lastReceived := now)
  }

  /** `CPeerConnection::IsLobbyOwner`, given the manager's recorded owner id. */
  predicate IsLobbyOwner(p: Peer, ownerId: u64)
  {
    p.steamId == ownerId && SteamId.IsValid(SteamId.SteamId(ownerId))
  }

  /** No peer is owner of a lobby whose recorded owner is the cleared id 0, and an owner is never id 0. */
  lemma NoOwnerWhenOwnerCleared(p: Peer, ownerId: u64)
    ensures ownerId == 0 ==> !IsLobbyOwner(p, ownerId)
    ensures IsLobbyOwner(p, ownerId) ==> p.steamId != 0
  {
    SteamId.ValidIsNonZero(SteamId.SteamId(ownerId));
  }
}

=== FILE: protocol.dfy ===
/**
  The peer-to-peer wire protocol: a 4-byte header (version, kind, total
  size), three message kinds, and the compact player-input record carried by
  INPUT messages.

  Messages are modelled as byte strings laid out as the compiler lays out the
  message structs: the header is packed, the rest follows natural alignment
  with little-endian integers. A network address is an opaque 24-byte string.
 */
module Protocol {
  import opened Common
  import Crc

  const PROTOCOL_VERSION: u8 := 1

  const PACKET_PEER_INFO: u8 := 0
  const PACKET_KEEP_ALIVE: u8 := 1
  const PACKET_INPUT: u8 := 2
  /** One past the last kind; `GetPacketType` answers it for anything it rejects. */
  const PACKET_MAX: u8 := 3

  const HEADER_SIZE := 4
  const MAX_NAME_LENGTH := 16
  const NETADDR_SIZE := 24
  const PEER_INFO_SIZE := HEADER_SIZE + MAX_NAME_LENGTH
  const KEEP_ALIVE_SIZE := HEADER_SIZE + NETADDR_SIZE
  /** Header, address, tick, the 15-byte input padded to 16, the client id padded to 4. */
  const INPUT_SIZE := HEADER_SIZE + NETADDR_SIZE + 4 + 16 + 4

  type NetAddr = s: seq<u8> | |s| == NETADDR_SIZE witness Zeros(NETADDR_SIZE)
  type PlayerName = s: seq<u8> | |s| == MAX_NAME_LENGTH witness Zeros(MAX_NAME_LENGTH)

  const ZERO_ADDR: NetAddr := Zeros(NETADDR_SIZE)

  /** `NetAddrCRC32`, the fingerprint by which peers tell whether they share a game server. */
  function AddrCrc(a: NetAddr): u32
  {
    Crc.Crc32(a)
  }

  datatype Header = Header(version: u8, kind: u8, size: u16)

  function EncodeHeader(h: Header): (s: seq<u8>)
    ensures |s| == HEADER_SIZE
  {
    [h.version, h.kind] + LittleEndian(h.size, 2)
  }

  /** The header fields read from the first four bytes, if there are four. */
  function DecodeHeader(s: seq<u8>): (h: Option<Header>)
    ensures h.Some? <==> |s| >= HEADER_SIZE
  {
    if |s| < HEADER_SIZE then None
    else
      var size := FromLittleEndian(s[2..4]);
      assert Pow256(2) == 0x1_0000;
      Some(Header(s[0], s[1], size))
  }

  lemma {:induction false} HeaderRoundTrip(h: Header, rest: seq<u8>)
    ensures DecodeHeader(EncodeHeader(h) + rest) == Some(h)
  {
    var s := EncodeHeader(h) + rest;
    assert s[2..4] == LittleEndian(h.size, 2);
    assert Pow256(2) == 0x1_0000;
    LittleEndianRoundTrip(h.size, 2);
  }

  /** `GetPacketType`. */
  function GetPacketType(s: seq<u8>): (kind: u8)
    ensures kind <= PACKET_MAX
    ensures kind < PACKET_MAX <==> |s| >= HEADER_SIZE && s[1] < PACKET_MAX
    ensures kind < PACKET_MAX ==> kind == s[1]
  {
    if |s| < HEADER_SIZE then PACKET_MAX
    else if s[1] >= PACKET_MAX then PACKET_MAX
    else s[1]
  }

  // The compact input record and its conversions

  /** `CNetObj_PlayerInput`, restricted to the nine fields the conversions carry. */
  datatype NetInput = NetInput(
    targetX: i32, targetY: i32,
    jump: i32, fire: i32, hook: i32,
    wantedWeapon: i32, prevWeapon: i32, nextWeapon: i32,
    direction: i32)

  const ZERO_NET_INPUT := NetInput(0, 0, 0, 0, 0, 0, 0, 0, 0)

  /** `CP2PPlayerInput`. */
  datatype P2PInput = P2PInput(
    targetX: i32, targetY: i32,
    jump: u8, fire: u8, hook: u8,
    wantedWeapon: u8, prevWeapon: u8, nextWeapon: u8,
    direction: i8)

  const ZERO_P2P_INPUT := P2PInput(0, 0, 0, 0, 0, 0, 0, 0, 0)

  /** `ConvertToP2PInput`: targets copied, the byte-sized fields narrowed with wrap-around. */
  function ConvertToP2PInput(n: NetInput): (p: P2PInput)
    ensures p.targetX == n.targetX && p.targetY == n.targetY
    ensures (p.jump - n.jump) % 0x100 == 0 && (p.fire - n.fire) % 0x100 == 0 && (p.hook - n.hook) % 0x100 == 0
    ensures (p.wantedWeapon - n.wantedWeapon) % 0x100 == 0
    ensures (p.prevWeapon - n.prevWeapon) % 0x100 == 0
    ensures (p.nextWeapon - n.nextWeapon) % 0x100 == 0
    ensures (p.direction - n.direction) % 0x100 == 0
  {
    P2PInput(n.targetX, n.targetY, ToU8(n.jump), ToU8(n.fire), ToU8(n.hook),
             ToU8(n.wantedWeapon), ToU8(n.prevWeapon), ToU8(n.nextWeapon), ToI8(n.direction))
  }

  /** `ConvertFromP2PInput`: every field widened without change. */
  function ConvertFromP2PInput(p: P2PInput): (n: NetInput)
    ensures n.targetX == p.targetX && n.targetY == p.targetY
    ensures n.jump == p.jump && n.fire == p.fire && n.hook == p.hook
    ensures n.wantedWeapon == p.wantedWeapon && n.prevWeapon == p.prevWeapon && n.nextWeapon == p.nextWeapon
    ensures n.direction == p.direction
  {
    NetInput(p.targetX, p.targetY, p.jump, p.fire, p.hook,
             p.wantedWeapon, p.prevWeapon, p.nextWeapon, p.direction)
  }

  /** The inputs that survive the trip through the compact record. */
  predicate FitsCompact(n: NetInput)
  {
    && 0 <= n.jump < 0x100 && 0 <= n.fire < 0x100 && 0 <= n.hook < 0x100
    && 0 <= n.wantedWeapon < 0x100 && 0 <= n.prevWeapon < 0x100 && 0 <= n.nextWeapon < 0x100
    && -0x80 <= n.direction < 0x80
  }

  /** Narrowing then widening gives the input back exactly when every field fits its compact width. */
  lemma NetInputRoundTrip(n: NetInput)
    ensures ConvertFromP2PInput(ConvertToP2PInput(n)) == n <==> FitsCompact(n)
  {
    ConversionsFix(n.jump);
    ConversionsFix(n.fire);
    ConversionsFix(n.hook);
    ConversionsFix(n.wantedWeapon);
    ConversionsFix(n.prevWeapon);
    ConversionsFix(n.nextWeapon);
    ConversionsFix(n.direction);
  }

  /** Every compact record survives widening then narrowing. */
  lemma P2PInputRoundTrip(p: P2PInput)
    ensures ConvertToP2PInput(ConvertFromP2PInput(p)) == p
  {
    ConversionsFix(p.jump);
    ConversionsFix(p.fire);
    ConversionsFix(p.hook);
    ConversionsFix(p.wantedWeapon);
    ConversionsFix(p.prevWeapon);
    ConversionsFix(p.nextWeapon);
    ConversionsFix(p.direction);
  }

  // Messages

  datatype Message =
    | PeerInfo(name: PlayerName)
    | KeepAlive(serverAddr: NetAddr)
    | Input(serverAddr: NetAddr, gameTick: u32, input: P2PInput, clientId: i8)

  function Kind(m: Message): u8
  {
    match m
    case PeerInfo(_) => PACKET_PEER_INFO
    case KeepAlive(_) => PACKET_KEEP_ALIVE
    case Input(_, _, _, _) => PACKET_INPUT
  }

  /** The struct size of each message kind; `PACKET_MAX` and above have none. */
  function SizeOfKind(kind: u8): (size: int)
    ensures kind < PACKET_MAX ==> HEADER_SIZE < size <= INPUT_SIZE
  {
    if kind == PACKET_PEER_INFO then PEER_INFO_SIZE
    else if kind == PACKET_KEEP_ALIVE then KEEP_ALIVE_SIZE
    else if kind == PACKET_INPUT then INPUT_SIZE
    else 0
  }

  /** The header every message constructor stamps: current version, own kind, own size. */
  function HeaderOf(m: Message): (h: Header)
    ensures h.version == PROTOCOL_VERSION && h.kind == Kind(m) && h.size == SizeOfKind(Kind(m))
  {
    Header(PROTOCOL_VERSION, Kind(m), SizeOfKind(Kind(m)))
  }

  /** The constructors with their default member values. */
  function NewPeerInfo(): Message { PeerInfo(Zeros(MAX_NAME_LENGTH)) }
  function NewKeepAlive(): Message { KeepAlive(ZERO_ADDR) }
  function NewInput(): Message { Input(ZERO_ADDR, 0, ZERO_P2P_INPUT, -1) }

  function EncodeI32(x: i32): (s: seq<u8>)
    ensures |s| == 4
  {
    LittleEndian(ToU32(x), 4)
  }

  function DecodeI32(s: seq<u8>): i32
    requires |s| == 4
  {
    ToI32(FromLittleEndian(s))
  }

  lemma {:induction false} I32RoundTrip(x: i32)
    ensures DecodeI32(EncodeI32(x)) == x
  {
    assert Pow256(4) == 0x1_0000_0000;
    LittleEndianRoundTrip(ToU32(x), 4);
    WordViewsRoundTrip(0, x);
  }

  function EncodeU32(x: u32): (s: seq<u8>)
    ensures |s| == 4
  {
    LittleEndian(x, 4)
  }

  function DecodeU32(s: seq<u8>): u32
    requires |s| == 4
  {
    var v := FromLittleEndian(s);
    assert Pow256(4) == 0x1_0000_0000;
    v
  }

  lemma {:induction false} U32RoundTrip(x: u32)
    ensures DecodeU32(EncodeU32(x)) == x
  {
    assert Pow256(4) == 0x1_0000_0000;
    LittleEndianRoundTrip(x, 4);
  }

  /** The 16 bytes of `CP2PPlayerInput`: two words, seven bytes, one byte of padding (sent as zero). */
  function EncodeP2PInput(p: P2PInput): (s: seq<u8>)
    ensures |s| == 16
  {
    EncodeI32(p.targetX) + EncodeI32(p.targetY)
    + [p.jump, p.fire, p.hook, p.wantedWeapon, p.prevWeapon, p.nextWeapon, ToU8(p.direction), 0]
  }

  function DecodeP2PInput(s: seq<u8>): P2PInput
    requires |s| == 16
  {
    P2PInput(DecodeI32(s[0..4]), DecodeI32(s[4..8]), s[8], s[9], s[10], s[11], s[12], s[13], ToI8(s[14]))
  }

  lemma {:induction false} P2PInputBytesRoundTrip(p: P2PInput)
    ensures DecodeP2PInput(EncodeP2PInput(p)) == p
  {
    var s := EncodeP2PInput(p);
    assert s[0..4] == EncodeI32(p.targetX);
    assert s[4..8] == EncodeI32(p.targetY);
    I32RoundTrip(p.targetX);
    I32RoundTrip(p.targetY);
    ByteViewsRoundTrip(0, p.direction);
  }

  function EncodeBody(m: Message): (s: seq<u8>)
    ensures |s| == SizeOfKind(Kind(m)) - HEADER_SIZE
  {
    match m
    case PeerInfo(name) => name
    case KeepAlive(addr) => addr
    case Input(addr, tick, input, clientId) =>
      addr + EncodeU32(tick) + EncodeP2PInput(input) + [ToU8(clientId), 0, 0, 0]
  }

  /** The bytes a message struct occupies on the wire. */
  function Encode(m: Message): (s: seq<u8>)
    ensures |s| == SizeOfKind(Kind(m))
  {
    EncodeHeader(HeaderOf(m)) + EncodeBody(m)
  }

  /** The three header checks every received packet must pass: long enough, current version, honest size. */
  predicate AcceptsHeader(s: seq<u8>)
  {
    match DecodeHeader(s)
    case None => false
    case Some(h) => h.version == PROTOCOL_VERSION && h.size == |s|
  }

  /** The message a packet that passed the header checks carries, if its kind is known and its size is that kind's. */
  function DecodeBody(s: seq<u8>): (m: Option<Message>)
    requires |s| >= HEADER_SIZE
    ensures m.Some? <==> s[1] < PACKET_MAX && |s| == SizeOfKind(s[1])
    ensures m.Some? ==> Kind(m.value) == s[1]
  {
    var kind := s[1];
    if kind == PACKET_INPUT && |s| == INPUT_SIZE then
      Some(Input(s[4..28], DecodeU32(s[28..32]), DecodeP2PInput(s[32..48]), ToI8(s[48])))
    else if kind == PACKET_KEEP_ALIVE && |s| == KEEP_ALIVE_SIZE then
      Some(KeepAlive(s[4..28]))
    else if kind == PACKET_PEER_INFO && |s| == PEER_INFO_SIZE then
      Some(PeerInfo(s[4..20]))
    else None
  }

  /** What a receiver makes of a packet. */
  function Decode(s: seq<u8>): (m: Option<Message>)
    ensures m.Some? <==> AcceptsHeader(s) && s[1] < PACKET_MAX && |s| == SizeOfKind(s[1])
  {
    if AcceptsHeader(s) then DecodeBody(s) else None
  }

  /** Every message as its constructor builds it passes the header checks and names its own kind. */
  lemma EncodedHeaderAccepted(m: Message)
    ensures AcceptsHeader(Encode(m))
    ensures GetPacketType(Encode(m)) == Kind(m)
  {
    HeaderRoundTrip(HeaderOf(m), EncodeBody(m));
  }

  lemma {:induction false} InputBodyRoundTrip(addr: NetAddr, tick: u32, input: P2PInput, clientId: i8)
    ensures var s := Encode(Input(addr, tick, input, clientId));
      s[4..28] == addr && DecodeU32(s[28..32]) == tick
      && DecodeP2PInput(s[32..48]) == input && ToI8(s[48]) == clientId
  {
    var m := Input(addr, tick, input, clientId);
    InputLayout(EncodeHeader(HeaderOf(m)), addr, EncodeU32(tick), EncodeP2PInput(input), [ToU8(clientId), 0, 0, 0]);
    U32RoundTrip(tick);
    P2PInputBytesRoundTrip(input);
    ByteViewsRoundTrip(0, clientId);
  }

  /** Where the fields of an INPUT message sit in its bytes. */
  lemma InputLayout(header: seq<u8>, addr: seq<u8>, tick: seq<u8>, input: seq<u8>, tail: seq<u8>)
    requires |header| == HEADER_SIZE && |addr| == NETADDR_SIZE && |tick| == 4 && |input| == 16 && |tail| > 0
    ensures var s := header + (addr + tick + input + tail);
            s[4..28] == addr && s[28..32] == tick && s[32..48] == input && s[48] == tail[0]
  {
  }

  /** Decoding what was encoded gives the message back. */
  lemma {:induction false} DecodeEncode(m: Message)
    ensures Decode(Encode(m)) == Some(m)
  {
    EncodedHeaderAccepted(m);
    var s := Encode(m);
    match m
    case PeerInfo(name) =>
      assert s[4..20] == name;
    case KeepAlive(addr) =>
      assert s[4..28] == addr;
    case Input(addr, tick, input, clientId) =>
      InputBodyRoundTrip(addr, tick, input, clientId);
  }

  /** Freshly constructed messages pass every check a receiver makes. */
  lemma NewMessagesAccepted()
    ensures Decode(Encode(NewPeerInfo())) == Some(NewPeerInfo())
    ensures Decode(Encode(NewKeepAlive())) == Some(NewKeepAlive())
    ensures Decode(Encode(NewInput())) == Some(NewInput())
  {
    DecodeEncode(NewPeerInfo());
    DecodeEncode(NewKeepAlive());
    DecodeEncode(NewInput());
  }
}

=== FILE: report_reading.dfy ===
/**
  The comparison report read back: every line check_translations.py writes is
  classified as `update_translations.py` classifies it, section by section,
  ending in the round trip from the lists of check_translations.py to the updater's.
 */
module ReportReading {
  import opened Common
  import opened Text
  import opened UpdateTranslations
  import CheckTranslations

  /** No character of `s` is the first letter of either section mark. */
  predicate NoMarkLetter(s: string)
  {
    forall i :: 0 <= i < |s| ==> s[i] != 'M' && s[i] != 'P'
  }

  /** A line that starts with neither white space nor a digit and holds no mark letter. */
  predicate Plain(s: string)
  {
    s != [] && !IsSpace(s[0]) && !IsDigit(s[0]) && NoMarkLetter(s)
  }

  /** Stripping keeps only characters of the original. */
  lemma {:induction false} NoMarkLetterStrip(s: string)
    requires NoMarkLetter(s)
    ensures NoMarkLetter(Strip(s))
  {
    StripSpec(s);
    var r := Strip(s);
    forall j | 0 <= j < |r|
      ensures r[j] != 'M' && r[j] != 'P'
    {
      assert r[j] == s[Leading(s) + j];
    }
  }

  /** A string that starts with something other than white space keeps that character first when stripped. */
  lemma {:induction false} StripFirst(s: string)
    requires s != [] && !IsSpace(s[0])
    ensures Strip(s) != [] && Strip(s)[0] == s[0]
  {
    assert TrimStart(s) == s;
    StripSpec(s);
    assert s[0..] == s;
  }

  /** White space before a string that neither starts nor ends with white space is all that stripping removes. */
  lemma {:induction false} StripPadded(pad: string, core: string)
    requires AllSpace(pad) && core != [] && !IsSpace(core[0]) && !IsSpace(core[|core| - 1])
    ensures Strip(pad + core) == core
  {
    TrimStartPadded(pad, core);
    assert TrimEnd(core) == core;
  }

  lemma {:induction false} TrimStartPadded(pad: string, core: string)
    requires AllSpace(pad) && core != [] && !IsSpace(core[0])
    ensures TrimStart(pad + core) == core
    decreases |pad|
  {
    if pad == [] {
      assert pad + core == core;
    } else {
      assert (pad + core)[0] == pad[0];
      assert (pad + core)[1..] == pad[1..] + core;
      TrimStartPadded(pad[1..], core);
    }
  }

  /** A string that lacks the first character of `sub` does not contain `sub`. */
  lemma {:induction false} LacksFirstChar(s: string, sub: string)
    requires sub != [] && forall i :: 0 <= i < |s| ==> s[i] != sub[0]
    ensures !Contains(s, sub)
  {
    forall i | 0 <= i <= |s| - |sub|
      ensures !OccursAt(s, sub, i)
    {
      assert s[i..i + |sub|][0] == s[i];
    }
  }

  /** A plain line is passed over. */
  lemma {:induction false} PlainLinePasses(line: string)
    requires Plain(line)
    ensures Passes(Classify(line))
  {
    var s := Strip(line);
    StripFirst(line);
    NoMarkLetterStrip(line);
    LacksFirstChar(s, MISSING_MARK);
    LacksFirstChar(s, OBSOLETE_MARK);
    assert TrimStart(s) == s;
    assert SkipDigits(s) == s;
  }

  /** A fixed text, a number and a fixed tail make a plain line when the text is plain and the tail has no mark letter. */
  lemma {:induction false} NumberLinePlain(text: string, n: nat, tail: string)
    requires Plain(text) && NoMarkLetter(tail)
    ensures Plain(text + CheckTranslations.Decimal(n) + tail)
  {
    var d := CheckTranslations.Decimal(n);
    var line := text + d + tail;
    assert line[0] == text[0];
    forall i | 0 <= i < |line|
      ensures line[i] != 'M' && line[i] != 'P'
    {
      if i < |text| {
        assert line[i] == text[i];
      } else if i < |text| + |d| {
        assert line[i] == d[i - |text|];
      } else {
        assert line[i] == tail[i - |text| - |d|];
      }
    }
  }

  // The fixed texts of the report, one fact each.

  lemma {:induction false} ReportNamePlain()
    ensures Plain(CheckTranslations.REPORT_NAME)
  {
  }

  lemma {:induction false} SourceCountTextPlain()
    ensures Plain(CheckTranslations.SOURCE_COUNT_TEXT)
  {
  }

  lemma {:induction false} TranslatedCountTextPlain()
    ensures Plain(CheckTranslations.TRANSLATED_COUNT_TEXT)
  {
  }

  lemma {:induction false} TotalTextPlain()
    ensures Plain(CheckTranslations.TOTAL_TEXT)
  {
  }

  lemma {:induction false} TotalTailsHaveNoMarkLetter()
    ensures NoMarkLetter(CheckTranslations.MISSING_TOTAL_TAIL)
    ensures NoMarkLetter(CheckTranslations.OBSOLETE_TOTAL_TAIL)
  {
  }

  lemma {:induction false} AllPresentPlain()
    ensures Plain(CheckTranslations.ALL_PRESENT)
  {
    var a, b, c := "\U{2705} All strings from source code", " have corresponding entries", " in translation file.";
    assert NoMarkLetter(a) && NoMarkLetter(b) && NoMarkLetter(c);
    NoMarkLetterConcat(a, b);
    NoMarkLetterConcat(a + b, c);
  }

  lemma {:induction false} NoMarkLetterConcat(a: string, b: string)
    requires NoMarkLetter(a) && NoMarkLetter(b)
    ensures NoMarkLetter(a + b)
  {
    assert forall i :: |a| <= i < |a + b| ==> (a + b)[i] == b[i - |a|];
  }

  lemma {:induction false} EmptyLinePasses()
    ensures Passes(Classify(""))
  {
    assert Strip("") == [];
  }

  /** A rule of `=` or `-` characters is passed over. */
  lemma {:induction false} RulePasses(c: char, n: nat)
    requires n > 0 && (c == '=' || c == '-')
    ensures Passes(Classify(CheckTranslations.Repeat(c, n)))
  {
    PlainLinePasses(CheckTranslations.Repeat(c, n));
  }

  /** A count line of the title is passed over. */
  lemma {:induction false} CountLinePasses(text: string, n: nat)
    requires Plain(text)
    ensures Passes(Classify(text + CheckTranslations.Decimal(n)))
  {
    NumberLinePlain(text, n, "");
    assert text + CheckTranslations.Decimal(n) + "" == text + CheckTranslations.Decimal(n);
    PlainLinePasses(text + CheckTranslations.Decimal(n));
  }

  /** A total line at the end of a section is passed over. */
  lemma {:induction false} TotalLinePasses(n: nat, tail: string)
    requires NoMarkLetter(tail)
    ensures Passes(Classify(CheckTranslations.TOTAL_TEXT + CheckTranslations.Decimal(n) + tail))
  {
    TotalTextPlain();
    NumberLinePlain(CheckTranslations.TOTAL_TEXT, n, tail);
    PlainLinePasses(CheckTranslations.TOTAL_TEXT + CheckTranslations.Decimal(n) + tail);
  }

  /** The missing heading opens the missing section. */
  lemma {:induction false} MissingHeadingRead()
    ensures Classify(CheckTranslations.MISSING_HEADING) == MissingHeading
  {
    var h := CheckTranslations.MISSING_HEADING;
    var rest := " (exist in source" + " but not in translation file):";
    assert h == MISSING_MARK + rest;
    assert h[0] == 'M' && h[|h| - 1] == ':';
    StripPadded([], h);
    assert [] + h == h;
    assert h[..|MISSING_MARK|] == MISSING_MARK;
    assert OccursAt(h, MISSING_MARK, 0);
  }

  /** The obsolete heading opens the obsolete section. */
  lemma {:induction false} ObsoleteHeadingRead()
    ensures Classify(CheckTranslations.OBSOLETE_HEADING) == ObsoleteHeading
  {
    var h := CheckTranslations.OBSOLETE_HEADING;
    var rest1, rest2 := " (exist in translation file", " but not in source):";
    assert h == OBSOLETE_MARK + rest1 + rest2;
    assert h[0] == 'P' && h[|h| - 1] == ':';
    assert forall i :: 0 <= i < |h| ==> h[i] != 'M';
    StripPadded([], h);
    assert [] + h == h;
    LacksFirstChar(h, MISSING_MARK);
    assert h[..|OBSOLETE_MARK|] == OBSOLETE_MARK;
    assert OccursAt(h, OBSOLETE_MARK, 0);
  }

  /** Lines that each pass leave the parse where it was. */
  lemma {:induction false} LinesPass(st: ParseState, lines: seq<string>)
    requires forall i :: 0 <= i < |lines| ==> Passes(Classify(lines[i]))
    ensures Read(st, ClassifyAll(lines)) == st
  {
    ReadPasses(st, ClassifyAll(lines));
  }

  /** The six lines at the top of a report change nothing. */
  lemma {:induction false} TitlePasses(st: ParseState, sourceCount: nat, translatedCount: nat)
    ensures Read(st, ClassifyAll(CheckTranslations.ReportTitle(sourceCount, translatedCount))) == st
  {
    var t := CheckTranslations.ReportTitle(sourceCount, translatedCount);
    ReportNamePlain();
    PlainLinePasses(t[0]);
    RulePasses('=', 50);
    EmptyLinePasses();
    SourceCountTextPlain();
    CountLinePasses(CheckTranslations.SOURCE_COUNT_TEXT, sourceCount);
    TranslatedCountTextPlain();
    CountLinePasses(CheckTranslations.TRANSLATED_COUNT_TEXT, translatedCount);
    SixLinesPass(st, t[0], t[1], t[2], t[3], t[4], t[5]);
    assert t == [t[0], t[1], t[2], t[3], t[4], t[5]];
  }

  lemma {:induction false} SixLinesPass(st: ParseState, a: string, b: string, c: string, d: string, e: string, f: string)
    requires Passes(Classify(a)) && Passes(Classify(b)) && Passes(Classify(c))
    requires Passes(Classify(d)) && Passes(Classify(e)) && Passes(Classify(f))
    ensures Read(st, ClassifyAll([a, b, c, d, e, f])) == st
  {
    LinesPass(st, [a, b, c, d, e, f]);
  }

  // Numbered lines

  /**
    A key the report can carry and the parse read back: not empty, on one
    line, and mentioning neither section mark.
   */
  predicate Reportable(key: string)
  {
    key != [] && '\n' !in key && !Contains(key, MISSING_MARK) && !Contains(key, OBSOLETE_MARK)
  }

  /** Leading digits are skipped up to the first character that is not one. */
  lemma {:induction false} SkipDigitsPrefix(digits: string, rest: string)
    requires forall i :: 0 <= i < |digits| ==> IsDigit(digits[i])
    requires rest != [] && !IsDigit(rest[0])
    ensures SkipDigits(digits + rest) == rest
    decreases |digits|
  {
    if digits == [] {
      assert digits + rest == rest;
    } else {
      assert (digits + rest)[0] == digits[0];
      assert (digits + rest)[1..] == digits[1..] + rest;
      SkipDigitsPrefix(digits[1..], rest);
    }
  }

  lemma {:induction false} MarksHaveNoQuote()
    ensures forall j :: 0 <= j < |MISSING_MARK| ==> MISSING_MARK[j] != '"'
    ensures forall j :: 0 <= j < |OBSOLETE_MARK| ==> OBSOLETE_MARK[j] != '"'
  {
  }

  /**
    A mark missing from the key, whose first letter the prefix lacks and
    which holds no quote, is missing from the prefix, the key and a closing
    quote together.
   */
  lemma {:induction false} FramedLacks(pre: string, key: string, mark: string)
    requires mark != [] && !Contains(key, mark)
    requires forall i :: 0 <= i < |pre| ==> pre[i] != mark[0]
    requires forall j :: 0 <= j < |mark| ==> mark[j] != '"'
    ensures !Contains(pre + key + "\"", mark)
  {
    var s := pre + key + "\"";
    forall i | 0 <= i <= |s| - |mark|
      ensures !OccursAt(s, mark, i)
    {
      if i < |pre| {
        assert s[i..i + |mark|][0] == s[i] == pre[i];
      } else if i + |mark| <= |pre| + |key| {
        var k := i - |pre|;
        assert s[i..i + |mark|] == key[k..k + |mark|];
        assert !OccursAt(key, mark, k);
      } else {
        assert s[i..i + |mark|][|mark| - 1] == s[|s| - 1] == '"';
      }
    }
  }

  /** How the pattern reads the text of a numbered line: the digits, a dot, a space, and the key in quotes. */
  lemma {:induction false} MatchNumbered(d: string, key: string)
    requires d != [] && forall i :: 0 <= i < |d| ==> IsDigit(d[i])
    requires key != [] && '\n' !in key
    ensures MatchItem(d + ". \"" + key + "\"") == Some(key)
  {
    var b := ". \"" + key + "\"";
    var core := d + b;
    assert d + ". \"" + key + "\"" == core;
    assert !IsSpace(core[0]) by { assert core[0] == d[0]; }
    assert TrimStart(core) == core;
    SkipDigitsPrefix(d, b);
    assert b[1..] == " \"" + key + "\"";
    assert TrimStart(b[1..]) == b[1..][1..];
    assert b[1..][1..][1..] == key + "\"";
    CaptureQuoted(key);
  }

  /** Neither mark occurs in a numbered line whose key mentions neither. */
  lemma {:induction false} NumberedLacksMarks(d: string, key: string)
    requires forall i :: 0 <= i < |d| ==> IsDigit(d[i])
    requires Reportable(key)
    ensures !Contains(d + ". \"" + key + "\"", MISSING_MARK)
    ensures !Contains(d + ". \"" + key + "\"", OBSOLETE_MARK)
  {
    MarksHaveNoQuote();
    var pre := d + ". \"";
    assert forall i :: 0 <= i < |pre| ==> pre[i] != 'M' && pre[i] != 'P' by {
      forall i | 0 <= i < |pre|
        ensures pre[i] != 'M' && pre[i] != 'P'
      {
        if i < |d| {
          assert pre[i] == d[i];
        }
      }
    }
    FramedLacks(pre, key, MISSING_MARK);
    FramedLacks(pre, key, OBSOLETE_MARK);
  }

  /** A line whose stripped text holds neither mark, starts with a digit and matches the pattern is that key. */
  lemma {:induction false} ClassifyMatched(line: string, key: string)
    requires Strip(line) != [] && IsDigit(Strip(line)[0])
    requires !Contains(Strip(line), MISSING_MARK) && !Contains(Strip(line), OBSOLETE_MARK)
    requires MatchItem(Strip(line)) == Some(key)
    ensures Classify(line) == Item(key)
  {
  }

  /** The numbered line check_translations.py writes for a reportable key reads back as that key. */
  lemma {:induction false} ItemRead(n: nat, key: string)
    requires Reportable(key)
    ensures Classify(CheckTranslations.ItemLine(n, key)) == Item(key)
  {
    var d := CheckTranslations.Decimal(n);
    var pad :| 0 <= pad <= 2 && CheckTranslations.Width3(n) == CheckTranslations.Repeat(' ', pad) + d;
    var spaces := CheckTranslations.Repeat(' ', pad);
    var core := d + ". \"" + key + "\"";
    assert CheckTranslations.ItemLine(n, key) == spaces + core;
    assert core[0] == d[0] && core[|core| - 1] == '"';
    StripPadded(spaces, core);
    NumberedLacksMarks(d, key);
    MatchNumbered(d, key);
    ClassifyMatched(CheckTranslations.ItemLine(n, key), key);
  }

  /** The numbered lines of reportable keys read back as those keys, in order. */
  lemma {:induction false} ItemLinesRead(keys: seq<string>, first: nat)
    requires forall i :: 0 <= i < |keys| ==> Reportable(keys[i])
    ensures ClassifyAll(CheckTranslations.ItemLines(keys, first)) == ItemKinds(keys)
  {
    var lines := CheckTranslations.ItemLines(keys, first);
    forall i | 0 <= i < |keys|
      ensures ClassifyAll(lines)[i] == ItemKinds(keys)[i]
    {
      ItemRead(first + i, keys[i]);
    }
  }

  // Report sections

  /** Reading three parts one after the other. */
  lemma {:induction false} ReadThree(st: ParseState, lines: seq<string>, a: seq<string>, b: seq<string>, c: seq<string>)
    requires lines == a + b + c
    ensures Read(st, ClassifyAll(lines)) == Read(Read(Read(st, ClassifyAll(a)), ClassifyAll(b)), ClassifyAll(c))
  {
    ClassifyAllAppend(a + b, c);
    ClassifyAllAppend(a, b);
    ReadAppend(st, ClassifyAll(a) + ClassifyAll(b), ClassifyAll(c));
    ReadAppend(st, ClassifyAll(a), ClassifyAll(b));
  }

  /** Reading two parts one after the other. */
  lemma {:induction false} ReadTwo(st: ParseState, lines: seq<string>, a: seq<string>, b: seq<string>)
    requires lines == a + b
    ensures Read(st, ClassifyAll(lines)) == Read(Read(st, ClassifyAll(a)), ClassifyAll(b))
  {
    ClassifyAllAppend(a, b);
    ReadAppend(st, ClassifyAll(a), ClassifyAll(b));
  }

  /** A heading followed by a line that passes does what the heading does. */
  lemma {:induction false} HeadRead(st: ParseState, heading: string, rule: string)
    requires Passes(Classify(rule))
    ensures Read(st, ClassifyAll([heading, rule])) == Step(st, Classify(heading))
  {
    var k := ClassifyAll([heading, rule]);
    assert k == [Classify(heading), Classify(rule)];
    var mid := Step(st, k[0]);
    assert Read(st, k) == Read(mid, k[1..]);
    assert Read(mid, k[1..]) == Read(Step(mid, k[1]), k[1..][1..]);
    assert k[1..][1..] == [];
  }

  /**
    A listed section of the report read from state `st`: the heading
    switches to its section and the keys join that section's list, in
    order; the rule, the blank line and the total change nothing.
   */
  lemma {:induction false} SectionRead(st: ParseState, heading: string, keys: seq<string>, total: string)
    requires Classify(heading) == MissingHeading || Classify(heading) == ObsoleteHeading
    requires forall i :: 0 <= i < |keys| ==> Reportable(keys[i])
    requires Passes(Classify(total))
    ensures Read(st, ClassifyAll(CheckTranslations.Section(heading, keys, total))) ==
              if Classify(heading) == MissingHeading then ParseState(MissingSection, st.missing + keys, st.obsolete)
              else ParseState(ObsoleteSection, st.missing, st.obsolete + keys)
  {
    RulePasses('-', 50);
    RuledSectionRead(st, CheckTranslations.Section(heading, keys, total), heading, CheckTranslations.Repeat('-', 50), keys, total);
  }

  /** `SectionRead` for any rule that passes. */
  lemma {:induction false} RuledSectionRead(st: ParseState, lines: seq<string>, heading: string, rule: string, keys: seq<string>, total: string)
    requires lines == [heading, rule] + CheckTranslations.ItemLines(keys, 1) + ["", total]
    requires Classify(heading) == MissingHeading || Classify(heading) == ObsoleteHeading
    requires Passes(Classify(rule))
    requires forall i :: 0 <= i < |keys| ==> Reportable(keys[i])
    requires Passes(Classify(total))
    ensures Read(st, ClassifyAll(lines)) ==
              if Classify(heading) == MissingHeading then ParseState(MissingSection, st.missing + keys, st.obsolete)
              else ParseState(ObsoleteSection, st.missing, st.obsolete + keys)
  {
    var top, items, trailer := [heading, rule], CheckTranslations.ItemLines(keys, 1), ["", total];
    EmptyLinePasses();
    ReadThree(st, lines, top, items, trailer);
    HeadRead(st, heading, rule);
    var mid := Step(st, Classify(heading));
    ItemLinesRead(keys, 1);
    ReadItems(mid, keys);
    LinesPass(Read(mid, ItemKinds(keys)), trailer);
  }

  /** A line that passes, read last, changes nothing. */
  lemma {:induction false} ThenPasses(st: ParseState, lines: seq<string>, last: string)
    requires Passes(Classify(last))
    ensures Read(st, ClassifyAll(lines + [last])) == Read(st, ClassifyAll(lines))
  {
    ReadTwo(st, lines + [last], lines, [last]);
    LinesPass(Read(st, ClassifyAll(lines)), [last]);
  }

  /** The missing part of a report: the missing keys join the missing list, or nothing changes when there are none. */
  lemma {:induction false} MissingPartRead(st: ParseState, missing: seq<string>)
    requires forall i :: 0 <= i < |missing| ==> Reportable(missing[i])
    ensures Read(st, ClassifyAll(CheckTranslations.MissingPart(missing))) ==
              if missing == [] then st else ParseState(MissingSection, st.missing + missing, st.obsolete)
  {
    EmptyLinePasses();
    if missing == [] {
      AllPresentPlain();
      PlainLinePasses(CheckTranslations.ALL_PRESENT);
      LinesPass(st, [CheckTranslations.ALL_PRESENT, ""]);
    } else {
      var total := CheckTranslations.TOTAL_TEXT + CheckTranslations.Decimal(|missing|) + CheckTranslations.MISSING_TOTAL_TAIL;
      MissingHeadingRead();
      TotalTailsHaveNoMarkLetter();
      TotalLinePasses(|missing|, CheckTranslations.MISSING_TOTAL_TAIL);
      SectionRead(st, CheckTranslations.MISSING_HEADING, missing, total);
      ThenPasses(st, CheckTranslations.Section(CheckTranslations.MISSING_HEADING, missing, total), "");
    }
  }

  /** The obsolete part of a report: the obsolete keys join the obsolete list; an empty part changes nothing. */
  lemma {:induction false} ObsoletePartRead(st: ParseState, obsolete: seq<string>)
    requires forall i :: 0 <= i < |obsolete| ==> Reportable(obsolete[i])
    ensures Read(st, ClassifyAll(CheckTranslations.ObsoletePart(obsolete))) ==
              if obsolete == [] then st else ParseState(ObsoleteSection, st.missing, st.obsolete + obsolete)
  {
    if obsolete != [] {
      var total := CheckTranslations.TOTAL_TEXT + CheckTranslations.Decimal(|obsolete|) + CheckTranslations.OBSOLETE_TOTAL_TAIL;
      ObsoleteHeadingRead();
      TotalTailsHaveNoMarkLetter();
      TotalLinePasses(|obsolete|, CheckTranslations.OBSOLETE_TOTAL_TAIL);
      SectionRead(st, CheckTranslations.OBSOLETE_HEADING, obsolete, total);
    }
  }

  /**
    The round trip between the two scripts: the report check_translations.py writes
    reads back as the missing and the obsolete keys it was written from,
    in order, whenever every key is reportable.
   */
  lemma {:induction false} ReportRoundTrip(missing: seq<string>, obsolete: seq<string>, sourceCount: nat, translatedCount: nat)
    requires forall i :: 0 <= i < |missing| ==> Reportable(missing[i])
    requires forall i :: 0 <= i < |obsolete| ==> Reportable(obsolete[i])
    ensures ParseComparisonResult(CheckTranslations.ComparisonReport(missing, obsolete, sourceCount, translatedCount)) == (missing, obsolete)
  {
    var mp := CheckTranslations.MissingPart(missing);
    TitlePasses(START, sourceCount, translatedCount);
    MissingPartRead(START, missing);
    ObsoletePartRead(Read(START, ClassifyAll(mp)), obsolete);
    PartsRead(CheckTranslations.ComparisonReport(missing, obsolete, sourceCount, translatedCount),
              CheckTranslations.ReportTitle(sourceCount, translatedCount), mp, CheckTranslations.ObsoletePart(obsolete), missing, obsolete);
  }

  /** The round trip assembled from what each part of the report does. */
  lemma {:induction false} PartsRead(lines: seq<string>, title: seq<string>, mp: seq<string>, op: seq<string>, missing: seq<string>, obsolete: seq<string>)
    requires lines == title + mp + op
    requires Read(START, ClassifyAll(title)) == START
    requires Read(START, ClassifyAll(mp)) ==
               if missing == [] then START else ParseState(MissingSection, START.missing + missing, START.obsolete)
    requires var st := Read(START, ClassifyAll(mp));
             Read(st, ClassifyAll(op)) ==
               if obsolete == [] then st else ParseState(ObsoleteSection, st.missing, st.obsolete + obsolete)
    ensures ParseComparisonResult(lines) == (missing, obsolete)
  {
    ReadThree(START, lines, title, mp, op);
    assert START.missing + missing == missing;
    assert Read(START, ClassifyAll(mp)).obsolete + obsolete == obsolete;
  }
}

=== FILE: seqs.dfy ===
/**
  Sequence operations shared by the list-shaped components: the first-match
  search behind `std::find` and the vote-option walk, and removal of the first
  match or of one position.
 */
module Seqs {
  import opened Common

  /** The position of the first element equal to `x`, if there is one. */
  function FirstIndex<T(==)>(s: seq<T>, x: T): (r: Option<nat>)
    ensures r.None? <==> x !in s
    ensures r.Some? ==> r.value < |s| && s[r.value] == x && x !in s[..r.value]
  {
    if |s| == 0 then None
    else if s[0] == x then Some(0)
    else
      match FirstIndex(s[1..], x)
      case None => None
      case Some(i) =>
        assert s[1..][..i] == s[1..i + 1];
        assert s[..i + 1] == [s[0]] + s[1..i + 1];
        Some(i + 1)
  }

  /** `s` without the element at `i`; out-of-range positions leave `s` alone. */
  function RemoveAt<T>(s: seq<T>, i: int): (r: seq<T>)
    ensures (i < 0 || i >= |s|) ==> r == s
    ensures 0 <= i < |s| ==> |r| == |s| - 1
    ensures 0 <= i < |s| ==> multiset(r) + multiset{s[i]} == multiset(s)
  {
    if i < 0 || i >= |s| then s
    else
      assert s == s[..i] + [s[i]] + s[i + 1..];
      s[..i] + s[i + 1..]
  }

  /** Keeping order, every element after removal sits where it was or one place earlier. */
  lemma RemoveAtShifts<T>(s: seq<T>, i: int)
    requires 0 <= i < |s|
    ensures forall j :: 0 <= j < i ==> RemoveAt(s, i)[j] == s[j]
    ensures forall j :: i <= j < |s| - 1 ==> RemoveAt(s, i)[j] == s[j + 1]
  {
  }

  /** `s` without its first element equal to `x`; unchanged when there is none. */
  function RemoveFirst<T(==)>(s: seq<T>, x: T): (r: seq<T>)
    ensures x !in s ==> r == s
    ensures x in s ==> r == RemoveAt(s, FirstIndex(s, x).value)
  {
    if |s| == 0 then s
    else if s[0] == x then s[1..]
    else
      var rest := RemoveFirst(s[1..], x);
      FirstIndexBehindHead(s, x);
      if x in s then RemoveBehindHead(s, FirstIndex(s[1..], x).value); [s[0]] + rest
      else [s[0]] + rest
  }

  /** Removing the first match keeps only elements of `s`, never more often than `s` has them. */
  lemma RemoveFirstShrinks<T>(s: seq<T>, x: T)
    ensures x in s ==> |RemoveFirst(s, x)| == |s| - 1 && multiset(RemoveFirst(s, x)) + multiset{x} == multiset(s)
    ensures multiset(RemoveFirst(s, x)) <= multiset(s)
    ensures |RemoveFirst(s, x)| <= |s|
    ensures forall y :: y in RemoveFirst(s, x) ==> y in s
  {
    var r := RemoveFirst(s, x);
    assert forall y :: y in r ==> y in multiset(r);
  }

  /** Past an unequal head, the first match is the tail's, shifted by one. */
  lemma {:induction false} FirstIndexBehindHead<T>(s: seq<T>, x: T)
    requires |s| > 0 && s[0] != x
    ensures x in s ==> x in s[1..] && FirstIndex(s, x).value == FirstIndex(s[1..], x).value + 1
  {
    if x in s {
      assert s == [s[0]] + s[1..];
    }
  }

  /** Removing past the head removes from the tail, shifted by one. */
  lemma {:induction false} RemoveBehindHead<T>(s: seq<T>, i: nat)
    requires i + 1 < |s|
    ensures RemoveAt(s, i + 1) == [s[0]] + RemoveAt(s[1..], i)
  {
    var t := s[1..];
    RemoveAtSplits(s, i + 1);
    RemoveAtSplits(t, i);
    assert s[..i + 1] == [s[0]] + t[..i];
    assert s[i + 2..] == t[i + 1..];
  }

  lemma RemoveAtSplits<T>(s: seq<T>, i: int)
    requires 0 <= i < |s|
    ensures RemoveAt(s, i) == s[..i] + s[i + 1..]
  {
  }

  /** No element occurs twice. */
  predicate Distinct<T(==)>(s: seq<T>)
  {
    forall i, j :: 0 <= i < j < |s| ==> s[i] != s[j]
  }

  lemma DistinctTail<T>(s: seq<T>)
    requires |s| > 0 && Distinct(s)
    ensures Distinct(s[1..]) && s[0] !in s[1..]
  {
    assert forall j :: 0 <= j < |s| - 1 ==> s[1..][j] == s[j + 1];
  }

  /** The elements of `s` that satisfy `keep`, in their original order. */
  function Filter<T(==,!new)>(s: seq<T>, keep: T -> bool): (r: seq<T>)
    ensures |r| <= |s|
    ensures forall x :: x in r <==> x in s && keep(x)
    ensures Distinct(s) ==> Distinct(r)
    ensures (forall x :: x in s ==> !keep(x)) ==> r == []
  {
    if |s| == 0 then []
    else
      var rest := Filter(s[1..], keep);
      assert Distinct(s) ==> Distinct([s[0]] + rest) by {
        if Distinct(s) { DistinctTail(s); }
      }
      if keep(s[0]) then [s[0]] + rest else rest
  }

  /** Filtering a concatenation filters each part and keeps them in order. */
  lemma {:induction false} FilterAppend<T(!new)>(a: seq<T>, b: seq<T>, keep: T -> bool)
    ensures Filter(a + b, keep) == Filter(a, keep) + Filter(b, keep)
    decreases |a|
  {
    if a == [] {
      assert a + b == b;
    } else {
      var x, rest := a[0], a[1..];
      assert a + b == [x] + (rest + b);
      FilterCons(x, rest + b, keep);
      FilterAppend(rest, b, keep);
      assert a == [x] + rest;
      FilterConsBefore(x, rest, keep, Filter(b, keep));
    }
  }

  lemma {:induction false} FilterCons<T(!new)>(x: T, s: seq<T>, keep: T -> bool)
    ensures Filter([x] + s, keep) == (if keep(x) then [x] else []) + Filter(s, keep)
  {
    assert ([x] + s)[0] == x && ([x] + s)[1..] == s;
  }

  /** Filtering `[x] + s` ahead of a suffix `t` is the kept head followed by the filtered `s` and then `t`. */
  lemma {:induction false} FilterConsBefore<T(!new)>(x: T, s: seq<T>, keep: T -> bool, t: seq<T>)
    ensures Filter([x] + s, keep) + t == (if keep(x) then [x] else []) + (Filter(s, keep) + t)
  {
    FilterCons(x, s, keep);
  }

  /** A single element is kept exactly when it satisfies `keep`. */
  lemma FilterOne<T(!new)>(x: T, keep: T -> bool)
    ensures Filter([x], keep) == if keep(x) then [x] else []
  {
    assert [x][1..] == [];
  }

  /** Every kept element occurs as often as in `s`; every other one not at all. */
  lemma {:induction false} FilterCounts<T(!new)>(s: seq<T>, keep: T -> bool, x: T)
    ensures multiset(Filter(s, keep))[x] == if keep(x) then multiset(s)[x] else 0
    decreases |s|
  {
    if s != [] {
      FilterCounts(s[1..], keep, x);
      assert s == [s[0]] + s[1..];
    }
  }
}

=== FILE: steam_id.dfy ===
/**
  `CSteamID` and `SteamNetworkingIdentity`: the 64-bit Steam account id with
  its packed bit-fields, and the tagged identity union used to address peers.

  A `CSteamID` is kept as its raw 64-bit value; the four bit-fields are read
  and written with the layout the compiler gives the declaration order on a
  little-endian target: account id in bits 0..31, instance in bits 32..51,
  account type in bits 52..55 and universe in bits 56..63.
 */
module SteamId {
  import opened Common

  const UNIVERSE_INVALID := 0
  const UNIVERSE_MAX := 5
  const ACCOUNT_TYPE_INVALID := 0
  const ACCOUNT_TYPE_INDIVIDUAL := 1
  const ACCOUNT_TYPE_GAME_SERVER := 3
  const ACCOUNT_TYPE_CLAN := 7
  const ACCOUNT_TYPE_CHAT := 8
  const ACCOUNT_TYPE_MAX := 11
  const USER_DEFAULT_INSTANCE := 1
  const ACCOUNT_INSTANCE_MASK := 0x000F_FFFF
  /** `k_EChatInstanceFlagLobby`, the instance bit that marks a lobby. */
  const CHAT_INSTANCE_FLAG_LOBBY := (ACCOUNT_INSTANCE_MASK + 1) / 4

  const TWO_32 := 0x1_0000_0000
  const TWO_52 := 0x10_0000_0000_0000
  const TWO_56 := 0x100_0000_0000_0000

  datatype SteamId = SteamId(bits: u64)

  function AccountId(id: SteamId): u32 { id.bits % TWO_32 }
  function Instance(id: SteamId): int { (id.bits / TWO_32) % 0x10_0000 }
  function AccountType(id: SteamId): int { (id.bits / TWO_52) % 0x10 }
  function Universe(id: SteamId): int { id.bits / TWO_56 }

  /** The id whose four bit-fields hold the given values. */
  function FromFields(account: u32, instance: int, accountType: int, universe: int): (id: SteamId)
    requires 0 <= instance < 0x10_0000 && 0 <= accountType < 0x10 && 0 <= universe < 0x100
    ensures AccountId(id) == account && Instance(id) == instance
    ensures AccountType(id) == accountType && Universe(id) == universe
  {
    var low := account + instance * TWO_32;
    var q := instance + accountType * 0x10_0000 + universe * 0x100_0000;
    DivModAt(account, q, TWO_32);
    DivModAt(instance, accountType + universe * 0x10, 0x10_0000);
    DivModAt(low, accountType + universe * 0x10, TWO_52);
    DivModAt(accountType, universe, 0x10);
    DivModAt(low + accountType * TWO_52, universe, TWO_56);
    SteamId(account + instance * TWO_32 + accountType * TWO_52 + universe * TWO_56)
  }

  /** Division by one of the field boundaries undoes packing a value below it with a multiple of it. */
  lemma DivModAt(a: int, q: int, d: int)
    requires 0 <= a < d && (d == 0x10 || d == 0x10_0000 || d == TWO_32 || d == TWO_52 || d == TWO_56)
    ensures (a + q * d) / d == q && (a + q * d) % d == a
  {
  }

  /** The four fields determine the id: reassembling them gives the same 64-bit value. */
  lemma FieldsDetermineId(id: SteamId)
    ensures FromFields(AccountId(id), Instance(id), AccountType(id), Universe(id)) == id
  {
    var b := id.bits;
    assert b == b % TWO_32 + (b / TWO_32) * TWO_32;
    var hi := b / TWO_32;
    assert hi == hi % 0x10_0000 + (hi / 0x10_0000) * 0x10_0000;
    var top := hi / 0x10_0000;
    assert top == b / TWO_52;
    assert top == top % 0x10 + (top / 0x10) * 0x10;
    assert top / 0x10 == b / TWO_56;
  }

  /** The default constructor: every field zero. */
  function DefaultId(): (id: SteamId)
    ensures id.bits == 0
  {
    FromFields(0, 0, ACCOUNT_TYPE_INVALID, UNIVERSE_INVALID)
  }

  /** `Clear` assigns the same four zero fields as the default constructor, whatever the id held. */
  function Clear(id: SteamId): (r: SteamId)
    ensures r == DefaultId()
  {
    FromFields(0, 0, ACCOUNT_TYPE_INVALID, UNIVERSE_INVALID)
  }

  function SetFromUint64(raw: u64): SteamId { SteamId(raw) }
  function ConvertToUint64(id: SteamId): u64 { id.bits }

  lemma Uint64RoundTrip(raw: u64, id: SteamId)
    ensures ConvertToUint64(SetFromUint64(raw)) == raw
    ensures SetFromUint64(ConvertToUint64(id)) == id
  {
  }

  function SetAccountId(id: SteamId, account: u32): (r: SteamId)
    ensures AccountId(r) == account && Instance(r) == Instance(id)
    ensures AccountType(r) == AccountType(id) && Universe(r) == Universe(id)
  {
    FromFields(account, Instance(id), AccountType(id), Universe(id))
  }

  /** Assigning the 20-bit instance field keeps only the low 20 bits of the argument. */
  function SetAccountInstance(id: SteamId, instance: u32): (r: SteamId)
    ensures Instance(r) == instance % 0x10_0000
    ensures AccountId(r) == AccountId(id) && AccountType(r) == AccountType(id) && Universe(r) == Universe(id)
  {
    FromFields(AccountId(id), instance % 0x10_0000, AccountType(id), Universe(id))
  }

  /** Assigning the 8-bit universe field keeps only the low 8 bits of the argument. */
  function SetUniverse(id: SteamId, universe: u32): (r: SteamId)
    ensures Universe(r) == universe % 0x100
    ensures AccountId(r) == AccountId(id) && Instance(r) == Instance(id) && AccountType(r) == AccountType(id)
  {
    FromFields(AccountId(id), Instance(id), AccountType(id), universe % 0x100)
  }

  /** `CSteamID::IsValid`. */
  predicate IsValid(id: SteamId)
  {
    var t := AccountType(id);
    var u := Universe(id);
    && ACCOUNT_TYPE_INVALID < t < ACCOUNT_TYPE_MAX
    && UNIVERSE_INVALID < u < UNIVERSE_MAX
    && (t == ACCOUNT_TYPE_INDIVIDUAL ==> AccountId(id) != 0 && Instance(id) == USER_DEFAULT_INSTANCE)
    && (t == ACCOUNT_TYPE_CLAN ==> AccountId(id) != 0 && Instance(id) == 0)
    && (t == ACCOUNT_TYPE_GAME_SERVER ==> AccountId(id) != 0)
  }

  /** The raw value 0, which is what the default constructor and `Clear` produce, is not a valid id. */
  lemma ZeroIsInvalid(id: SteamId)
    requires id.bits == 0
    ensures !IsValid(id)
  {
  }

  /** A valid id never has raw value 0: zero is usable as "no id". */
  lemma ValidIsNonZero(id: SteamId)
    ensures IsValid(id) ==> id.bits != 0
  {
    if id.bits == 0 {
      ZeroIsInvalid(id);
    }
  }

  /** The ids of individual users in a real universe are exactly the valid individual ids. */
  lemma IndividualValidity(account: u32, instance: int, universe: int)
    requires 0 <= instance < 0x10_0000 && 0 <= universe < 0x100
    ensures IsValid(FromFields(account, instance, ACCOUNT_TYPE_INDIVIDUAL, universe))
        <==> account != 0 && instance == USER_DEFAULT_INSTANCE && UNIVERSE_INVALID < universe < UNIVERSE_MAX
  {
  }

  /** Clan ids need an account and instance 0, game-server ids only an account; both need a real universe. */
  lemma ClanAndServerValidity(account: u32, instance: int, universe: int)
    requires 0 <= instance < 0x10_0000 && 0 <= universe < 0x100
    ensures IsValid(FromFields(account, instance, ACCOUNT_TYPE_CLAN, universe))
        <==> account != 0 && instance == 0 && UNIVERSE_INVALID < universe < UNIVERSE_MAX
    ensures IsValid(FromFields(account, instance, ACCOUNT_TYPE_GAME_SERVER, universe))
        <==> account != 0 && UNIVERSE_INVALID < universe < UNIVERSE_MAX
  {
  }

  /** `CSteamID::IsLobby`: a chat id with the lobby bit of the instance set. */
  predicate IsLobby(id: SteamId)
  {
    AccountType(id) == ACCOUNT_TYPE_CHAT && (Instance(id) / CHAT_INSTANCE_FLAG_LOBBY) % 2 == 1
  }

  /** A lobby id is valid exactly when its universe is a real one: chat ids have no other rule. */
  lemma LobbyValidity(id: SteamId)
    requires IsLobby(id)
    ensures IsValid(id) <==> UNIVERSE_INVALID < Universe(id) < UNIVERSE_MAX
  {
  }

  /** Lobby ids as the lobby service mints them (chat type, lobby bit set) are lobbies. */
  lemma MintedLobbyIsLobby(account: u32, universe: int)
    requires 0 <= universe < 0x100
    ensures IsLobby(FromFields(account, CHAT_INSTANCE_FLAG_LOBBY, ACCOUNT_TYPE_CHAT, universe))
  {
  }

  /** `GetStaticAccountKey`: universe, type and account id, with the instance left out. */
  function StaticAccountKey(id: SteamId): (key: u64)
    ensures key == FromFields(AccountId(id), 0, AccountType(id), Universe(id)).bits
    ensures key == id.bits - Instance(id) * TWO_32
  {
    FieldsDetermineId(id);
    Universe(id) * TWO_56 + AccountType(id) * TWO_52 + AccountId(id)
  }

  /** Two ids differing only in their instance share a static account key. */
  lemma StaticKeyIgnoresInstance(id: SteamId, instance: u32)
    ensures StaticAccountKey(SetAccountInstance(id, instance)) == StaticAccountKey(id)
  {
  }

  predicate Equal(a: SteamId, b: SteamId) { a.bits == b.bits }
  predicate Less(a: SteamId, b: SteamId) { a.bits < b.bits }
  predicate Greater(a: SteamId, b: SteamId) { a.bits > b.bits }

  /** The comparison operators are those of the full 64-bit value: a strict total order with `==` as equality. */
  lemma ComparisonsAreTotalOrder(a: SteamId, b: SteamId, c: SteamId)
    ensures Equal(a, b) <==> a == b
    ensures Greater(a, b) <==> Less(b, a)
    ensures !Less(a, a)
    ensures Less(a, b) && Less(b, c) ==> Less(a, c)
    ensures a == b || Less(a, b) || Less(b, a)
  {
  }

  // SteamNetworkingIdentity

  const IDENTITY_INVALID := 0
  const IDENTITY_IP_ADDRESS := 1
  const IDENTITY_GENERIC_STRING := 2
  const IDENTITY_GENERIC_BYTES := 3
  const IDENTITY_STEAM_ID := 16
  /** Size of the payload union (`m_reserved[32]` of `uint32_t`). */
  const PAYLOAD_SIZE := 128
  const MAX_GENERIC_STRING := 32
  const MAX_GENERIC_BYTES := 32
  const STEAM_ID_SIZE := 8

  /** The type tag, the payload size field and the raw bytes of the payload union. */
  datatype Identity = Identity(kind: int, size: int, payload: seq<u8>)

  predicate WellFormed(id: Identity)
  {
    |id.payload| == PAYLOAD_SIZE && 0 <= id.size <= PAYLOAD_SIZE
  }

  /** A value-initialised identity, also what `Clear` produces: all bytes zero. */
  function EmptyIdentity(): (id: Identity)
    ensures WellFormed(id) && id.kind == IDENTITY_INVALID
  {
    Identity(IDENTITY_INVALID, 0, Zeros(PAYLOAD_SIZE))
  }

  function SetSteamId64(id: Identity, raw: u64): (r: Identity)
    requires WellFormed(id)
    ensures WellFormed(r)
    ensures r.kind == IDENTITY_STEAM_ID && r.size == STEAM_ID_SIZE
  {
    Identity(IDENTITY_STEAM_ID, STEAM_ID_SIZE, LittleEndian(raw, STEAM_ID_SIZE) + id.payload[STEAM_ID_SIZE..])
  }

  function GetSteamId64(id: Identity): (raw: u64)
    requires WellFormed(id)
    ensures id.kind != IDENTITY_STEAM_ID ==> raw == 0
  {
    if id.kind == IDENTITY_STEAM_ID then
      var v := FromLittleEndian(id.payload[..STEAM_ID_SIZE]);
      assert Pow256(STEAM_ID_SIZE) == 0x1_0000_0000_0000_0000;
      v
    else 0
  }

  /** Reading back the id stored by `SetSteamID64` gives that id. */
  lemma {:induction false} SteamId64RoundTrip(id: Identity, raw: u64)
    requires WellFormed(id)
    ensures GetSteamId64(SetSteamId64(id, raw)) == raw
  {
    var r := SetSteamId64(id, raw);
    assert r.payload[..STEAM_ID_SIZE] == LittleEndian(raw, STEAM_ID_SIZE);
    assert Pow256(STEAM_ID_SIZE) == 0x1_0000_0000_0000_0000;
    LittleEndianRoundTrip(raw, STEAM_ID_SIZE);
  }

  function SetSteamId(id: Identity, sid: SteamId): (r: Identity)
    requires WellFormed(id)
    ensures WellFormed(r) && GetSteamId(r) == sid
  {
    SteamId64RoundTrip(id, sid.bits);
    SetSteamId64(id, sid.bits)
  }

  /** `GetSteamID`: the stored id, or the invalid id 0 for any other kind of identity. */
  function GetSteamId(id: Identity): (sid: SteamId)
    requires WellFormed(id)
    ensures id.kind != IDENTITY_STEAM_ID ==> !IsValid(sid)
  {
    var s := SteamId(GetSteamId64(id));
    assert id.kind != IDENTITY_STEAM_ID ==> !IsValid(s) by {
      if id.kind != IDENTITY_STEAM_ID { ZeroIsInvalid(s); }
    }
    s
  }

  /** `operator==`: same kind, same size, and the same first `size` payload bytes. */
  predicate IdentityEqual(a: Identity, b: Identity)
    requires WellFormed(a) && WellFormed(b)
  {
    a.kind == b.kind && a.size == b.size && a.payload[..a.size] == b.payload[..a.size]
  }

  lemma IdentityEqualIsEquivalence(a: Identity, b: Identity, c: Identity)
    requires WellFormed(a) && WellFormed(b) && WellFormed(c)
    ensures IdentityEqual(a, a)
    ensures IdentityEqual(a, b) ==> IdentityEqual(b, a)
    ensures IdentityEqual(a, b) && IdentityEqual(b, c) ==> IdentityEqual(a, c)
  {
  }

  /** Two peers addressed by 64-bit id compare equal exactly when the ids are equal, whatever bytes were left over. */
  lemma {:induction false} SteamIdentityEqualIff(a: Identity, b: Identity, x: u64, y: u64)
    requires WellFormed(a) && WellFormed(b)
    ensures IdentityEqual(SetSteamId64(a, x), SetSteamId64(b, y)) <==> x == y
  {
    var ra := SetSteamId64(a, x);
    var rb := SetSteamId64(b, y);
    assert ra.payload[..STEAM_ID_SIZE] == LittleEndian(x, STEAM_ID_SIZE);
    assert rb.payload[..STEAM_ID_SIZE] == LittleEndian(y, STEAM_ID_SIZE);
    SteamId64RoundTrip(a, x);
    SteamId64RoundTrip(b, y);
  }

  /** `SetGenericString`: a C string of `len` bytes needs `len + 1` bytes with its terminator. */
  function SetGenericString(id: Identity, s: seq<u8>): (r: (bool, Identity))
    requires WellFormed(id) && 0 !in s
    ensures WellFormed(r.1)
    ensures r.0 <==> |s| < MAX_GENERIC_STRING
    ensures !r.0 ==> r.1 == id
    ensures r.0 ==> r.1.kind == IDENTITY_GENERIC_STRING && r.1.size == |s| + 1
  {
    if |s| >= MAX_GENERIC_STRING then (false, id)
    else (true, Identity(IDENTITY_GENERIC_STRING, |s| + 1, s + [0] + id.payload[|s| + 1..]))
  }

  /** The bytes of a C string held in `buf`: everything before the first zero byte. */
  function CString(buf: seq<u8>): (s: seq<u8>)
    ensures 0 !in s && |s| <= |buf| && s == buf[..|s|]
    ensures |s| < |buf| ==> buf[|s|] == 0
  {
    if |buf| == 0 || buf[0] == 0 then [] else [buf[0]] + CString(buf[1..])
  }

  /** `GetGenericString`: the string buffer for a generic-string identity, nothing otherwise. */
  function GetGenericString(id: Identity): (r: Option<seq<u8>>)
    requires WellFormed(id)
    ensures r.Some? <==> id.kind == IDENTITY_GENERIC_STRING
  {
    if id.kind == IDENTITY_GENERIC_STRING then Some(CString(id.payload[..MAX_GENERIC_STRING])) else None
  }

  lemma {:induction false} CStringOfTerminated(s: seq<u8>, rest: seq<u8>)
    requires 0 !in s
    ensures CString(s + [0] + rest) == s
  {
    if |s| > 0 {
      assert (s + [0] + rest)[1..] == s[1..] + [0] + rest;
      CStringOfTerminated(s[1..], rest);
    }
  }

  /** A string that fits is read back unchanged. */
  lemma GenericStringRoundTrip(id: Identity, s: seq<u8>)
    requires WellFormed(id) && 0 !in s && |s| < MAX_GENERIC_STRING
    ensures GetGenericString(SetGenericString(id, s).1) == Some(s)
  {
    var r := SetGenericString(id, s).1;
    var rest := id.payload[|s| + 1..MAX_GENERIC_STRING];
    assert r.payload[..MAX_GENERIC_STRING] == s + [0] + rest;
    CStringOfTerminated(s, rest);
  }

  /** `SetGenericBytes`: fails, changing nothing, on more than 32 bytes. */
  function SetGenericBytes(id: Identity, data: seq<u8>): (r: (bool, Identity))
    requires WellFormed(id)
    ensures WellFormed(r.1)
    ensures r.0 <==> |data| <= MAX_GENERIC_BYTES
    ensures !r.0 ==> r.1 == id
    ensures r.0 ==> r.1.kind == IDENTITY_GENERIC_BYTES && r.1.size == |data|
  {
    if |data| > MAX_GENERIC_BYTES then (false, id)
    else (true, Identity(IDENTITY_GENERIC_BYTES, |data|, data + id.payload[|data|..]))
  }

  /** `GetGenericBytes`: the first `size` payload bytes of a generic-bytes identity, nothing otherwise. */
  function GetGenericBytes(id: Identity): (r: Option<seq<u8>>)
    requires WellFormed(id)
    ensures r.Some? <==> id.kind == IDENTITY_GENERIC_BYTES
    ensures r.Some? ==> |r.value| == id.size
  {
    if id.kind != IDENTITY_GENERIC_BYTES then None else Some(id.payload[..id.size])
  }

  lemma GenericBytesRoundTrip(id: Identity, data: seq<u8>)
    requires WellFormed(id) && |data| <= MAX_GENERIC_BYTES
    ensures GetGenericBytes(SetGenericBytes(id, data).1) == Some(data)
  {
    var r := SetGenericBytes(id, data).1;
    assert r.payload[..|data|] == data;
  }
}

=== FILE: text.dfy ===
/**
  Character-level helpers: Python's `str.strip`, `startswith` and `in`, and
  the ASCII case folding of the C library's `tolower` used by
  `str_comp_nocase`; and the quoting of console arguments.
 */
module Text {
  import opened Common

  /** Python's `str.isspace` for a single character. */
  predicate IsSpace(c: char)
  {
    var n := c as int;
    (9 <= n <= 13) || (28 <= n <= 32) || n == 0x85 || n == 0xA0 || n == 0x1680
    || (0x2000 <= n <= 0x200A) || n == 0x2028 || n == 0x2029 || n == 0x202F
    || n == 0x205F || n == 0x3000
  }

  predicate AllSpace(s: string)
  {
    forall i :: 0 <= i < |s| ==> IsSpace(s[i])
  }

  /** `s` without its leading white space. */
  function TrimStart(s: string): (r: string)
    ensures |r| <= |s|
  {
    if |s| > 0 && IsSpace(s[0]) then TrimStart(s[1..]) else s
  }

  /** What `TrimStart` removes is white space, and what it keeps starts with something else. */
  lemma {:induction false} TrimStartSpec(s: string)
    ensures TrimStart(s) == s[|s| - |TrimStart(s)|..]
    ensures AllSpace(s[..|s| - |TrimStart(s)|])
    ensures TrimStart(s) == [] || !IsSpace(TrimStart(s)[0])
  {
    if |s| > 0 && IsSpace(s[0]) {
      TrimStartSpec(s[1..]);
      var r := TrimStart(s[1..]);
      assert s[1..][..|s| - 1 - |r|] == s[1..|s| - |r|];
    }
  }

  /** `s` without its trailing white space. */
  function TrimEnd(s: string): (r: string)
    ensures |r| <= |s|
  {
    if |s| > 0 && IsSpace(s[|s| - 1]) then TrimEnd(s[..|s| - 1]) else s
  }

  /** What `TrimEnd` removes is white space, and what it keeps ends with something else. */
  lemma {:induction false} TrimEndSpec(s: string)
    ensures TrimEnd(s) == s[..|TrimEnd(s)|]
    ensures AllSpace(s[|TrimEnd(s)|..])
    ensures TrimEnd(s) == [] || !IsSpace(TrimEnd(s)[|TrimEnd(s)| - 1])
  {
    if |s| > 0 && IsSpace(s[|s| - 1]) {
      var t := s[..|s| - 1];
      TrimEndSpec(t);
      var r := TrimEnd(t);
      assert TrimEnd(s) == r;
      assert t[..|r|] == s[..|r|];
      assert forall k :: |r| <= k < |s| - 1 ==> s[k] == t[|r|..][k - |r|];
      assert forall k :: |r| <= k < |s| ==> IsSpace(s[k]);
      assert forall k :: 0 <= k < |s| - |r| ==> s[|r|..][k] == s[|r| + k];
    }
  }

  /** The number of white-space characters `s` starts with. */
  function Leading(s: string): nat
  {
    |s| - |TrimStart(s)|
  }

  /** Python's `str.strip()` with no argument. */
  function Strip(s: string): (r: string)
    ensures |r| <= |s|
  {
    TrimEnd(TrimStart(s))
  }

  /**
    What `Strip` keeps: the part of `s` between its leading and its trailing
    white space, which neither starts nor ends with white space.
   */
  lemma StripSpec(s: string)
    ensures Strip(s) == [] || (!IsSpace(Strip(s)[0]) && !IsSpace(Strip(s)[|Strip(s)| - 1]))
    ensures Leading(s) + |Strip(s)| <= |s| && Strip(s) == s[Leading(s)..Leading(s) + |Strip(s)|]
    ensures AllSpace(s[..Leading(s)]) && AllSpace(s[Leading(s) + |Strip(s)|..])
    ensures Leading(s) == |s| || !IsSpace(s[Leading(s)])
  {
    var t := TrimStart(s);
    TrimStartSpec(s);
    TrimEndSpec(t);
    var r := TrimEnd(t);
    var n := Leading(s);
    assert t == s[n..];
    assert s[n + |r|..] == t[|r|..];
  }

  /** Whitespace at either end is all that `Strip` removes: a stripped string is its own strip. */
  lemma StripIdempotent(s: string)
    ensures Strip(Strip(s)) == Strip(s)
  {
    var r := Strip(s);
    StripSpec(s);
    if r != [] {
      assert TrimStart(r) == r;
      assert TrimEnd(r) == r;
    }
  }

  predicate StartsWith(s: string, prefix: string)
  {
    |prefix| <= |s| && s[..|prefix|] == prefix
  }

  /** `sub` occurs in `s` starting at position `i`. */
  predicate OccursAt(s: string, sub: string, i: int)
  {
    0 <= i <= |s| - |sub| && s[i..i + |sub|] == sub
  }

  /** Python's `sub in s`. */
  predicate Contains(s: string, sub: string)
  {
    exists i :: 0 <= i <= |s| - |sub| && OccursAt(s, sub, i)
  }

  /** The C library's `tolower` in the "C" locale. */
  function LowerChar(c: char): (r: char)
  {
    if 'A' <= c <= 'Z' then (c as int + 32) as char else c
  }

  function Lower(s: string): (r: string)
    ensures |r| == |s|
    ensures forall i :: 0 <= i < |s| ==> r[i] == LowerChar(s[i])
  {
    if |s| == 0 then [] else [LowerChar(s[0])] + Lower(s[1..])
  }

  /** `str_comp_nocase(a, b) == 0`. */
  predicate EqualsNoCase(a: string, b: string)
  {
    Lower(a) == Lower(b)
  }

  /** Two non-empty strings agree ignoring case exactly when their heads and their tails do. */
  lemma EqualsNoCaseCons(a: string, b: string)
    requires a != [] && b != []
    ensures EqualsNoCase(a, b) <==> LowerChar(a[0]) == LowerChar(b[0]) && EqualsNoCase(a[1..], b[1..])
  {
    assert Lower(a) == [LowerChar(a[0])] + Lower(a[1..]);
    assert Lower(b) == [LowerChar(b[0])] + Lower(b[1..]);
    if Lower(a) == Lower(b) {
      assert Lower(a)[1..] == Lower(a[1..]);
    }
  }

  /** Case-insensitive equality is an equivalence relation. */
  lemma EqualsNoCaseIsEquivalence(a: string, b: string, c: string)
    ensures EqualsNoCase(a, a)
    ensures EqualsNoCase(a, b) ==> EqualsNoCase(b, a)
    ensures EqualsNoCase(a, b) && EqualsNoCase(b, c) ==> EqualsNoCase(a, c)
  {
  }

  /**
    `str_escape` without its output bound: a backslash goes before every `"`
    and every backslash.
   */
  function Escape(s: string): (r: string)
    ensures |r| >= |s|
    ensures '"' in s || '\\' in s ==> |r| > |s|
  {
    if s == [] then []
    else (if s[0] == '"' || s[0] == '\\' then ['\\', s[0]] else [s[0]]) + Escape(s[1..])
  }

  /**
    The console's reading of a quoted argument, from just after the opening
    quote: a backslash before `"` or a backslash yields that character, any
    other character stands for itself, and the first bare `"` ends the
    argument. The result is the argument and what follows the closing quote;
    a missing closing quote is an error.
   */
  function ReadQuoted(s: string): (r: Option<(string, string)>)
    ensures r.Some? ==> |r.value.1| < |s|
  {
    if s == [] then None
    else if s[0] == '"' then Some(([], s[1..]))
    else if s[0] == '\\' && |s| >= 2 && (s[1] == '"' || s[1] == '\\') then
      match ReadQuoted(s[2..])
      case None => None
      case Some((arg, rest)) => Some(([s[1]] + arg, rest))
    else
      match ReadQuoted(s[1..])
      case None => None
      case Some((arg, rest)) => Some(([s[0]] + arg, rest))
  }

  /** An escaped string between quotes reads back as exactly that string, leaving what follows the quote. */
  lemma {:induction false} EscapeReadsBack(s: string, rest: string)
    ensures ReadQuoted(Escape(s) + "\"" + rest) == Some((s, rest))
  {
    if s == [] {
      assert Escape(s) + "\"" + rest == "\"" + rest;
    } else {
      var tail := Escape(s[1..]) + "\"" + rest;
      EscapeReadsBack(s[1..], rest);
      assert ReadQuoted(tail) == Some((s[1..], rest));
      assert s == [s[0]] + s[1..];
      if s[0] == '"' || s[0] == '\\' {
        var input := ['\\', s[0]] + tail;
        assert Escape(s) + "\"" + rest == input;
        assert input[0] == '\\' && input[1] == s[0] && input[2..] == tail;
      } else {
        var input := [s[0]] + tail;
        assert Escape(s) + "\"" + rest == input;
        assert input[0] == s[0] && input[1..] == tail;
      }
    }
  }

  /** After any head, two escaped and quoted strings separated by a space read back as the two strings. */
  lemma QuotedPairReadsBack(head: string, x: string, y: string)
    ensures var tail := " \"" + Escape(y) + "\"";
            var line := head + Escape(x) + "\" \"" + Escape(y) + "\"";
            && line[|head|..] == Escape(x) + "\"" + tail
            && ReadQuoted(line[|head|..]) == Some((x, tail))
            && ReadQuoted(tail[2..]) == Some((y, []))
            && StartsWith(line, head)
            && ReadQuoted(Escape(y) + "\"") == Some((y, []))
  {
    PairLayout(head, Escape(x), Escape(y));
    EscapeReadsBack(x, " \"" + Escape(y) + "\"");
    EscapeReadsBack(y, []);
  }

  lemma PairLayout(head: string, ex: string, ey: string)
    ensures var line := head + ex + "\" \"" + ey + "\"";
            var tail := " \"" + ey + "\"";
            line[|head|..] == ex + "\"" + tail && tail[2..] == ey + "\"" + [] && line[..|head|] == head && ey + "\"" + [] == ey + "\""
  {
    var line := head + ex + "\" \"" + ey + "\"";
    var tail := " \"" + ey + "\"";
    assert line == head + (ex + "\"" + tail);
  }
}

=== FILE: translation_file.dfy ===
/**
  The translation file side of the updater. `parse_translation_file`
  splits a file into its header and its entries and collects the keys;
  `update_translation_file` moves the obsolete entries below the obsolete
  marker and appends an empty entry for every new missing key. A file is
  the list of lines Python's `readlines` returns: every line keeps its
  final line break, and only the last one may lack it. `Join` is the text
  `writelines` writes back.
 */
module TranslationUpdate {
  import opened Text
  import opened Seqs
  import CheckTranslations

  const TRANSLATED_MARKER := "##### translated strings #####"
  const OBSOLETE_MARKER := "##### obsolete strings #####"

  // Text of a list of lines

  function Join(chunks: seq<string>): string
    decreases |chunks|
  {
    if chunks == [] then [] else chunks[0] + Join(chunks[1..])
  }

  lemma {:induction false} JoinAppend(a: seq<string>, b: seq<string>)
    ensures Join(a + b) == Join(a) + Join(b)
    decreases |a|
  {
    if a == [] {
      assert a + b == b;
    } else {
      assert (a + b)[0] == a[0] && (a + b)[1..] == a[1..] + b;
      JoinAppend(a[1..], b);
    }
  }

  /**
    The text written so far ends a line: it is empty or its last character
    is a line break. Python's `endswith("\n")` is false for an empty line;
    the two differ only there, and `readlines` never yields an empty line.
   */
  predicate EndsLine(text: string)
  {
    text == [] || text[|text| - 1] == '\n'
  }

  /** Text whose last piece is a line break ends a line. */
  lemma {:induction false} EndsWithBreak(chunks: seq<string>)
    requires chunks != [] && chunks[|chunks| - 1] == "\n"
    ensures EndsLine(Join(chunks))
  {
    var n := |chunks| - 1;
    assert chunks == chunks[..n] + [chunks[n]];
    JoinAppend(chunks[..n], [chunks[n]]);
    assert Join([chunks[n]]) == "\n" + Join([]);
  }

  // parse_translation_file

  /**
    Where the header ends: just past the first translated-strings marker
    at or after `i`, or at the end of the file when there is none.
   */
  function HeaderEnd(lines: seq<string>, i: nat): (n: nat)
    requires i <= |lines|
    ensures i <= n <= |lines|
    decreases |lines| - i
  {
    if i == |lines| then |lines|
    else if Strip(lines[i]) == TRANSLATED_MARKER then i + 1
    else HeaderEnd(lines, i + 1)
  }

  /** The header ends just past the first marker; with no marker the whole file is header. */
  lemma {:induction false} HeaderEndSpec(lines: seq<string>, i: nat)
    requires i <= |lines|
    ensures forall j :: i <= j < HeaderEnd(lines, i) - 1 ==> Strip(lines[j]) != TRANSLATED_MARKER
    ensures HeaderEnd(lines, i) < |lines| ==> Strip(lines[HeaderEnd(lines, i) - 1]) == TRANSLATED_MARKER
    decreases |lines| - i
  {
    if i < |lines| && Strip(lines[i]) != TRANSLATED_MARKER {
      HeaderEndSpec(lines, i + 1);
    }
  }

  /** A file with no marker from `i` on is header to its end. */
  lemma {:induction false} HeaderEndUnmarked(lines: seq<string>, i: nat)
    requires i <= |lines|
    requires forall j :: i <= j < |lines| ==> Strip(lines[j]) != TRANSLATED_MARKER
    ensures HeaderEnd(lines, i) == |lines|
    decreases |lines| - i
  {
    if i < |lines| {
      HeaderEndUnmarked(lines, i + 1);
    }
  }

  /** Line `i` is a key: not a comment, not blank, and followed by a line that starts with `==`. */
  predicate IsKeyAt(lines: seq<string>, i: nat)
  {
    && i + 1 < |lines|
    && Strip(lines[i]) != []
    && !StartsWith(Strip(lines[i]), "#")
    && StartsWith(Strip(lines[i + 1]), "==")
  }

  /** The stripped keys at or after line `i`. */
  function KeysFrom(lines: seq<string>, i: nat): (keys: set<string>)
    requires i <= |lines|
    ensures forall j :: i <= j < |lines| && IsKeyAt(lines, j) ==> Strip(lines[j]) in keys
    decreases |lines| - i
  {
    if i == |lines| then {}
    else (if IsKeyAt(lines, i) then {Strip(lines[i])} else {}) + KeysFrom(lines, i + 1)
  }

  /** Every collected key comes from a key line at or after `i`. */
  lemma {:induction false} KeysFromSound(lines: seq<string>, i: nat, k: string)
    requires i <= |lines| && k in KeysFrom(lines, i)
    ensures exists j :: i <= j < |lines| && IsKeyAt(lines, j) && Strip(lines[j]) == k
    decreases |lines| - i
  {
    if !(IsKeyAt(lines, i) && Strip(lines[i]) == k) {
      KeysFromSound(lines, i + 1, k);
    }
  }

  /** What `parse_translation_file` returns. */
  datatype TranslationFile = TranslationFile(header: seq<string>, content: seq<string>, keys: set<string>)

  /**
    `parse_translation_file`: the header runs up to and including the
    first translated-strings marker, the rest is content, and the keys are
    the stripped key lines of the content.
   */
  function ParseTranslationFile(lines: seq<string>): (f: TranslationFile)
    ensures f.header + f.content == lines
  {
    var n := HeaderEnd(lines, 0);
    assert lines[..n] + lines[n..] == lines;
    TranslationFile(lines[..n], lines[n..], KeysFrom(lines, n))
  }

  /** A string is a key of the file exactly when it is the stripped text of a key line below the header. */
  lemma {:induction false} ParsedKeys(lines: seq<string>, k: string)
    ensures k in ParseTranslationFile(lines).keys <==>
              exists j :: |ParseTranslationFile(lines).header| <= j < |lines| && IsKeyAt(lines, j) && Strip(lines[j]) == k
  {
    var n := HeaderEnd(lines, 0);
    if k in KeysFrom(lines, n) {
      KeysFromSound(lines, n, k);
    }
  }

  /**
    Every original check_translations.py finds below the header is a key to the
    updater. The converse fails for lines starting with `//`, which
    check_translations.py skips and the updater takes as keys.
   */
  lemma {:induction false} OriginalsAreKeys(lines: seq<string>, k: nat)
    requires HeaderEnd(lines, 0) <= k && CheckTranslations.IsOriginalAt(lines, k)
    ensures Strip(lines[k]) in ParseTranslationFile(lines).keys
  {
  }

  // update_translation_file

  /** The missing keys that are neither keys of the file nor obsolete, in report order. */
  function NewMissing(missing: seq<string>, keys: set<string>, obsolete: seq<string>): (r: seq<string>)
    ensures |r| <= |missing|
    ensures forall t :: t in r <==> t in missing && t !in keys && t !in obsolete
    ensures (forall t :: t in missing ==> t in keys || t in obsolete) ==> r == []
  {
    Filter(missing, IsNew(keys, obsolete))
  }

  /** The test `new_missing` applies: a key neither in the file nor obsolete. */
  function IsNew(keys: set<string>, obsolete: seq<string>): string -> bool
  {
    t => t !in keys && t !in obsolete
  }

  /**
    The new missing keys keep the report order: those of a concatenated
    report are those of its first part, then those of its second, and a
    single key is kept exactly when it is new.
   */
  lemma NewMissingInOrder(a: seq<string>, b: seq<string>, keys: set<string>, obsolete: seq<string>, t: string)
    ensures NewMissing(a + b, keys, obsolete) == NewMissing(a, keys, obsolete) + NewMissing(b, keys, obsolete)
    ensures NewMissing([t], keys, obsolete) == if t !in keys && t !in obsolete then [t] else []
  {
    FilterAppend(a, b, IsNew(keys, obsolete));
    FilterOne(t, IsNew(keys, obsolete));
  }

  /** A new key is kept as often as the report lists it, any other key not at all. */
  lemma NewMissingCounts(missing: seq<string>, keys: set<string>, obsolete: seq<string>, t: string)
    ensures multiset(NewMissing(missing, keys, obsolete))[t]
            == if t !in keys && t !in obsolete then multiset(missing)[t] else 0
  {
    FilterCounts(missing, IsNew(keys, obsolete), t);
  }

  /** The content split by the loop of `update_translation_file`. */
  datatype Split = Split(current: seq<string>, moved: seq<string>, existing: seq<string>, movedKeys: set<string>)

  /**
    The loop from line `i` on, `inObsolete` telling whether the obsolete
    marker has been passed: the marker lines are dropped; before the
    marker, an obsolete key followed by its translation moves, with the
    blank line after it when there is one; every other line stays where it
    was, in the current part before the marker and in the existing
    obsolete part after it.
   */
  function SplitFrom(c: seq<string>, i: nat, inObsolete: bool, obsolete: seq<string>): (r: Split)
    requires i <= |c|
    ensures forall k :: k in r.movedKeys ==> k in obsolete
    ensures obsolete == [] ==> r.moved == [] && r.movedKeys == {}
    ensures inObsolete ==> r.current == [] && r.moved == []
    decreases |c| - i
  {
    if i == |c| then Split([], [], [], {})
    else
      var s := Strip(c[i]);
      if s == OBSOLETE_MARKER then SplitFrom(c, i + 1, true, obsolete)
      else if inObsolete then
        var rest := SplitFrom(c, i + 1, true, obsolete);
        rest.(existing := [c[i]] + rest.existing)
      else if s in obsolete && i + 1 < |c| && StartsWith(Strip(c[i + 1]), "==") then
        var size := if i + 2 < |c| && Strip(c[i + 2]) == [] then 3 else 2;
        var rest := SplitFrom(c, i + size, false, obsolete);
        rest.(moved := c[i..i + size] + rest.moved, movedKeys := {s} + rest.movedKeys)
      else
        var rest := SplitFrom(c, i + 1, false, obsolete);
        rest.(current := [c[i]] + rest.current)
  }

  predicate NoMarkerLine(lines: seq<string>)
  {
    forall j :: 0 <= j < |lines| ==> Strip(lines[j]) != OBSOLETE_MARKER
  }

  lemma NoMarkerLineCons(x: string, lines: seq<string>)
    requires Strip(x) != OBSOLETE_MARKER && NoMarkerLine(lines)
    ensures NoMarkerLine([x] + lines)
  {
    assert forall j :: 1 <= j < |lines| + 1 ==> ([x] + lines)[j] == lines[j - 1];
  }

  /** No marker line stays among the current or the old obsolete lines. */
  lemma {:induction false} SplitDropsMarkers(c: seq<string>, i: nat, inObsolete: bool, obsolete: seq<string>)
    requires i <= |c|
    ensures NoMarkerLine(SplitFrom(c, i, inObsolete, obsolete).current)
    ensures NoMarkerLine(SplitFrom(c, i, inObsolete, obsolete).existing)
    decreases |c| - i
  {
    if i < |c| {
      var s := Strip(c[i]);
      if s == OBSOLETE_MARKER {
        SplitDropsMarkers(c, i + 1, true, obsolete);
      } else if inObsolete {
        SplitDropsMarkers(c, i + 1, true, obsolete);
        NoMarkerLineCons(c[i], SplitFrom(c, i + 1, true, obsolete).existing);
      } else if s in obsolete && i + 1 < |c| && StartsWith(Strip(c[i + 1]), "==") {
        var size := if i + 2 < |c| && Strip(c[i + 2]) == [] then 3 else 2;
        SplitDropsMarkers(c, i + size, false, obsolete);
      } else {
        SplitDropsMarkers(c, i + 1, false, obsolete);
        NoMarkerLineCons(c[i], SplitFrom(c, i + 1, false, obsolete).current);
      }
    }
  }

  /** `c` without its obsolete-marker lines. */
  function Unmarked(c: seq<string>): (r: seq<string>)
    ensures |r| <= |c|
    decreases |c|
  {
    if c == [] then []
    else (if Strip(c[0]) == OBSOLETE_MARKER then [] else [c[0]]) + Unmarked(c[1..])
  }

  lemma {:induction false} UnmarkedStep(c: seq<string>, i: nat)
    requires i < |c|
    ensures Unmarked(c[i..]) == (if Strip(c[i]) == OBSOLETE_MARKER then [] else [c[i]]) + Unmarked(c[i + 1..])
  {
    assert c[i..][0] == c[i] && c[i..][1..] == c[i + 1..];
  }

  lemma {:induction false} NotMarker(line: string)
    requires StartsWith(Strip(line), "==") || Strip(line) == []
    ensures Strip(line) != OBSOLETE_MARKER
  {
    if Strip(line) != [] {
      assert Strip(line)[0] == '=';
    }
  }

  /** A moved entry holds no marker line. */
  lemma {:induction false} EntryUnmarked(c: seq<string>, i: nat, size: nat)
    requires (size == 2 || size == 3) && i + size <= |c|
    requires Strip(c[i]) != OBSOLETE_MARKER && StartsWith(Strip(c[i + 1]), "==")
    requires size == 3 ==> Strip(c[i + 2]) == []
    ensures Unmarked(c[i..]) == c[i..i + size] + Unmarked(c[i + size..])
  {
    NotMarker(c[i + 1]);
    UnmarkedStep(c, i);
    UnmarkedStep(c, i + 1);
    var two := [c[i], c[i + 1]];
    assert Unmarked(c[i..]) == two + Unmarked(c[i + 2..]);
    if size == 3 {
      NotMarker(c[i + 2]);
      UnmarkedStep(c, i + 2);
      assert Unmarked(c[i..]) == two + [c[i + 2]] + Unmarked(c[i + 3..]);
      assert c[i..i + size] == two + [c[i + 2]];
    } else {
      assert c[i..i + size] == two;
    }
  }

  /** The lines the three parts of a split hold, together. */
  function Held(r: Split): multiset<string>
  {
    multiset(r.current) + multiset(r.moved) + multiset(r.existing)
  }

  /** The split loses no line but the markers: the three parts hold exactly the other lines. */
  lemma {:induction false} SplitConserves(c: seq<string>, i: nat, inObsolete: bool, obsolete: seq<string>)
    requires i <= |c|
    ensures Held(SplitFrom(c, i, inObsolete, obsolete)) == multiset(Unmarked(c[i..]))
    decreases |c| - i, 1
  {
    if i < |c| {
      if Strip(c[i]) == OBSOLETE_MARKER {
        MarkerLineConserved(c, i, inObsolete, obsolete);
      } else if inObsolete {
        ExistingLineConserved(c, i, obsolete);
      } else if !(Strip(c[i]) in obsolete && i + 1 < |c| && StartsWith(Strip(c[i + 1]), "==")) {
        CurrentLineConserved(c, i, obsolete);
      } else {
        MovedEntryConserved(c, i, obsolete);
      }
    }
  }

  /** One step of the split over a marker line, which it drops. */
  lemma {:induction false} MarkerLineConserved(c: seq<string>, i: nat, inObsolete: bool, obsolete: seq<string>)
    requires i < |c| && Strip(c[i]) == OBSOLETE_MARKER
    ensures Held(SplitFrom(c, i, inObsolete, obsolete)) == multiset(Unmarked(c[i..]))
    decreases |c| - i, 0
  {
    SplitConserves(c, i + 1, true, obsolete);
    UnmarkedStep(c, i);
    assert SplitFrom(c, i, inObsolete, obsolete) == SplitFrom(c, i + 1, true, obsolete);
    assert [] + Unmarked(c[i + 1..]) == Unmarked(c[i + 1..]);
  }

  /** One step of the split past the marker, which keeps line `i` as an old obsolete line. */
  lemma {:induction false} ExistingLineConserved(c: seq<string>, i: nat, obsolete: seq<string>)
    requires i < |c| && Strip(c[i]) != OBSOLETE_MARKER
    ensures Held(SplitFrom(c, i, true, obsolete)) == multiset(Unmarked(c[i..]))
    decreases |c| - i, 0
  {
    SplitConserves(c, i + 1, true, obsolete);
    UnmarkedStep(c, i);
    var rest := SplitFrom(c, i + 1, true, obsolete);
    assert SplitFrom(c, i, true, obsolete) == rest.(existing := [c[i]] + rest.existing);
    assert multiset([c[i]] + rest.existing) == multiset{c[i]} + multiset(rest.existing);
    assert multiset([c[i]] + Unmarked(c[i + 1..])) == multiset{c[i]} + multiset(Unmarked(c[i + 1..]));
  }

  /** One step of the split before the marker that keeps line `i` as a current one. */
  lemma {:induction false} CurrentLineConserved(c: seq<string>, i: nat, obsolete: seq<string>)
    requires i < |c| && Strip(c[i]) != OBSOLETE_MARKER
    requires !(Strip(c[i]) in obsolete && i + 1 < |c| && StartsWith(Strip(c[i + 1]), "=="))
    ensures Held(SplitFrom(c, i, false, obsolete)) == multiset(Unmarked(c[i..]))
    decreases |c| - i, 0
  {
    SplitConserves(c, i + 1, false, obsolete);
    UnmarkedStep(c, i);
    var rest := SplitFrom(c, i + 1, false, obsolete);
    assert SplitFrom(c, i, false, obsolete) == rest.(current := [c[i]] + rest.current);
    assert multiset([c[i]] + rest.current) == multiset{c[i]} + multiset(rest.current);
    assert multiset([c[i]] + Unmarked(c[i + 1..])) == multiset{c[i]} + multiset(Unmarked(c[i + 1..]));
  }

  /** One step of the split that moves the entry at `i`. */
  lemma {:induction false} MovedEntryConserved(c: seq<string>, i: nat, obsolete: seq<string>)
    requires i + 1 < |c| && Strip(c[i]) != OBSOLETE_MARKER && Strip(c[i]) in obsolete && StartsWith(Strip(c[i + 1]), "==")
    ensures Held(SplitFrom(c, i, false, obsolete)) == multiset(Unmarked(c[i..]))
    decreases |c| - i, 0
  {
    var size := if i + 2 < |c| && Strip(c[i + 2]) == [] then 3 else 2;
    SplitConserves(c, i + size, false, obsolete);
    EntryUnmarked(c, i, size);
    var rest := SplitFrom(c, i + size, false, obsolete);
    var r := SplitFrom(c, i, false, obsolete);
    assert r.current == rest.current && r.existing == rest.existing;
    assert r.moved == c[i..i + size] + rest.moved;
  }

  /** With no marker and no obsolete entry before it, every line stays current and in order. */
  lemma {:induction false} SplitUntouched(c: seq<string>, i: nat, obsolete: seq<string>)
    requires i <= |c|
    requires forall j :: i <= j < |c| ==> Strip(c[j]) != OBSOLETE_MARKER && Strip(c[j]) !in obsolete
    ensures SplitFrom(c, i, false, obsolete) == Split(c[i..], [], [], {})
    decreases |c| - i
  {
    if i < |c| {
      SplitUntouched(c, i + 1, obsolete);
      assert c[i..] == [c[i]] + c[i + 1..];
    }
  }

  /** The empty entry appended for a new missing key: the key, a translation line repeating it, a blank line. */
  function Entry(key: string): seq<string>
  {
    [key + "\n", "== " + key + "\n", "\n"]
  }

  /** The entries of the new missing keys, in order. */
  function MissingEntries(keys: seq<string>): (r: seq<string>)
    ensures |r| == 3 * |keys|
    decreases |keys|
  {
    if keys == [] then [] else Entry(keys[0]) + MissingEntries(keys[1..])
  }

  /** The entries before key `j`, its own entry, then the entries after it. */
  lemma {:induction false} MissingEntriesAt(keys: seq<string>, j: nat)
    requires j < |keys|
    ensures MissingEntries(keys) == MissingEntries(keys[..j]) + Entry(keys[j]) + MissingEntries(keys[j + 1..])
  {
    assert keys == keys[..j] + ([keys[j]] + keys[j + 1..]);
    MissingEntriesAppend(keys[..j], [keys[j]] + keys[j + 1..]);
    MissingEntriesAppend([keys[j]], keys[j + 1..]);
    assert MissingEntries([keys[j]]) == Entry(keys[j]) + MissingEntries([]);
  }

  /** The entries of two lists of keys are those of the first, then those of the second. */
  lemma {:induction false} MissingEntriesAppend(a: seq<string>, b: seq<string>)
    ensures MissingEntries(a + b) == MissingEntries(a) + MissingEntries(b)
    decreases |a|
  {
    if a == [] {
      assert a + b == b;
    } else {
      MissingEntriesAppend(a[1..], b);
      assert (a + b)[0] == a[0] && (a + b)[1..] == a[1..] + b;
      assert MissingEntries(a + b) == Entry(a[0]) + MissingEntries(a[1..] + b);
      assert MissingEntries(a) == Entry(a[0]) + MissingEntries(a[1..]);
    }
  }

  /** Entries of at least one key end with a blank line. */
  lemma {:induction false} MissingEntriesEnd(keys: seq<string>)
    requires keys != []
    ensures MissingEntries(keys)[|MissingEntries(keys)| - 1] == "\n"
    decreases |keys|
  {
    if |keys| > 1 {
      MissingEntriesEnd(keys[1..]);
    }
  }

  /** The block for the missing keys: a line break, then the entries; nothing when there are none. */
  function MissingBlock(newMissing: seq<string>): seq<string>
  {
    if newMissing != [] then ["\n"] + MissingEntries(newMissing) else []
  }

  /** The obsolete block: the marker, a blank line, the moved entries closed by a line break, then the old obsolete lines. */
  function ObsoleteBlock(moved: seq<string>, existing: seq<string>): seq<string>
  {
    if existing != [] || moved != [] then
      [OBSOLETE_MARKER + "\n", "\n"] + moved
      + (if moved != [] && !EndsLine(moved[|moved| - 1]) then ["\n"] else [])
      + existing
    else []
  }

  /** What `update_translation_file` needs from the file: its parse, the new missing keys and the split content. */
  datatype Plan = Plan(file: TranslationFile, newMissing: seq<string>, split: Split)

  function MakePlan(lines: seq<string>, missing: seq<string>, obsolete: seq<string>): (p: Plan)
    ensures p.file.header + p.file.content == lines
  {
    var f := ParseTranslationFile(lines);
    Plan(f, NewMissing(missing, f.keys, obsolete), SplitFrom(f.content, 0, false, obsolete))
  }

  /** The lines before the obsolete block: the header, the current entries and the missing block. */
  function Before(p: Plan): seq<string>
  {
    p.file.header + p.split.current + MissingBlock(p.newMissing)
  }

  /**
    `update_translation_file` as written: the obsolete block follows the
    missing block directly, whatever the last line before it ends with.
   */
  function UpdateTranslationFile(lines: seq<string>, missing: seq<string>, obsolete: seq<string>): (out: seq<string>)
  {
    var p := MakePlan(lines, missing, obsolete);
    Before(p) + ObsoleteBlock(p.split.moved, p.split.existing)
  }

  /** The update with the obsolete marker put on a line of its own. */
  function UpdateTranslationFileFixed(lines: seq<string>, missing: seq<string>, obsolete: seq<string>): (out: seq<string>)
  {
    var p := MakePlan(lines, missing, obsolete);
    var block := ObsoleteBlock(p.split.moved, p.split.existing);
    Before(p) + Separator(Before(p), block) + block
  }

  /** The line break the fix puts between text that does not end a line and a block that follows it. */
  function Separator(before: seq<string>, block: seq<string>): seq<string>
  {
    if block != [] && !EndsLine(Join(before)) then ["\n"] else []
  }

  // What the update keeps and adds

  /** Both forms of the update keep the header as it was. */
  lemma {:induction false} UpdateKeepsHeader(lines: seq<string>, missing: seq<string>, obsolete: seq<string>)
    ensures var h := ParseTranslationFile(lines).header;
            |h| <= |UpdateTranslationFile(lines, missing, obsolete)| && UpdateTranslationFile(lines, missing, obsolete)[..|h|] == h
    ensures var h := ParseTranslationFile(lines).header;
            |h| <= |UpdateTranslationFileFixed(lines, missing, obsolete)| && UpdateTranslationFileFixed(lines, missing, obsolete)[..|h|] == h
  {
    var p := MakePlan(lines, missing, obsolete);
    PlanFile(lines, missing, obsolete);
    BeforeStartsWithHeader(p);
    FixedAgreesBeforeBlock(lines, missing, obsolete);
    PrefixOfPrefix(UpdateTranslationFile(lines, missing, obsolete), Before(p), p.file.header);
    PrefixOfPrefix(UpdateTranslationFileFixed(lines, missing, obsolete), Before(p), p.file.header);
  }

  lemma {:induction false} PlanFile(lines: seq<string>, missing: seq<string>, obsolete: seq<string>)
    ensures MakePlan(lines, missing, obsolete).file == ParseTranslationFile(lines)
  {
  }

  /** The lines before the obsolete block start with the header. */
  lemma {:induction false} BeforeStartsWithHeader(p: Plan)
    ensures |p.file.header| <= |Before(p)| && Before(p)[..|p.file.header|] == p.file.header
  {
    HeadKept(Before(p), p.file.header, p.split.current + MissingBlock(p.newMissing));
  }

  lemma {:induction false} PrefixOfPrefix<T>(out: seq<T>, before: seq<T>, head: seq<T>)
    requires |before| <= |out| && out[..|before|] == before
    requires |head| <= |before| && before[..|head|] == head
    ensures |head| <= |out| && out[..|head|] == head
  {
    assert out[..|head|] == out[..|before|][..|head|];
  }

  lemma {:induction false} HeadKept<T>(out: seq<T>, head: seq<T>, rest: seq<T>)
    requires out == head + rest
    ensures |head| <= |out| && out[..|head|] == head
  {
  }

  /** Both forms of the update keep every line of the content but the obsolete markers. */
  lemma {:induction false} UpdateKeepsLines(lines: seq<string>, missing: seq<string>, obsolete: seq<string>)
    ensures multiset(Unmarked(ParseTranslationFile(lines).content)) <= multiset(UpdateTranslationFile(lines, missing, obsolete))
    ensures multiset(Unmarked(ParseTranslationFile(lines).content)) <= multiset(UpdateTranslationFileFixed(lines, missing, obsolete))
  {
    var p := MakePlan(lines, missing, obsolete);
    var c := ParseTranslationFile(lines).content;
    PlanFile(lines, missing, obsolete);
    PlanSplit(lines, missing, obsolete);
    SplitConserves(c, 0, false, obsolete);
    assert c[0..] == c;
    UpdateShape(lines, missing, obsolete);
    PlanHolds(p);
  }

  lemma {:induction false} PlanSplit(lines: seq<string>, missing: seq<string>, obsolete: seq<string>)
    ensures MakePlan(lines, missing, obsolete).split == SplitFrom(ParseTranslationFile(lines).content, 0, false, obsolete)
  {
  }

  /** Both forms of the update as the lines before the obsolete block, then the block. */
  lemma {:induction false} UpdateShape(lines: seq<string>, missing: seq<string>, obsolete: seq<string>)
    ensures var p := MakePlan(lines, missing, obsolete);
            var block := ObsoleteBlock(p.split.moved, p.split.existing);
            && UpdateTranslationFile(lines, missing, obsolete) == Before(p) + block
            && UpdateTranslationFileFixed(lines, missing, obsolete) == Before(p) + Separator(Before(p), block) + block
  {
  }

  /**
    Where the split content lands: the current lines right after the
    header, before the obsolete block; the obsolete marker starts the block
    and a blank line follows it; then the moved entries, ahead of the lines
    that were already below the marker, which close the file. Without
    moved or old obsolete lines there is no block at all.
   */
  lemma {:induction false} ObsoleteLinesFollowMarker(lines: seq<string>, missing: seq<string>, obsolete: seq<string>)
    ensures var p := MakePlan(lines, missing, obsolete);
            var out := UpdateTranslationFile(lines, missing, obsolete);
            var h := |p.file.header|;
            var at := |Before(p)|;
            && h + |p.split.current| <= at <= |out|
            && out[h..h + |p.split.current|] == p.split.current
            && BlockAt(out, at, p.split.moved, p.split.existing)
  {
    var p := MakePlan(lines, missing, obsolete);
    var block := ObsoleteBlock(p.split.moved, p.split.existing);
    var out := Before(p) + block;
    assert UpdateTranslationFile(lines, missing, obsolete) == out;
    BlockLayout(Before(p), p.split.moved, p.split.existing);
    CurrentAfterHeader(out, Before(p), p, block);
  }

  /** The same placement for the corrected rewrite, after its separator. */
  lemma {:induction false} ObsoleteLinesFollowMarkerFixed(lines: seq<string>, missing: seq<string>, obsolete: seq<string>)
    ensures var p := MakePlan(lines, missing, obsolete);
            var out := UpdateTranslationFileFixed(lines, missing, obsolete);
            var h := |p.file.header|;
            var at := |Before(p)| + |Separator(Before(p), ObsoleteBlock(p.split.moved, p.split.existing))|;
            && h + |p.split.current| <= at <= |out|
            && out[h..h + |p.split.current|] == p.split.current
            && BlockAt(out, at, p.split.moved, p.split.existing)
  {
    var p := MakePlan(lines, missing, obsolete);
    var block := ObsoleteBlock(p.split.moved, p.split.existing);
    var pre := Before(p) + Separator(Before(p), block);
    var out := pre + block;
    UpdateShape(lines, missing, obsolete);
    BlockLayout(pre, p.split.moved, p.split.existing);
    CurrentAfterHeader(out, pre, p, block);
  }

  /**
    `out` holds, from index `at` on, the obsolete block of `moved` and
    `existing`: nothing when both are empty; otherwise the marker, a blank
    line, `moved`, and at the very end `existing`.
   */
  predicate BlockAt(out: seq<string>, at: nat, moved: seq<string>, existing: seq<string>)
  {
    && at <= |out|
    && (moved == [] && existing == [] ==> at == |out|)
    && (moved != [] || existing != [] ==>
          && at + 2 + |moved| + |existing| <= |out|
          && out[at] == OBSOLETE_MARKER + "\n" && out[at + 1] == "\n"
          && out[at + 2..at + 2 + |moved|] == moved
          && out[|out| - |existing|..] == existing)
  }

  lemma {:induction false} BlockLayout(pre: seq<string>, moved: seq<string>, existing: seq<string>)
    ensures BlockAt(pre + ObsoleteBlock(moved, existing), |pre|, moved, existing)
  {
    if moved != [] || existing != [] {
      var tail := if moved != [] && !EndsLine(moved[|moved| - 1]) then ["\n"] else [];
      var head := [OBSOLETE_MARKER + "\n", "\n"];
      assert ObsoleteBlock(moved, existing) == head + moved + tail + existing;
      FiveParts(pre, head, moved, tail, existing);
    }
  }

  /** Where each part of a five-part concatenation sits. */
  lemma {:induction false} FiveParts<T>(a: seq<T>, b: seq<T>, c: seq<T>, d: seq<T>, e: seq<T>)
    ensures var out := a + (b + c + d + e);
            && |out| == |a| + |b| + |c| + |d| + |e|
            && out[|a|..|a| + |b|] == b
            && out[|a| + |b|..|a| + |b| + |c|] == c
            && out[|out| - |e|..] == e
  {
    var out := a + (b + c + d + e);
    assert out == (a + b) + c + d + e;
    assert out[|a|..|a| + |b|] == b;
    assert out[|a| + |b|..|a| + |b| + |c|] == c;
    assert out[|out| - |e|..] == e;
  }

  lemma {:induction false} CurrentAfterHeader(out: seq<string>, pre: seq<string>, p: Plan, block: seq<string>)
    requires out == pre + block && |Before(p)| <= |pre| && pre[..|Before(p)|] == Before(p)
    ensures |p.file.header| + |p.split.current| <= |pre|
    ensures out[|p.file.header|..|p.file.header| + |p.split.current|] == p.split.current
  {
    var h := |p.file.header|;
    var cur := p.split.current;
    assert Before(p) == p.file.header + cur + MissingBlock(p.newMissing);
    assert Before(p)[h..h + |cur|] == cur;
    assert out[h..h + |cur|] == pre[h..h + |cur|] == pre[..|Before(p)|][h..h + |cur|];
  }

  /** What either form writes for a plan holds every line of its split. */
  lemma {:induction false} PlanHolds(p: Plan)
    ensures var block := ObsoleteBlock(p.split.moved, p.split.existing);
            && Held(p.split) <= multiset(Before(p) + block)
            && Held(p.split) <= multiset(Before(p) + Separator(Before(p), block) + block)
  {
    var block := ObsoleteBlock(p.split.moved, p.split.existing);
    BlockHolds(p.split.moved, p.split.existing);
    PartsHold(Before(p) + block, p.file.header, p.split.current, MissingBlock(p.newMissing), [], block);
    PartsHold(Before(p) + Separator(Before(p), block) + block, p.file.header, p.split.current, MissingBlock(p.newMissing), Separator(Before(p), block), block);
  }

  /** The obsolete block holds the moved entries and the old obsolete lines. */
  lemma {:induction false} BlockHolds(moved: seq<string>, existing: seq<string>)
    ensures multiset(moved) + multiset(existing) <= multiset(ObsoleteBlock(moved, existing))
  {
    if existing != [] || moved != [] {
      var tail := if moved != [] && !EndsLine(moved[|moved| - 1]) then ["\n"] else [];
      assert ObsoleteBlock(moved, existing) == [OBSOLETE_MARKER + "\n", "\n"] + moved + tail + existing;
    }
  }

  lemma {:induction false} PartsHold(out: seq<string>, header: seq<string>, current: seq<string>, added: seq<string>, pad: seq<string>, block: seq<string>)
    requires out == header + current + added + pad + block
    ensures multiset(current) + multiset(block) <= multiset(out)
  {
  }

  /**
    Each new missing key gets its entry in order after the current
    entries: the key on a line of its own, then `== ` and the key as its
    translation.
   */
  lemma {:induction false} UpdateAddsMissing(lines: seq<string>, missing: seq<string>, obsolete: seq<string>, j: nat)
    requires var p := MakePlan(lines, missing, obsolete); j < |p.newMissing|
    ensures var p := MakePlan(lines, missing, obsolete);
            var out := UpdateTranslationFile(lines, missing, obsolete);
            var at := |p.file.header| + |p.split.current| + 1 + 3 * j;
            && at + 1 < |out|
            && out[at] == p.newMissing[j] + "\n"
            && out[at + 1] == "== " + p.newMissing[j] + "\n"
            && EndsLine(Join(out[..at]))
  {
    var p := MakePlan(lines, missing, obsolete);
    var pre := p.file.header + p.split.current;
    var block := ObsoleteBlock(p.split.moved, p.split.existing);
    var out := UpdateTranslationFile(lines, missing, obsolete);
    assert out == pre + MissingBlock(p.newMissing) + block;
    EntryAt(out, pre, p.newMissing, block, j);
    EntryStartsLine(out, pre, p.newMissing, block, j);
  }

  /** The fix changes nothing before the obsolete block. */
  lemma {:induction false} FixedAgreesBeforeBlock(lines: seq<string>, missing: seq<string>, obsolete: seq<string>)
    ensures var before := Before(MakePlan(lines, missing, obsolete));
            && |before| <= |UpdateTranslationFile(lines, missing, obsolete)|
            && |before| <= |UpdateTranslationFileFixed(lines, missing, obsolete)|
            && UpdateTranslationFile(lines, missing, obsolete)[..|before|] == before
            && UpdateTranslationFileFixed(lines, missing, obsolete)[..|before|] == before
  {
  }

  /** The entry of the `j`-th new key inside any text laid out as a prefix, the missing block and a rest. */
  lemma {:induction false} EntryAt(out: seq<string>, pre: seq<string>, keys: seq<string>, rest: seq<string>, j: nat)
    requires out == pre + MissingBlock(keys) + rest && j < |keys|
    ensures var at := |pre| + 1 + 3 * j;
            && at + 1 < |out|
            && out[at] == keys[j] + "\n"
            && out[at + 1] == "== " + keys[j] + "\n"
  {
    EntryShape(pre, keys, j, rest);
    Around(out, pre + ["\n"] + MissingEntries(keys[..j]), Entry(keys[j]), MissingEntries(keys[j + 1..]) + rest);
  }

  /** The entry of the `j`-th new key starts a line of the text written. */
  lemma {:induction false} EntryStartsLine(out: seq<string>, pre: seq<string>, keys: seq<string>, rest: seq<string>, j: nat)
    requires out == pre + MissingBlock(keys) + rest && j < |keys|
    ensures var at := |pre| + 1 + 3 * j;
            at <= |out| && EndsLine(Join(out[..at]))
  {
    var front := pre + ["\n"] + MissingEntries(keys[..j]);
    EntryShape(pre, keys, j, rest);
    Around(out, front, Entry(keys[j]), MissingEntries(keys[j + 1..]) + rest);
    FrontEndsLine(pre, keys, j);
    var at := |pre| + 1 + 3 * j;
    assert at == |front|;
    assert out[..at] == front;
  }

  lemma {:induction false} EntryShape(pre: seq<string>, keys: seq<string>, j: nat, rest: seq<string>)
    requires j < |keys|
    ensures pre + MissingBlock(keys) + rest ==
              (pre + ["\n"] + MissingEntries(keys[..j])) + Entry(keys[j]) + (MissingEntries(keys[j + 1..]) + rest)
    ensures |pre + ["\n"] + MissingEntries(keys[..j])| == |pre| + 1 + 3 * j
  {
    var before, e, after := MissingEntries(keys[..j]), Entry(keys[j]), MissingEntries(keys[j + 1..]);
    MissingEntriesAt(keys, j);
    assert MissingBlock(keys) == ["\n"] + (before + e + after);
    Regroup(pre, ["\n"], before, e, after, rest);
  }

  lemma {:induction false} FrontEndsLine(pre: seq<string>, keys: seq<string>, j: nat)
    requires j <= |keys|
    ensures EndsLine(Join(pre + ["\n"] + MissingEntries(keys[..j])))
  {
    var before := MissingEntries(keys[..j]);
    var front := pre + ["\n"] + before;
    if j > 0 {
      MissingEntriesEnd(keys[..j]);
      assert front[|front| - 1] == before[|before| - 1];
    } else {
      assert before == [];
    }
    EndsWithBreak(front);
  }

  lemma {:induction false} Regroup<T>(a: seq<T>, b: seq<T>, c: seq<T>, d: seq<T>, e: seq<T>, f: seq<T>)
    ensures a + (b + (c + d + e)) + f == (a + b + c) + d + (e + f)
  {
  }

  lemma {:induction false} Around(out: seq<string>, front: seq<string>, e: seq<string>, rest: seq<string>)
    requires out == front + e + rest && |e| >= 2
    ensures |front| + 1 < |out| && out[..|front|] == front && out[|front|] == e[0] && out[|front| + 1] == e[1]
  {
  }

  /** With the fix, the obsolete marker always starts a line of the text written. */
  lemma {:induction false} FixedMarkerStartsLine(lines: seq<string>, missing: seq<string>, obsolete: seq<string>)
    ensures var p := MakePlan(lines, missing, obsolete);
            var out := UpdateTranslationFileFixed(lines, missing, obsolete);
            var block := ObsoleteBlock(p.split.moved, p.split.existing);
            var at := |out| - |block|;
            block != [] ==> out[at] == OBSOLETE_MARKER + "\n" && EndsLine(Join(out[..at]))
  {
    var p := MakePlan(lines, missing, obsolete);
    var out := UpdateTranslationFileFixed(lines, missing, obsolete);
    var block := ObsoleteBlock(p.split.moved, p.split.existing);
    var before := Before(p);
    if block != [] {
      var at := |out| - |block|;
      if EndsLine(Join(before)) {
        assert out[..at] == before;
      } else {
        assert out[..at] == before + ["\n"];
        EndsWithBreak(before + ["\n"]);
      }
    }
  }

  /**
    A file with nothing to add and nothing to move comes back unchanged,
    in both forms: no obsolete marker, no content line that is an obsolete
    key, and every missing key already present or obsolete.
   */
  lemma {:induction false} UpdateUnchanged(lines: seq<string>, missing: seq<string>, obsolete: seq<string>)
    requires var f := ParseTranslationFile(lines);
             forall j :: 0 <= j < |f.content| ==> Strip(f.content[j]) != OBSOLETE_MARKER && Strip(f.content[j]) !in obsolete
    requires forall t :: t in missing ==> t in ParseTranslationFile(lines).keys || t in obsolete
    ensures UpdateTranslationFile(lines, missing, obsolete) == lines
    ensures UpdateTranslationFileFixed(lines, missing, obsolete) == lines
  {
    var p := MakePlan(lines, missing, obsolete);
    SplitUntouched(p.file.content, 0, obsolete);
    assert p.file.content[0..] == p.file.content;
  }

  /**
    As written, the obsolete marker can be glued to the last line: a file
    without a final line break, nothing new missing, and an entry to move.
    The marker then ends the translation of `b` instead of starting a line,
    and the next run finds no obsolete section.
   */
  lemma {:induction false} MarkerGlued(lines: seq<string>)
    requires lines == [TRANSLATED_MARKER + "\n", "a\n", "== A\n", "\n", "b\n", "== B"]
    ensures var out := UpdateTranslationFile(lines, [], ["a"]);
            && out == lines[..1] + lines[4..] + [OBSOLETE_MARKER + "\n", "\n"] + lines[1..4]
            && !EndsLine(Join(out[..3]))
  {
    var p := MakePlan(lines, [], ["a"]);
    GluedPlan(lines);
    var block := ObsoleteBlock(p.split.moved, p.split.existing);
    assert block == [OBSOLETE_MARKER + "\n", "\n"] + lines[1..4] by {
      assert EndsLine(p.split.moved[2]);
    }
    var out := UpdateTranslationFile(lines, [], ["a"]);
    assert Before(p) == lines[..1] + lines[4..];
    assert out == Before(p) + block;
    assert out[..3] == [lines[0], lines[4], lines[5]];
    GluedJoin(lines[0], lines[4], lines[5]);
  }

  /** The plan for the example above: all of the file below the marker is content, and the entry of `a` moves. */
  lemma {:induction false} GluedPlan(lines: seq<string>)
    requires lines == [TRANSLATED_MARKER + "\n", "a\n", "== A\n", "\n", "b\n", "== B"]
    ensures MakePlan(lines, [], ["a"]) ==
              Plan(TranslationFile(lines[..1], lines[1..], KeysFrom(lines, 1)), [],
                   Split(lines[4..], lines[1..4], [], {"a"}))
  {
    GluedHeader(lines);
    PlanParts(lines, [], ["a"]);
    GluedSplit(lines[1..]);
    assert lines[1..][3..] == lines[4..] && lines[1..][0..3] == lines[1..4];
  }

  /** The parts of a plan, named by where the header ends. */
  lemma {:induction false} PlanParts(lines: seq<string>, missing: seq<string>, obsolete: seq<string>)
    ensures var p := MakePlan(lines, missing, obsolete);
            var n := HeaderEnd(lines, 0);
            && p.file == TranslationFile(lines[..n], lines[n..], KeysFrom(lines, n))
            && p.newMissing == NewMissing(missing, KeysFrom(lines, n), obsolete)
            && p.split == SplitFrom(lines[n..], 0, false, obsolete)
  {
  }

  /** The example's header is its first line. */
  lemma {:induction false} GluedHeader(lines: seq<string>)
    requires lines == [TRANSLATED_MARKER + "\n", "a\n", "== A\n", "\n", "b\n", "== B"]
    ensures HeaderEnd(lines, 0) == 1
  {
    StripPlain(TRANSLATED_MARKER, "\n");
  }

  /** Three lines, the last without a line break, join to a text that does not end a line. */
  lemma {:induction false} GluedJoin(x: string, y: string, z: string)
    requires z != [] && z[|z| - 1] != '\n'
    ensures !EndsLine(Join([x, y, z]))
  {
    JoinAppend([x, y], [z]);
    assert Join([z]) == z by {
      JoinAppend([z], []);
    }
  }

  /** How the loop splits the content of the example above. */
  lemma {:induction false} GluedSplit(c: seq<string>)
    requires c == ["a\n", "== A\n", "\n", "b\n", "== B"]
    ensures SplitFrom(c, 0, false, ["a"]) == Split(c[3..], c[0..3], [], {"a"})
  {
    GluedStrips(c);
    SplitKeeps(c, 4, ["a"]);
    SplitKeeps(c, 3, ["a"]);
    SplitMovesEntry(c, 0, ["a"]);
    assert c[3..] == [c[3], c[4]];
  }

  /** The stripped lines of the example content. */
  lemma {:induction false} GluedStrips(c: seq<string>)
    requires c == ["a\n", "== A\n", "\n", "b\n", "== B"]
    ensures Strip(c[0]) == "a" && Strip(c[1]) == "== A" && Strip(c[2]) == []
    ensures Strip(c[3]) == "b" && Strip(c[4]) == "== B"
  {
    assert Strip(c[0]) == "a" by { StripPlain("a", "\n"); assert "a" + "\n" == c[0]; }
    assert Strip(c[1]) == "== A" by { StripPlain("== A", "\n"); assert "== A" + "\n" == c[1]; }
    assert Strip(c[3]) == "b" by { StripPlain("b", "\n"); assert "b" + "\n" == c[3]; }
    assert Strip(c[4]) == "== B" by { StripPlain("== B", ""); assert "== B" + "" == c[4]; }
    assert Strip(c[2]) == [] by { assert TrimStart(c[2]) == []; }
  }

  /** A line that is neither a marker nor an obsolete key stays current. */
  lemma {:induction false} SplitKeeps(c: seq<string>, i: nat, obsolete: seq<string>)
    requires i < |c| && Strip(c[i]) != OBSOLETE_MARKER && Strip(c[i]) !in obsolete
    ensures SplitFrom(c, i, false, obsolete).current == [c[i]] + SplitFrom(c, i + 1, false, obsolete).current
    ensures SplitFrom(c, i, false, obsolete).moved == SplitFrom(c, i + 1, false, obsolete).moved
    ensures SplitFrom(c, i, false, obsolete).existing == SplitFrom(c, i + 1, false, obsolete).existing
    ensures SplitFrom(c, i, false, obsolete).movedKeys == SplitFrom(c, i + 1, false, obsolete).movedKeys
  {
  }

  /** An obsolete key followed by its translation and a blank line moves as a three-line entry. */
  lemma {:induction false} SplitMovesEntry(c: seq<string>, i: nat, obsolete: seq<string>)
    requires i + 2 < |c| && Strip(c[i]) != OBSOLETE_MARKER && Strip(c[i]) in obsolete
    requires StartsWith(Strip(c[i + 1]), "==") && Strip(c[i + 2]) == []
    ensures SplitFrom(c, i, false, obsolete).current == SplitFrom(c, i + 3, false, obsolete).current
    ensures SplitFrom(c, i, false, obsolete).moved == c[i..i + 3] + SplitFrom(c, i + 3, false, obsolete).moved
    ensures SplitFrom(c, i, false, obsolete).existing == SplitFrom(c, i + 3, false, obsolete).existing
    ensures SplitFrom(c, i, false, obsolete).movedKeys == {Strip(c[i])} + SplitFrom(c, i + 3, false, obsolete).movedKeys
  {
  }

  /**
    An obsolete key followed by its translation and no blank line moves as
    a two-line entry.
   */
  lemma {:induction false} SplitMovesShortEntry(c: seq<string>, i: nat, obsolete: seq<string>)
    requires i + 1 < |c| && Strip(c[i]) != OBSOLETE_MARKER && Strip(c[i]) in obsolete
    requires StartsWith(Strip(c[i + 1]), "==") && !(i + 2 < |c| && Strip(c[i + 2]) == [])
    ensures SplitFrom(c, i, false, obsolete).current == SplitFrom(c, i + 2, false, obsolete).current
    ensures SplitFrom(c, i, false, obsolete).moved == c[i..i + 2] + SplitFrom(c, i + 2, false, obsolete).moved
    ensures SplitFrom(c, i, false, obsolete).existing == SplitFrom(c, i + 2, false, obsolete).existing
    ensures SplitFrom(c, i, false, obsolete).movedKeys == {Strip(c[i])} + SplitFrom(c, i + 2, false, obsolete).movedKeys
  {
  }

  /** A text with no white space at either end, followed by white space, strips to that text. */
  lemma {:induction false} StripPlain(text: string, trailing: string)
    requires text != [] && !IsSpace(text[0]) && !IsSpace(text[|text| - 1]) && AllSpace(trailing)
    ensures Strip(text + trailing) == text
  {
    var s := text + trailing;
    assert TrimStart(s) == s;
    TrimEndSpec(s);
    var r := TrimEnd(s);
    assert forall k :: |r| <= k < |s| ==> s[k] == s[|r|..][k - |r|];
    assert s[|text| - 1] == text[|text| - 1];
    assert forall k :: |text| <= k < |s| ==> s[k] == trailing[k - |text|];
    assert r != [] ==> r[|r| - 1] == s[|r| - 1];
    assert r == s[..|text|] == text;
  }
}

=== FILE: update_translations.dfy ===
/**
  The translation updater: it reads back the comparison report check_translations.py
  writes, then rewrites a translation file so that every missing string gets
  an empty entry and every obsolete entry moves below the obsolete marker.
  Files are lists of lines as Python's `readlines` returns them: each line
  keeps its final line break, and only the last line may lack one.
 */
module UpdateTranslations {
  import opened Common
  import opened Text
  import opened Seqs
  import CheckTranslations

  // Reading the comparison report

  const MISSING_MARK := "Missing translations"
  const OBSOLETE_MARK := "Potentially obsolete translations"

  datatype Section = NoSection | MissingSection | ObsoleteSection

  /** What the report parse has gathered so far: the section it is in, and the keys of each list in file order. */
  datatype ParseState = ParseState(section: Section, missing: seq<string>, obsolete: seq<string>)

  const START := ParseState(NoSection, [], [])

  /** ASCII digits only: the pattern's `\d`. */
  predicate IsDigit(c: char)
  {
    '0' <= c <= '9'
  }

  /** `s` without its leading digits. */
  function SkipDigits(s: string): (r: string)
    ensures |r| <= |s|
  {
    if s != [] && IsDigit(s[0]) then SkipDigits(s[1..]) else s
  }

  /** The position of the first line break in `s`, or `|s|` when there is none. */
  function FirstNewline(s: string): (n: nat)
    ensures n <= |s|
  {
    if s == [] || s[0] == '\n' then 0 else FirstNewline(s[1..]) + 1
  }

  /** The last quote in `s[1..hi]`. */
  function LastQuote(s: string, hi: nat): (k: Option<nat>)
    requires hi <= |s|
    ensures k.Some? ==> k.value < hi
  {
    if hi <= 1 then None
    else if s[hi - 1] == '"' then Some(hi - 1)
    else LastQuote(s, hi - 1)
  }

  /** The group `(.+)"` of the pattern, matched at the start of `s`. */
  function Capture(s: string): Option<string>
  {
    match LastQuote(s, FirstNewline(s))
    case None => None
    case Some(k) => Some(s[..k])
  }

  /**
    `re.match(r'\s*\d+\.\s*"(.+)"', line)` and its group: optional white
    space, at least one digit, a dot, optional white space, a quote, then
    the group.
   */
  function MatchItem(line: string): Option<string>
  {
    var a := TrimStart(line);
    var b := SkipDigits(a);
    if |b| == |a| || b == [] || b[0] != '.' then None
    else
      var c := TrimStart(b[1..]);
      if c == [] || c[0] != '"' then None
      else Capture(c[1..])
  }

  lemma {:induction false} FirstNewlineSpec(s: string)
    ensures '\n' !in s[..FirstNewline(s)]
    ensures FirstNewline(s) < |s| ==> s[FirstNewline(s)] == '\n'
  {
    if s != [] && s[0] != '\n' {
      FirstNewlineSpec(s[1..]);
      var n := FirstNewline(s[1..]);
      assert s[..n + 1] == [s[0]] + s[1..][..n];
    }
  }

  lemma {:induction false} LastQuoteSpec(s: string, hi: nat)
    requires hi <= |s|
    ensures LastQuote(s, hi).Some? ==> 1 <= LastQuote(s, hi).value && s[LastQuote(s, hi).value] == '"'
    ensures LastQuote(s, hi).Some? ==> forall j :: LastQuote(s, hi).value < j < hi ==> s[j] != '"'
    ensures LastQuote(s, hi).None? ==> forall j :: 1 <= j < hi ==> s[j] != '"'
    decreases hi
  {
    if hi > 1 && s[hi - 1] != '"' {
      LastQuoteSpec(s, hi - 1);
    }
  }

  /**
    The group is the longest non-empty run of characters other than a line
    break that is followed by a quote: a quote further on lies past a line
    break.
   */
  lemma CaptureSpec(s: string)
    ensures Capture(s).Some? ==> 0 < |Capture(s).value| < |s| && s[..|Capture(s).value|] == Capture(s).value
    ensures Capture(s).Some? ==> s[|Capture(s).value|] == '"' && '\n' !in Capture(s).value
    ensures Capture(s).Some? ==> forall j :: |Capture(s).value| < j < |s| && s[j] == '"' ==> FirstNewline(s) < j
    ensures Capture(s).None? ==> forall j :: 1 <= j < |s| && s[j] == '"' ==> FirstNewline(s) < j
  {
    var n := FirstNewline(s);
    FirstNewlineSpec(s);
    LastQuoteSpec(s, n);
    match LastQuote(s, n)
    case None =>
    case Some(k) =>
      assert s[..k] == s[..n][..k];
  }

  /** A quote-terminated key with no line break in it is captured whole. */
  lemma CaptureQuoted(key: string)
    requires key != [] && '\n' !in key
    ensures Capture(key + "\"") == Some(key)
  {
    var s := key + "\"";
    assert s[..|key|] == key;
    assert forall i :: 0 <= i < |key| ==> s[i] == key[i];
    assert s[|key|] == '"';
    FirstNewlineSpec(s);
  }

  /** What one report line means to `parse_comparison_result`. */
  datatype LineKind = MissingHeading | ObsoleteHeading | Skipped | Item(key: string) | Unmatched

  /** How the report loop reads one line, after stripping it; the headings are recognised first. */
  function Classify(line: string): LineKind
  {
    var s := Strip(line);
    if Contains(s, MISSING_MARK) then MissingHeading
    else if Contains(s, OBSOLETE_MARK) then ObsoleteHeading
    else if StartsWith(s, "--") || StartsWith(s, "Total") || s == [] then Skipped
    else
      match MatchItem(s)
      case None => Unmatched
      case Some(key) => Item(key)
  }

  function ClassifyAll(lines: seq<string>): (r: seq<LineKind>)
    ensures |r| == |lines|
  {
    seq(|lines|, i requires 0 <= i < |lines| => Classify(lines[i]))
  }

  /** A line that leaves the parse where it was. */
  predicate Passes(k: LineKind)
  {
    k.Skipped? || k.Unmatched?
  }

  /** One line of the report loop: a heading switches section, a numbered key joins the current section's list. */
  function Step(st: ParseState, k: LineKind): ParseState
  {
    match k
    case MissingHeading => st.(section := MissingSection)
    case ObsoleteHeading => st.(section := ObsoleteSection)
    case Item(key) =>
      if st.section == MissingSection then st.(missing := st.missing + [key])
      else if st.section == ObsoleteSection then st.(obsolete := st.obsolete + [key])
      else st
    case _ => st
  }

  /** The state after reading lines of the given kinds from state `st`. */
  function Read(st: ParseState, ks: seq<LineKind>): ParseState
    decreases |ks|
  {
    if ks == [] then st else Read(Step(st, ks[0]), ks[1..])
  }

  /** `parse_comparison_result`: the missing and the obsolete keys of a report, each in report order. */
  function ParseComparisonResult(lines: seq<string>): (r: (seq<string>, seq<string>))
  {
    var st := Read(START, ClassifyAll(lines));
    (st.missing, st.obsolete)
  }

  /** Reading in two parts is reading the first part, then the second from where the first left off. */
  lemma {:induction false} ReadAppend(st: ParseState, a: seq<LineKind>, b: seq<LineKind>)
    ensures Read(st, a + b) == Read(Read(st, a), b)
    decreases |a|
  {
    if a == [] {
      assert a + b == b;
    } else {
      assert (a + b)[0] == a[0] && (a + b)[1..] == a[1..] + b;
      ReadAppend(Step(st, a[0]), a[1..], b);
    }
  }

  lemma ClassifyAllAppend(a: seq<string>, b: seq<string>)
    ensures ClassifyAll(a + b) == ClassifyAll(a) + ClassifyAll(b)
  {
    assert forall i :: 0 <= i < |a| ==> (a + b)[i] == a[i];
    assert forall i :: |a| <= i < |a| + |b| ==> (a + b)[i] == b[i - |a|];
  }

  /** Lines that all pass leave the parse where it was. */
  lemma {:induction false} ReadPasses(st: ParseState, ks: seq<LineKind>)
    requires forall i :: 0 <= i < |ks| ==> Passes(ks[i])
    ensures Read(st, ks) == st
    decreases |ks|
  {
    if ks != [] {
      ReadPasses(st, ks[1..]);
    }
  }

  /** Numbered keys read in a section join that section's list, in order. */
  lemma {:induction false} ReadItems(st: ParseState, keys: seq<string>)
    requires st.section != NoSection
    ensures Read(st, ItemKinds(keys)) ==
              if st.section == MissingSection then st.(missing := st.missing + keys)
              else st.(obsolete := st.obsolete + keys)
    decreases |keys|
  {
    if keys == [] {
      assert st.missing + keys == st.missing && st.obsolete + keys == st.obsolete;
    } else {
      var ks := ItemKinds(keys);
      assert ks[0] == Item(keys[0]) && ks[1..] == ItemKinds(keys[1..]);
      ReadItems(Step(st, Item(keys[0])), keys[1..]);
      assert st.missing + keys == st.missing + [keys[0]] + keys[1..];
      assert st.obsolete + keys == st.obsolete + [keys[0]] + keys[1..];
    }
  }

  function ItemKinds(keys: seq<string>): (r: seq<LineKind>)
    ensures |r| == |keys|
  {
    seq(|keys|, i requires 0 <= i < |keys| => Item(keys[i]))
  }
}

=== FILE: voting.dfy ===
/**
  The client's view of server votes: the state of the running vote, and the
  list of vote options the server announced. The source keeps the options in
  a doubly linked list of heap nodes and parks removed nodes on a recycle
  list for reuse; here both lists are sequences of node numbers, the option
  list paired with its descriptions, and the heap is the count of nodes taken
  from it since its last reset.
 */
module Voting {
  import opened Common
  import opened Seqs
  import opened Text

  /** Descriptions one option-list message can carry. */
  const LIST_ADD_MAX := 15

  /**
    The option list: `descriptions` from `m_pFirst` to `m_pLast` and the node
    holding each; `count` is `m_NumVoteOptions`; `recycle` lists the recycled
    nodes in the order their links chain them, and `recycleFirst` is
    `m_pRecycleFirst`, the node `AddOption` would reuse next; `heapNodes`
    counts the nodes taken from the heap since it was last reset.
   */
  datatype Options = Options(
    descriptions: seq<string>,
    nodes: seq<nat>,
    count: int,
    recycle: seq<nat>,
    recycleFirst: Option<nat>,
    heapNodes: nat)

  /** Every node taken from the heap so far, on either list. */
  function Pool(o: Options): multiset<nat>
  {
    multiset(o.nodes) + multiset(o.recycle)
  }

  /**
    The list invariant: one node per option, the count is the list length,
    every node on the lists came from the heap and sits on them exactly
    once, and a recycle head, when set, is the first recycled node.
   */
  predicate Wf(o: Options)
  {
    && |o.nodes| == |o.descriptions|
    && o.count == |o.descriptions|
    && (forall n :: n in Pool(o) ==> n < o.heapNodes && Pool(o)[n] == 1)
    && (o.recycleFirst.Some? ==> o.recycle != [] && o.recycleFirst.value == o.recycle[0])
  }

  /** The recycle head as the corrected removal keeps it: set exactly when the recycle list is not empty. */
  predicate Linked(o: Options)
  {
    o.recycleFirst == if o.recycle == [] then None else Some(o.recycle[0])
  }

  /** `ClearOptions`: no options, no recycled nodes, and the heap reset. */
  function ClearOptions(): (o: Options)
    ensures Wf(o) && Linked(o)
    ensures o.descriptions == [] && o.count == 0 && o.heapNodes == 0
  {
    Options([], [], 0, [], None, 0)
  }

  /**
    `AddOption`: append the description at the end of the list, in the
    recycle head's node when there is one and in a fresh heap node otherwise.
   */
  function AddOption(o: Options, description: string): (r: Options)
    requires Wf(o)
    ensures Wf(r)
    ensures r.descriptions == o.descriptions + [description] && r.count == o.count + 1
    ensures r.heapNodes == if o.recycleFirst.None? then o.heapNodes + 1 else o.heapNodes
    ensures o.recycleFirst.None? ==> r.recycle == o.recycle && r.recycleFirst == None
    ensures Linked(o) ==> Linked(r)
  {
    match o.recycleFirst
    case Some(node) =>
      var rest := o.recycle[1..];
      assert o.recycle == [node] + rest;
      assert Pool(o) == multiset(o.nodes + [node]) + multiset(rest);
      o.(descriptions := o.descriptions + [description], nodes := o.nodes + [node], count := o.count + 1,
         recycle := rest, recycleFirst := if rest == [] then None else Some(rest[0]))
    case None =>
      var node := o.heapNodes;
      var r := o.(descriptions := o.descriptions + [description], nodes := o.nodes + [node], count := o.count + 1,
                  heapNodes := o.heapNodes + 1);
      assert Pool(r) == Pool(o) + multiset{node};
      r
  }

  /** `AddOption` for each description in turn. */
  function AddOptions(o: Options, descriptions: seq<string>): (r: Options)
    requires Wf(o)
    ensures Wf(r)
    ensures r.descriptions == o.descriptions + descriptions && r.count == o.count + |descriptions|
    ensures Linked(o) ==> Linked(r)
    decreases |descriptions|
  {
    if descriptions == [] then o
    else
      assert o.descriptions + descriptions == o.descriptions + [descriptions[0]] + descriptions[1..];
      AddOptions(AddOption(o, descriptions[0]), descriptions[1..])
  }

  /** The option-list message: its first `numOptions` descriptions, at most fifteen of them, in order. */
  function ListAdd(o: Options, numOptions: int, descriptions: seq<string>): (r: Options)
    requires Wf(o) && |descriptions| == LIST_ADD_MAX
    ensures Wf(r)
    ensures r.descriptions == o.descriptions + descriptions[..Clamp(numOptions, 0, LIST_ADD_MAX)]
    ensures r.count == o.count + Clamp(numOptions, 0, LIST_ADD_MAX)
  {
    AddOptions(o, descriptions[..Clamp(numOptions, 0, LIST_ADD_MAX)])
  }

  /** The option list with the node at `i` taken out, keeping the others in order. */
  function Unlink(o: Options, i: nat): (r: Options)
    requires Wf(o) && i < |o.descriptions|
    ensures r.descriptions == RemoveAt(o.descriptions, i) && r.nodes == RemoveAt(o.nodes, i)
    ensures r.count == o.count - 1
    ensures multiset(r.nodes) + multiset{o.nodes[i]} == multiset(o.nodes)
  {
    o.(descriptions := RemoveAt(o.descriptions, i), nodes := RemoveAt(o.nodes, i), count := o.count - 1)
  }

  /**
    Option removal as written: the first option with an equal description is
    unlinked and its node appended to the recycle list, but the recycle head
    is never set, so the node is never reused.
   */
  function RemoveOption(o: Options, description: string): (r: Options)
    requires Wf(o)
    ensures Wf(r)
    ensures description !in o.descriptions ==> r == o
    ensures description in o.descriptions ==>
              var i := FirstIndex(o.descriptions, description).value;
              r.descriptions == o.descriptions[..i] + o.descriptions[i + 1..] && r.count == o.count - 1
    ensures r.recycleFirst == o.recycleFirst && r.heapNodes == o.heapNodes
  {
    match FirstIndex(o.descriptions, description)
    case None => o
    case Some(i) =>
      var u := Unlink(o, i);
      var r := u.(recycle := o.recycle + [o.nodes[i]]);
      assert Pool(r) == Pool(o);
      assert o.recycle != [] ==> r.recycle[0] == o.recycle[0];
      r
  }

  /** Option removal with the recycle head set when the recycle list was empty. */
  function RemoveOptionFixed(o: Options, description: string): (r: Options)
    requires Wf(o) && Linked(o)
    ensures Wf(r)
    ensures description !in o.descriptions ==> r == o
    ensures description in o.descriptions ==>
              var i := FirstIndex(o.descriptions, description).value;
              r.descriptions == o.descriptions[..i] + o.descriptions[i + 1..] && r.count == o.count - 1
    ensures r.heapNodes == o.heapNodes
    ensures Linked(r)
  {
    match FirstIndex(o.descriptions, description)
    case None => o
    case Some(i) =>
      var u := Unlink(o, i);
      var r := u.(recycle := o.recycle + [o.nodes[i]],
                  recycleFirst := if o.recycleFirst.None? then Some(o.nodes[i]) else o.recycleFirst);
      assert Pool(r) == Pool(o);
      assert o.recycle != [] ==> r.recycle[0] == o.recycle[0];
      assert o.recycle == [] ==> r.recycle[0] == o.nodes[i];
      r
  }

  /**
    As written, a removed option's node is never reused: once the options
    are set up, a removal followed by an addition always takes a new node
    from the heap, and the recycle list only grows until the options are
    cleared.
   */
  lemma RecycledNodeNeverReused(o: Options, removed: string, added: string)
    requires Wf(o) && o.recycleFirst.None? && removed in o.descriptions
    ensures AddOption(RemoveOption(o, removed), added).heapNodes == o.heapNodes + 1
    ensures |AddOption(RemoveOption(o, removed), added).recycle| == |o.recycle| + 1
    ensures AddOption(RemoveOption(o, removed), added).recycleFirst.None?
  {
  }

  /** With the head set, the node a removal frees is the one the next addition takes: the heap does not grow. */
  lemma RecycledNodeReused(o: Options, removed: string, added: string)
    requires Wf(o) && Linked(o) && removed in o.descriptions
    ensures AddOption(RemoveOptionFixed(o, removed), added).heapNodes == o.heapNodes
    ensures o.recycle == [] ==> AddOption(RemoveOptionFixed(o, removed), added).recycle == []
  {
  }

  /** The two removals leave the same options: the defect is invisible in the list, only in the heap. */
  lemma RemovalsAgreeOnOptions(o: Options, description: string)
    requires Wf(o) && Linked(o)
    ensures RemoveOption(o, description).descriptions == RemoveOptionFixed(o, description).descriptions
    ensures RemoveOption(o, description).count == RemoveOptionFixed(o, description).count
  {
  }

  /** Adding an option the list does not hold, then removing it, leaves the original descriptions. */
  lemma RemoveUndoesAdd(o: Options, description: string)
    requires Wf(o) && description !in o.descriptions
    ensures RemoveOption(AddOption(o, description), description).descriptions == o.descriptions
  {
    var a := AddOption(o, description);
    assert FirstIndex(a.descriptions, description).value == |o.descriptions|;
  }

  // Calling and removing options by position

  /** A console command or network message the client sends. */
  datatype Command =
    | Rcon(line: string)
    | CallVote(kind: string, value: string, reason: string)
    | CastVote(vote: int)

  /**
    The walk `CallvoteOption` and `RemovevoteOption` share: the description
    of the `id`-th option, counting from 0, if there is one.
   */
  method NthOption(o: Options, id: int) returns (r: Option<string>)
    requires Wf(o)
    ensures r.Some? <==> 0 <= id < o.count
    ensures r.Some? ==> r.value == o.descriptions[id]
  {
    var i := 0;
    var left := id;
    while i < |o.descriptions| && left >= 0
      invariant 0 <= i <= |o.descriptions|
      invariant left == id - i
      invariant id < 0 ==> i == 0
      invariant id >= 0 ==> i <= id
    {
      if left == 0 {
        return Some(o.descriptions[i]);
      }
      left := left - 1;
      i := i + 1;
    }
    return None;
  }

  /** The remote-console line forcing an option: description and reason, each escaped and quoted. */
  function ForceOptionLine(description: string, reason: string): string
  {
    "force_vote option \"" + Escape(description) + "\" \"" + Escape(reason) + "\""
  }

  /** The remote-console line removing an option by its escaped, quoted description. */
  function RemoveVoteLine(description: string): string
  {
    "remove_vote \"" + Escape(description) + "\""
  }

  /** `CallvoteOption`: force the `id`-th option over the remote console, or call a vote on it. */
  method CallvoteOption(o: Options, id: int, reason: string, force: bool) returns (r: Option<Command>)
    requires Wf(o)
    ensures r.Some? <==> 0 <= id < o.count
    ensures r.Some? && force ==> r.value == Rcon(ForceOptionLine(o.descriptions[id], reason))
    ensures r.Some? && !force ==> r.value == CallVote("option", o.descriptions[id], reason)
  {
    var option := NthOption(o, id);
    match option
    case None =>
      r := None;
    case Some(description) =>
      r := Some(if force then Rcon(ForceOptionLine(description, reason)) else CallVote("option", description, reason));
  }

  /** `RemovevoteOption`: ask the remote console to remove the `id`-th option. */
  method RemovevoteOption(o: Options, id: int) returns (r: Option<Command>)
    requires Wf(o)
    ensures r.Some? <==> 0 <= id < o.count
    ensures r.Some? ==> r.value == Rcon(RemoveVoteLine(o.descriptions[id]))
  {
    var option := NthOption(o, id);
    match option
    case None =>
      r := None;
    case Some(description) =>
      r := Some(Rcon(RemoveVoteLine(description)));
  }

  /** The remote console reads the option's exact description back out of the removal line. */
  lemma RemoveVoteLineReadsBack(description: string)
    ensures var line := RemoveVoteLine(description);
      StartsWith(line, "remove_vote \"") && ReadQuoted(line[13..]) == Some((description, []))
  {
    var line := RemoveVoteLine(description);
    assert line[13..] == Escape(description) + "\"" + [];
    EscapeReadsBack(description, []);
  }

  /** The forcing line carries the description and the reason, each read back exactly. */
  lemma ForceOptionLineReadsBack(description: string, reason: string)
    ensures var line := ForceOptionLine(description, reason);
      var head := "force_vote option \"";
      StartsWith(line, head)
      && ReadQuoted(line[|head|..]) == Some((description, " \"" + Escape(reason) + "\""))
      && ReadQuoted(Escape(reason) + "\"") == Some((reason, []))
  {
    QuotedPairReadsBack("force_vote option \"", description, reason);
  }

  // The running vote

  datatype VoteState = VoteState(
    closetime: int, description: string, reason: string,
    yes: int, no: int, pass: int, total: int,
    /** Our own vote: 1 yes, -1 no, 0 none. */
    voted: int)

  /** `OnReset`: no vote running, nothing counted, nothing voted. */
  function OnReset(v: VoteState): (r: VoteState)
    ensures r.closetime == 0 && r.description == [] && r.reason == []
    ensures r.yes == 0 && r.no == 0 && r.pass == 0 && r.total == 0 && r.voted == 0
  {
    VoteState(0, [], [], 0, 0, 0, 0, 0)
  }

  /**
    The vote-set message: always a reset first; a non-zero timeout then
    starts a vote with the given description and reason, closing `timeout`
    seconds from `now` on a clock of `freq` ticks per second.
   */
  function VoteSet(v: VoteState, timeout: int, description: string, reason: string, now: int, freq: int): (r: VoteState)
    ensures r.yes == 0 && r.no == 0 && r.pass == 0 && r.total == 0 && r.voted == 0
    ensures timeout == 0 ==> r == OnReset(v)
    ensures timeout != 0 ==> r.description == description && r.reason == reason && r.closetime == now + freq * timeout
  {
    var cleared := OnReset(v);
    if timeout == 0 then cleared
    else cleared.(description := description, reason := reason, closetime := now + freq * timeout)
  }

  /** `Vote`: remember our vote and send it. */
  function Vote(v: VoteState, vote: int): (r: (VoteState, Command))
    ensures r.0 == v.(voted := vote) && r.1 == CastVote(vote)
  {
    (v.(voted := vote), CastVote(vote))
  }

  /** `ConVote`: "yes" in any case votes 1, "no" in any case votes -1, any other word does nothing. */
  function ConVote(v: VoteState, word: string): (r: (VoteState, Option<Command>))
    ensures EqualsNoCase(word, "yes") ==> r == (v.(voted := 1), Some(CastVote(1)))
    ensures EqualsNoCase(word, "no") ==> r == (v.(voted := -1), Some(CastVote(-1)))
    ensures !EqualsNoCase(word, "yes") && !EqualsNoCase(word, "no") ==> r == (v, None)
  {
    if EqualsNoCase(word, "yes") then
      var (next, cmd) := Vote(v, 1);
      (next, Some(cmd))
    else if EqualsNoCase(word, "no") then
      var (next, cmd) := Vote(v, -1);
      (next, Some(cmd))
    else (v, None)
  }

  /** The words `ConVote` accepts are a matter of letters only, not of their case. */
  lemma ConVoteIgnoresCase(v: VoteState, word: string, word': string)
    requires EqualsNoCase(word, word')
    ensures ConVote(v, word) == ConVote(v, word')
  {
  }

  // Messages

  datatype Message =
    | VoteSetMsg(timeout: int, description: string, reason: string)
    | VoteStatusMsg(yes: int, no: int, pass: int, total: int)
    | ClearOptionsMsg
    | OptionListAddMsg(numOptions: int, listed: seq<string>)
    | OptionAddMsg(added: string)
    | OptionRemoveMsg(removed: string)

  predicate MessageOk(msg: Message)
  {
    msg.OptionListAddMsg? ==> |msg.listed| == LIST_ADD_MAX
  }

  datatype Client = Client(options: Options, vote: VoteState)

  /** The constructor: no options, and no vote running. */
  function Initial(): (c: Client)
    ensures Wf(c.options) && c.options.count == 0 && c.vote.voted == 0
  {
    Client(ClearOptions(), VoteState(0, [], [], 0, 0, 0, 0, 0))
  }

  /** `OnMessage`: each vote message updates the options or the vote; the option count stays the list length. */
  function OnMessage(c: Client, msg: Message, now: int, freq: int): (r: Client)
    requires Wf(c.options) && MessageOk(msg)
    ensures Wf(r.options) && r.options.count == |r.options.descriptions|
    ensures !msg.VoteSetMsg? && !msg.VoteStatusMsg? ==> r.vote == c.vote
    ensures msg.VoteSetMsg? || msg.VoteStatusMsg? ==> r.options == c.options
  {
    match msg
    case VoteSetMsg(timeout, description, reason) =>
      c.(vote := VoteSet(c.vote, timeout, description, reason, now, freq))
    case VoteStatusMsg(yes, no, pass, total) =>
      c.(vote := c.vote.(yes := yes, no := no, pass := pass, total := total))
    case ClearOptionsMsg =>
      c.(options := ClearOptions())
    case OptionListAddMsg(n, listed) =>
      c.(options := ListAdd(c.options, n, listed))
    case OptionAddMsg(added) =>
      c.(options := AddOption(c.options, added))
    case OptionRemoveMsg(removed) =>
      c.(options := RemoveOption(c.options, removed))
  }

  /** Every message in turn. */
  function Run(c: Client, msgs: seq<Message>, now: int, freq: int): (r: Client)
    requires Wf(c.options) && forall i :: 0 <= i < |msgs| ==> MessageOk(msgs[i])
    ensures Wf(r.options)
    decreases |msgs|
  {
    if msgs == [] then c else Run(OnMessage(c, msgs[0], now, freq), msgs[1..], now, freq)
  }

  /** From construction on, the recycle head is never set, whatever the server sends. */
  lemma {:induction false} RecycleHeadNeverSet(c: Client, msgs: seq<Message>, now: int, freq: int)
    requires Wf(c.options) && c.options.recycleFirst.None?
    requires forall i :: 0 <= i < |msgs| ==> MessageOk(msgs[i])
    ensures Run(c, msgs, now, freq).options.recycleFirst.None?
    decreases |msgs|
  {
    if msgs != [] {
      var next := OnMessage(c, msgs[0], now, freq);
      assert next.options.recycleFirst.None? by {
        if msgs[0].OptionListAddMsg? {
          AddOptionsKeepsHeadUnset(c.options, msgs[0].listed[..Clamp(msgs[0].numOptions, 0, LIST_ADD_MAX)]);
        }
      }
      RecycleHeadNeverSet(next, msgs[1..], now, freq);
    }
  }

  lemma {:induction false} AddOptionsKeepsHeadUnset(o: Options, descriptions: seq<string>)
    requires Wf(o) && o.recycleFirst.None?
    ensures AddOptions(o, descriptions).recycleFirst.None?
    decreases |descriptions|
  {
    if descriptions != [] {
      AddOptionsKeepsHeadUnset(AddOption(o, descriptions[0]), descriptions[1..]);
    }
  }
}
